=== FILE: README.md ===
# Smart clinic visit queue, modelled in Dafny

This project models the visit-queue engine of a school clinic web application. It covers two sides.

**Server side.** These are the route handlers a kiosk, the nurses and the administrators call:

- check-in;
- the staff queue listing and its status updates;
- the queue-position lookup;
- the emergency listing and escalation;
- guest sign-in;
- the administrator's user table;
- the student search and the visit history.

**Client side.** This is the code with real logic:

- the three Redux slices (queue, interface, sign-in);
- the queue API's response transforms;
- the nurse board (sort, columns, filters, optimistic update, background poll, counters);
- the administrator's case list and recent-cases panel;
- the time and colour helpers;
- the kiosk page's check-in flow.

Modules follow the source files one to one.

- **`Records`** holds the three stored document kinds: Visit, User and GuestSession. Each comes with:
  - its enums;
  - a validity predicate standing for the schema's validators;
  - the trim setters;
  - the user's pre-save hook and password check.
- **`ClinicStore.Store`** is the database.
  - It is a class holding the visits, users and guest sessions as sequences, plus an id counter.
  - Each state-changing handler is one of its methods, proved equal to a pure function of the route module.
  - The invariant it keeps: ids are distinct and below the counter, student ids are unique, and session tokens are unique.
- **Read-only handlers** are functions over a snapshot of the store.
- **Injected inputs.** The clock (`now`), local midnight (`todayStart`), the signed-in session and the cookie are parameters. So are the random bytes of a token, bcrypt (`hash`, `matches`) and the store's comparison of priority strings (`geq`).
- **Client stores and pages.**
  - The Redux slices, the nurse board and the kiosk page are classes whose methods are the reducers and handlers.
  - Each method's new state is stated through a `Snapshot()` of all its fields, so "every other field unchanged" is one equation.
  - The replies of the requests a page makes are parameters of its handlers.

The store's priority ordering is a parameter on purpose. The server sorts and compares the stored priority string (`priority: -1`, `$gte`). A store ordering strings lexicographically would not give emergency > high > medium > low. The three-key ranking is therefore proved a total preorder for every total-preorder `geq`, and the tier order is proved only for the nurse board's comparator, which uses an explicit numeric map.

Some behaviour is modelled as written, not as the comments suggest:

- The duplicate check-in guard blocks only on a waiting visit; an in-progress one does not block.
- An unrecognised severity maps to medium, while the schema default is low.
- `start` and `complete` never look at the current status and never record the nurse.
- A visit missing from the sorted waiting list gets queue number 1.
- Guest sessions are refused by the lookup at the very instant `isExpired` still calls them current.

## Model

| member | source | states |
|---|---|---|
| Records.ParseStatus | models/Visit.ts:49-53 | a parsed status is named by the string it came from |
| Records.StatusNameRoundTrip | models/Visit.ts:49-53 | every status name parses back to its status, and exactly the three enum strings parse |
| Records.ParsePriority | models/Visit.ts:58-62 | a parsed priority is named by the string it came from |
| Records.PriorityNameRoundTrip | models/Visit.ts:58-62 | every priority name parses back, and exactly the four enum strings parse |
| Records.ParseRole | models/User.ts:29-33 | a parsed role is named by the string it came from |
| Records.RoleNameRoundTrip | models/User.ts:29-33 | every role name parses back, and exactly student, nurse and admin parse |
| Records.AppendUniqueStudentId | models/User.ts:23-28 | adding a user whose student id no stored user holds keeps the unique index on studentId satisfied |
| Records.PreSave | models/User.ts:62-72 | the hook changes at most the password; unmodified passwords are kept, a modified one is replaced by its hash |
| Records.ComparePassword | models/User.ts:75-78 | a user without a password never matches; otherwise the bcrypt comparison decides |
| Common.Lower | models/User.ts:38-41 | the lower-case setter keeps the length and lowers each character |
| Common.TrimStartDropsSpaces | models/Visit.ts:27-36 | trimming the front keeps a suffix and drops only white space |
| Common.TrimEndDropsSpaces | models/Visit.ts:27-36 | trimming the back keeps a prefix and drops only white space |
| Common.TrimmedEnds | models/Visit.ts:27-36 | a trimmed value neither starts nor ends with white space |
| Common.TrimIdempotent | models/User.ts:18-28 | trimming a stored (already trimmed) value again changes nothing |
| Common.NatToString | lib/utils.ts:8-18 | a rendered number is a non-empty run of digits without a leading zero |
| Common.DecimalRoundTrip | lib/utils.ts:8-18 | reading the rendered digits back gives the number |
| CheckInRoute.SeverityToPriority | app/api/check-in/route.ts:114-118 | Emergency, High and Low map to their priorities, and every other severity (Medium included) to medium |
| CheckInRoute.EstimatedWait | app/api/check-in/route.ts:120-132 | the estimate is never below 5 minutes |
| CheckInRoute.EstimatedWaitMonotone | app/api/check-in/route.ts:120-132 | a longer waiting queue never shortens the estimate, for every priority |
| CheckInRoute.EstimatedWaitByUrgency | app/api/check-in/route.ts:120-132 | emergency is 5, high 10, and for one queue a more urgent priority never waits longer |
| CheckInRoute.SessionIdentity | app/api/check-in/route.ts:45-53 | the session's name, student id and user id are taken when set and become "" otherwise; the e-mail stands in for the mobile exactly when set; the class is passed through |
| CheckInRoute.ResolveIdentity | app/api/check-in/route.ts:42-80 | session first, then body name plus student id, then an accepted guest session; nothing else identifies |
| CheckInRoute.FindWaiting | app/api/check-in/route.ts:89-93 | finds a stored waiting visit of the student exactly when one exists |
| CheckInRoute.OnlyWaitingBlocks | app/api/check-in/route.ts:89-93 | in-progress and completed visits of the student are never found by the guard |
| CheckInRoute.Existing | app/api/check-in/route.ts:100-108 | the refusal reports the waiting visit's id, name, student id, priority, symptoms, emergency flag and creation time |
| CheckInRoute.NewVisit | app/api/check-in/route.ts:134-146 | the new visit is waiting, with the computed priority and wait, the submitted flag (false when absent) and trimmed names |
| CheckInRoute.Admit | app/api/check-in/route.ts:89-148 | already-in-queue exactly when a waiting visit of the student exists; success exactly when none does and the candidate visit passes the schema; the stored visit is that candidate and the reply carries its id, wait, status, priority, symptoms and flag |
| CheckInRoute.Submit | app/api/check-in/route.ts:25-87 | missing or empty symptoms, then a missing severity, then no identity are refused before any lookup or insert; past those guards the outcome is Admit's for the resolved identity |
| CheckInRoute.DuplicateGuard | app/api/check-in/route.ts:89-112 | refusal iff a waiting visit with the same trimmed student id is stored, and the reply describes such a visit |
| CheckInRoute.SuccessfulCheckIn | app/api/check-in/route.ts:134-160 | a success inserts one valid waiting visit whose priority, wait, flag and symptoms are those computed and submitted |
| CheckInRoute.FlagDoesNotAlterPriority | app/api/check-in/route.ts:114-146 | changing the emergency flag changes neither the priority nor the wait |
| CheckInRoute.IdentityIgnoresFlag | app/api/check-in/route.ts:42-80 | the identity resolved does not depend on the emergency flag |
| CheckInRoute.ResolveViewer | app/api/check-in/route.ts:176-199 | GET identifies by session, else by an accepted guest session (which has no user id) |
| CheckInRoute.FindActive | app/api/check-in/route.ts:208-215 | finds a waiting or in-progress visit matching the user id or student id exactly when one exists |
| CheckInRoute.QueuePosition | app/api/check-in/route.ts:225-240 | position is 1 plus the count of earlier waiting visits ranked at least as high, so at least 1 |
| CheckInRoute.QueuePositionBound | app/api/check-in/route.ts:225-240 | a waiting visit's position never exceeds the number of waiting visits |
| CheckInRoute.QueuePositionOrderFree | app/api/check-in/route.ts:225-230 | the position does not depend on the order the store holds visits in |
| CheckInRoute.CurrentVisit | app/api/check-in/route.ts:172-243 | 401 exactly without a viewer; null data exactly when no active visit matches; otherwise that visit's id, status, symptoms, priority, wait and creation time with its position |
| QueueRoute.RankingIsTotalPreorder | app/api/queue/route.ts:36-41 | the flag, priority, createdAt order is a total preorder whenever the priority comparison is |
| QueueRoute.RanksNoLaterTransitive | app/api/queue/route.ts:36-41 | the three-key order is transitive |
| QueueRoute.EmergenciesFirst | app/api/queue/route.ts:36-41 | every flagged visit ranks strictly before every unflagged one |
| QueueRoute.Listing | app/api/queue/route.ts:26-41 | the listing is a permutation of the visits the status filter selects |
| QueueRoute.ListingSorted | app/api/queue/route.ts:36-41 | the listing is sorted by the three-key order |
| QueueRoute.ListingMembers | app/api/queue/route.ts:26-36 | a visit is listed iff it is stored and matches the status filter |
| QueueRoute.PageOf | app/api/queue/route.ts:42-56 | a page holds at most `limit` visits, the i-th numbered skip+i+1 and equal to that entry of the listing |
| QueueRoute.PagesAreContiguous | app/api/queue/route.ts:42-56 | when the next page is not empty this one is full, and the next page's first position follows this page's last |
| QueueRoute.CeilDiv | app/api/queue/route.ts:87 | the page count is the least number of pages covering the count |
| QueueRoute.Stats | app/api/queue/route.ts:58-90 | each status total counts the visits with that status; emergencies count the open flagged visits; totalPages is the ceiling of the listing size over the limit; page and total echo the request; average wait is 15 |
| QueueRoute.StatusCountsPartition | app/api/queue/route.ts:59-83 | the three per-status counts sum to the number of visits |
| QueueRoute.OpenEmergenciesBound | app/api/queue/route.ts:68 | open emergencies never exceed waiting plus in-progress visits |
| QueueRoute.List | app/api/queue/route.ts:7-98 | non-staff get 401; unsupported paging exactly for staff with a page or limit below 1; pages default to 50 and 1; the page is exactly the listing's slice at (p-1)L with Stats' summary; listed visits match the filter and are stored |
| QueueRoute.ListPage | app/api/queue/route.ts:33-90 | page p of L is exactly the sorted listing's slice after (p-1)L visits, at most L visits numbered consecutively from (p-1)L+1, with Stats' summary |
| QueueRoute.ListedAreSelected | app/api/queue/route.ts:36-56 | every visit on a page is stored and matches the status filter |
| QueueRoute.PageIsOrdered | app/api/queue/route.ts:36-56 | every page is in the three-key order |
| QueueRoute.ParseAction | app/api/queue/route.ts:135-157 | exactly the four action names are accepted, each parsed to the action it names |
| QueueRoute.UpdateFor | app/api/queue/route.ts:133-159 | only start and complete set a status; only update_priority with a truthy priority sets one; every update stamps updatedAt |
| QueueRoute.Apply | app/api/queue/route.ts:161-165 | an update keeps the id and creation time and stamps updatedAt |
| QueueRoute.ActionEffects | app/api/queue/route.ts:135-159 | per action exactly which fields change, whatever the current status; the assigned nurse is never written |
| QueueRoute.CompleteIsUnguarded | app/api/queue/route.ts:136-143 | completing a completed visit is accepted, and start reopens it to in-progress |
| QueueRoute.IndexOfId | app/api/queue/route.ts:161-165 | finds the first visit with the id, and none exactly when no visit has it |
| QueueRoute.Patch | app/api/queue/route.ts:109-172 | 401 iff not staff; 400 iff the id or action is missing; invalid action iff it does not parse; 404 iff no visit has the id; updated iff none of these, and then only that visit is replaced by the action's update; every refusal leaves the store unchanged |
| PositionRoute.WaitingOrder | app/api/queue/position/route.ts:58-65 | the ordered list is a permutation of the waiting visits |
| PositionRoute.QueueNumber | app/api/queue/position/route.ts:56-77 | the queue number is at least 1 |
| PositionRoute.QueuePosition | app/api/queue/position/route.ts:9-92 | 400 iff the id is missing; 404 iff no waiting visit, even with one in progress; expired iff the waiting visit is strictly over one hour old; a position exactly otherwise, with its number in the ranked waiting list and the waiting total |
| PositionRoute.SearchPosition | app/api/queue/position/route.ts:67-74 | the loop stops at the first visit with the id, and leaves 0 when none has it |
| PositionRoute.QueueNumberInRange | app/api/queue/position/route.ts:49-77 | a waiting visit is found, and its number lies between 1 and the number of waiting visits |
| PositionRoute.MissingVisitIsFirst | app/api/queue/position/route.ts:56-77 | a visit absent from the list gets queue number 1 |
| PositionRoute.QueueNumberCountsPredecessors | app/api/queue/position/route.ts:68-77 | the queue number is one more than the visits listed before the first match |
| EmergencyRoute.PriorityThenAgeIsTotalPreorder | app/api/queue/emergency/route.ts:24-27 | priority then createdAt is a total preorder whenever the priority comparison is |
| EmergencyRoute.Numbered | app/api/queue/emergency/route.ts:30-39 | the i-th visit is numbered i+1 |
| EmergencyRoute.EmergencyList | app/api/queue/emergency/route.ts:5-44 | exactly the flagged waiting or in-progress visits, numbered 1..n, with no authorisation check |
| EmergencyRoute.NumberedMembership | app/api/queue/emergency/route.ts:30-39 | numbering neither adds nor drops a visit |
| EmergencyRoute.EmergencyListOrdered | app/api/queue/emergency/route.ts:24-27 | the list is in priority-then-age order |
| EmergencyRoute.Escalate | app/api/queue/emergency/route.ts:75-80 | sets the flag and priority emergency, stamps updatedAt, and changes no other field |
| EmergencyRoute.EscalateIdempotent | app/api/queue/emergency/route.ts:75-80 | escalating twice equals escalating once at the later time |
| EmergencyRoute.IndexOfWaiting | app/api/queue/emergency/route.ts:70-74 | finds the first waiting visit of the student, and none exactly when there is none |
| EmergencyRoute.IndexOfWaitingIs | app/api/queue/emergency/route.ts:70-74 | a waiting visit with no waiting visit of the student before it is the one found |
| EmergencyRoute.Mark | app/api/queue/emergency/route.ts:55-101 | 400 iff the id is missing; 404 iff no waiting visit; marked iff a waiting visit of the student exists, and then the first one is escalated and echoed with its id, name and student id; in-progress and completed visits untouched |
| EmergencyRoute.MarkTwice | app/api/queue/emergency/route.ts:70-82 | marking again picks the same visit and leaves the same flag and priority |
| GuestLogin.HexChar | app/api/guest-login/route.ts:23 | a nibble renders as a hexadecimal digit |
| GuestLogin.HexCharValue | app/api/guest-login/route.ts:23 | a hexadecimal digit reads back to the nibble that renders it |
| GuestLogin.HexEncode | app/api/guest-login/route.ts:23 | two hexadecimal digits per byte |
| GuestLogin.HexDecode | app/api/guest-login/route.ts:23 | decoding halves the length |
| GuestLogin.HexRoundTrip | app/api/guest-login/route.ts:23 | decoding the hex rendering gives back the bytes |
| GuestLogin.SessionToken | app/api/guest-login/route.ts:23 | the token is 64 hex characters that decode to the 32 random bytes |
| GuestLogin.NewSession | app/api/guest-login/route.ts:22-35 | expiresAt is now + 120000 ms, equal to the cookie's 120 s; name, id and mobile stored trimmed |
| GuestLogin.Login | app/api/guest-login/route.ts:11-58 | missing name or studentId gives 400 and stores nothing; a complete request succeeds exactly when the new session passes the schema; success replies with the name, id, mobile and expiry, stores the session and sets the cookie to the token |
| GuestLogin.Register | models/GuestSession.ts:27-31 | success exactly for a complete request whose new session passes the schema and whose token is not taken; then the session is appended and tokens stay unique |
| GuestLogin.AppendFreshToken | models/GuestSession.ts:27-31 | appending a session with an untaken token keeps tokens unique |
| GuestLogin.FindSession | app/api/guest-login/route.ts:84-94 | a session is found iff one with the token has expiresAt > now |
| GuestLogin.ExpiryBoundary | models/GuestSession.ts:45-47 | at now == expiresAt isExpired is false but the lookup refuses; before both accept, after both refuse |
| GuestLogin.FindSessionUnique | app/api/guest-login/route.ts:84-105 | with unique tokens the lookup returns the stored session unchanged iff it expires strictly after now |
| GuestLogin.Validate | app/api/guest-login/route.ts:71-105 | no or empty cookie gives the "no guest session" 401 before any lookup; session data iff a current session carries the cookie, with that session's five fields; otherwise the "invalid or expired" 401 |
| GuestLogin.SignInThenValidate | app/api/guest-login/route.ts:22-105 | after a sign-in, presenting the cookie returns the trimmed details until now + 120000 and is refused from then on |
| GuestLogin.Purge | models/GuestSession.ts:42 | the TTL purge keeps exactly the sessions not yet past expiry |
| GuestLogin.PurgeInvisible | models/GuestSession.ts:42 | purging at any moment up to now never changes what a lookup at now finds |
| AdminUsers.WithoutPassword | app/api/admin/users/route.ts:108-120 | the returned record keeps all nine other fields of the user unchanged and has no password |
| AdminUsers.Project | app/api/admin/users/route.ts:22-23 | every listed user appears without the password, in order |
| AdminUsers.ListUsers | app/api/admin/users/route.ts:8-35 | non-admins get 401; admins get every user once, newest first, without passwords |
| AdminUsers.ListingOrdered | app/api/admin/users/route.ts:24 | the listing is newest first |
| AdminUsers.ListingShowsEveryUser | app/api/admin/users/route.ts:22-34 | every stored user is listed |
| AdminUsers.ListingShowsOnlyUsers | app/api/admin/users/route.ts:22-34 | every listed entry is a stored user's public view |
| AdminUsers.Candidate | app/api/admin/users/route.ts:83-96 | the new document has the given id, trimmed name, student id, mobile and class, the lower-cased trimmed e-mail, the role, the submitted password and both timestamps now |
| AdminUsers.Create | app/api/admin/users/route.ts:46-120 | 401 iff not an admin; 400 iff an admin omits a field; duplicate iff the id is taken; invalid iff past those the role does not parse or the schema refuses the document; created iff none of these; success appends exactly the requested user with the password hashed and returns it without password |
| AdminUsers.CreateKeepsStudentIdsUnique | app/api/admin/users/route.ts:74-98 | the POST keeps student ids unique across the table |
| StudentSearch.FindStudent | app/api/students/search/route.ts:19-23 | finds a user with the id and role student exactly when one exists |
| StudentSearch.Info | app/api/students/search/route.ts:32-41 | class defaults to "Not specified"; mobile is mobile, else email, else ""; never a guest |
| StudentSearch.Search | app/api/students/search/route.ts:9-42 | missing id 400; 404 iff no student has the id; otherwise that student's info |
| StudentSearch.StaffAreNotStudents | app/api/students/search/route.ts:19-30 | a nurse or admin holding the id is not found |
| VisitHistory.NewerOrSameIsTotalPreorder | app/api/visits/history/route.ts:27 | newest-first is a total preorder |
| VisitHistory.GetHistory | app/api/visits/history/route.ts:11-34 | missing id 400 exactly; min(n, 10) completed visits of the student, each taken no more often than stored, newest first, none older than one left out; no authorisation |
| VisitHistory.NewestIsHistory | app/api/visits/history/route.ts:23-28 | the newest ten of the sorted matches satisfy every clause of the history reply |
| VisitHistory.NewestMembers | app/api/visits/history/route.ts:23-28 | the newest ten are stored completed visits of the student and none left out is newer |
| VisitHistory.NewestShape | app/api/visits/history/route.ts:23-28 | the newest ten number min(n, 10), are newest first, and are a sub-multiset of the matches |
| VisitHistory.NewestIsSorted | app/api/visits/history/route.ts:27 | every prefix of the newest-first sort is itself newest first |
| VisitHistory.MostRecent | app/api/visits/history/route.ts:23-28 | a prefix of the sorted matches holds matches only, in order, and none older than a match left out |
| ClinicStore.AppendVisitWithNextId | models/Visit.ts:21-81 | inserting a visit with the counter's id keeps ids distinct and below the advanced counter |
| ClinicStore.AppendUserWithNextId | models/User.ts:18-59 | inserting a user with the counter's id keeps ids below the advanced counter |
| ClinicStore.Store.constructor | models/Visit.ts:21-81 | the store starts empty and valid |
| ClinicStore.Store.CheckIn | app/api/check-in/route.ts:9-161 | the POST's reply and inserted visit are Submit's; the id counter advances exactly when a visit is inserted; users and sessions unchanged; store invariant kept |
| ClinicStore.Store.InsertVisit | app/api/check-in/route.ts:134-148 | `visit.save()`: appended exactly when the schema accepts it; otherwise nothing changes |
| ClinicStore.Store.UpdateVisit | app/api/queue/route.ts:109-172 | the PATCH's reply and new visits are Patch's, so a staff update with a valid action of a stored id succeeds; nothing else changes |
| ClinicStore.Store.MarkEmergency | app/api/queue/emergency/route.ts:55-101 | the POST's reply and new visits are Mark's, so a student with a waiting visit is marked; nothing else changes |
| ClinicStore.Store.SignInGuest | app/api/guest-login/route.ts:7-60 | the POST's reply and new sessions are Register's; nothing else changes |
| ClinicStore.Store.CreateUser | app/api/admin/users/route.ts:46-120 | the POST's reply and new users are Create's; the id counter advances exactly when a user is created; student ids stay unique |
| ClinicStore.Store.SaveUser | models/User.ts:23-72 | `user.save()`: stored (hashed) exactly when valid and the student id is free; otherwise nothing changes |
| NurseQueue.CheckNurseId | components/nurse/QueueList.tsx:57-78 | an empty id is missing; an id is accepted iff it is exactly 24 hex digits |
| NurseQueue.ObjectIdAccepted | components/nurse/QueueList.tsx:68 | a 12-byte document id in hex passes the guard |
| NurseQueue.AcceptedIdIsNotSpecial | components/nurse/QueueList.tsx:68-78 | an accepted id is never "all" or "unassigned" |
| NurseQueue.PriorityRank | components/nurse/QueueList.tsx:271-273 | ranks lie in 0..4, and 0 exactly for unknown priorities |
| NurseQueue.StatusRank | components/nurse/QueueList.tsx:294-296 | ranks lie in 0..3, and 0 exactly for unknown statuses |
| NurseQueue.PriorityTiers | components/nurse/QueueList.tsx:271-273 | emergency(4) > high(3) > medium(2) > low(1) > unknown(0) |
| NurseQueue.DescendingIsNegatedAscending | components/nurse/QueueList.tsx:265-307 | for every key, the desc comparator is the negated asc one |
| NurseQueue.NumericComparison | components/nurse/QueueList.tsx:269-300 | a numeric key compares by difference, so swapping the visits negates the result |
| NurseQueue.SortVisits | components/nurse/QueueList.tsx:265-307 | the sorted copy is a permutation of the input, which is not mutated |
| NurseQueue.SortVisitsOrdered | components/nurse/QueueList.tsx:265-307 | under a numeric key the result runs upwards for asc and downwards otherwise |
| NurseQueue.DefaultSortByTier | components/nurse/QueueList.tsx:48-49 | the default view lists emergencies, then high, medium, low and the rest |
| NurseQueue.Fetched | components/nurse/QueueList.tsx:84-142 | a fetch keeps the reply's order; the all tab keeps everything; the today tab keeps exactly the visits in [todayStart, todayStart + 24 h) |
| NurseQueue.ColumnVisits | components/nurse/QueueList.tsx:327-331 | a column holds exactly the visits of its status and assignment |
| NurseQueue.ColumnsDisjoint | components/nurse/QueueList.tsx:327-331 | no visit is in two columns |
| NurseQueue.FirstFailedIsFirst | components/nurse/QueueList.tsx:334-394 | a visit passes iff no check fails, and the reported check is the first one failing |
| NurseQueue.AllCasesFilterIsConjunction | components/nurse/QueueList.tsx:334-367 | a visit passes the all-cases filter iff every active criterion holds |
| NurseQueue.HistoryFilterIsConjunction | components/nurse/QueueList.tsx:370-394 | a visit passes the history filter iff it is this nurse's and every active criterion holds |
| NurseQueue.HistoryIsMyAllCases | components/nurse/QueueList.tsx:334-394 | the history filter is the all-cases filter with the nurse filter set to this nurse |
| NurseQueue.Filtered | components/nurse/QueueList.tsx:334-394 | the shown list is a permutation of the passing visits |
| NurseQueue.GetStats | components/nurse/QueueList.tsx:492-527 | today counts the columns; other tabs count the filtered list by status; pending + processing + completed never exceeds the total |
| NurseQueue.ActionFor | components/nurse/QueueList.tsx:151-166 | the board always sends an action the route accepts |
| NurseQueue.UpdatedLocally | components/nurse/QueueList.tsx:171-183 | sets status and notes; assigns this nurse only for in-progress, else keeps the assignment; nothing else changes |
| NurseQueue.ApplyLocally | components/nurse/QueueList.tsx:171-183 | only the visits with the id change, and the length is kept |
| NurseQueue.ServerVersusLocal | components/nurse/QueueList.tsx:151-183 | the server never records the nurse the local copy shows, and keeps the status for values other than in-progress and completed |
| NurseQueue.FindById | components/nurse/QueueList.tsx:434-479 | finds a previous visit with the id exactly when one exists |
| NurseQueue.PollMerge | components/nurse/QueueList.tsx:434-479 | the fresh list on a change, otherwise the previous list |
| NurseQueue.FindByIdUnique | components/nurse/QueueList.tsx:434-479 | with distinct ids the lookup finds the one visit with the id |
| NurseQueue.PollKeepsPrevious | components/nurse/QueueList.tsx:434-479 | the previous list is kept iff lengths agree and each fresh visit matches a previous one in every watched field |
| NurseQueue.PollOfSameListKeeps | components/nurse/QueueList.tsx:434-479 | polling the list already held changes nothing |
| NurseQueue.Board.constructor | components/nurse/QueueList.tsx:27-54 | the board starts with no visits and no update indicator |
| NurseQueue.Board.Load | components/nurse/QueueList.tsx:84-142 | a successful fetch replaces the list by the tab's visits |
| NurseQueue.Board.ApplyStatusUpdate | components/nurse/QueueList.tsx:151-183 | an accepted update changes the list as ApplyLocally does |
| NurseQueue.Board.Poll | components/nurse/QueueList.tsx:412-485 | a poll replaces the list and raises the indicator exactly on a change |
| AdminCases.OnFetch | app/admin/cases/page.tsx:49-66 | a failed fetch keeps the list; a success stores a permutation of the reply, newest first |
| AdminCases.Shown | app/admin/cases/page.tsx:108-121 | the shown list is an order-preserving subsequence holding exactly the matching cases, so never longer |
| AdminCases.EmptyTermMatches | app/admin/cases/page.tsx:109-112 | the empty search term matches every case |
| AdminCases.NoFilterShowsAll | app/admin/cases/page.tsx:108-121 | with the initial filters every case is shown, in order |
| AdminCases.TypesPartitionAll | app/admin/cases/page.tsx:116-118 | the emergency and normal types split the cases the all type shows |
| AdminCases.UnknownTypeShowsNothing | app/admin/cases/page.tsx:116-118 | any other type value shows nothing |
| RecentCases.Recent | components/admin/RecentCases.tsx:36-38 | shows min(5, n) fetched cases, each no more often than fetched, newest first, none older than a case left out |
| RecentCases.RecentFacts | components/admin/RecentCases.tsx:102 | a prefix of the sorted cases holds fetched cases, none older than one left out |
| RecentCases.FewCasesAllShown | components/admin/RecentCases.tsx:102 | with five or fewer cases all are shown |
| ClientVisits.NewestFirstIsTotalPreorder | app/admin/cases/page.tsx:57-59 | newest-first is a total preorder |
| ClientVisits.ByNewest | components/admin/RecentCases.tsx:36-38 | the sorted list is a permutation of the fetched one, newest first |
| ClientVisits.TimeAgo | app/admin/cases/page.tsx:97-106 | just now under a minute; else m minutes (1-59), h hours (1-23) or d days, each bracketing the elapsed time |
| ClientVisits.RenderInjective | components/admin/RecentCases.tsx:76-85 | distinct buckets render to distinct labels |
| ClientVisits.CountedLabel | components/admin/RecentCases.tsx:81-84 | a counted label is never "Just now" |
| ClientVisits.Unit | components/admin/RecentCases.tsx:82-84 | a label's unit is non-empty and starts with a non-digit |
| ClientVisits.TimeAgoMonotone | app/admin/cases/page.tsx:97-106 | more elapsed time never gives a label naming less time |
| ClientVisits.StatusBadge | app/admin/cases/page.tsx:69-80 | unknown statuses, and only those, get the gray default |
| ClientVisits.PriorityBadge | components/admin/RecentCases.tsx:61-74 | unknown priorities, and only those, get the gray default |
| ClientVisits.BadgesDistinct | components/admin/RecentCases.tsx:48-74 | distinct known statuses, and distinct known priorities, get distinct classes |
| Utils.FormatTime | lib/utils.ts:8-18 | under 60 "{m} min"; whole hours "{h} hr"; otherwise "{h} hr {r} min" with 60h + r = m |
| Utils.FormatTimeParts | lib/utils.ts:8-18 | a rendering splits into the number and a tail beginning with a space |
| Utils.HourTailInjective | lib/utils.ts:12-17 | the text after the hours determines the leftover minutes |
| Utils.FormatTimeInjective | lib/utils.ts:8-18 | distinct non-negative waits render differently |
| Utils.PriorityColor | lib/utils.ts:20-33 | unknown priorities, and only those, get the gray default |
| Utils.StatusColor | lib/utils.ts:35-46 | unknown statuses, and only those, get the gray default |
| Utils.PriorityColorsDistinct | lib/utils.ts:20-33 | the four priorities get distinct non-default classes |
| Utils.StatusColorsDistinct | lib/utils.ts:35-46 | the three statuses get distinct non-default classes |
| QueueSlice.Merge | store/queueSlice.ts:42-47 | for each of the nine fields, a key present in the update wins and an absent one keeps the item's value; an empty update changes nothing |
| QueueSlice.MergeIdempotent | store/queueSlice.ts:42-47 | merging an update twice equals merging it once |
| QueueSlice.IndexOfItem | store/queueSlice.ts:43 | finds the first item with the id, and none exactly when none has it |
| QueueSlice.WithoutItem | store/queueSlice.ts:49-51 | removes every item with the id and keeps the order of the rest |
| QueueSlice.IndexOfAlert | store/queueSlice.ts:62 | finds the first alert with the id, and none exactly when none has it |
| QueueSlice.Acknowledge | store/queueSlice.ts:61-66 | acknowledges only the first alert with the id |
| QueueSlice.AcknowledgeIdempotent | store/queueSlice.ts:61-66 | acknowledging twice equals acknowledging once |
| QueueSlice.MergeFilters | store/queueSlice.ts:72-74 | only the supplied filter keys change |
| QueueSlice.QueueStore.constructor | store/queueSlice.ts:17-28 | the initial state |
| QueueSlice.QueueStore.SetQueue | store/queueSlice.ts:34-36 | replaces the queue wholesale; nothing else changes |
| QueueSlice.QueueStore.AddToQueue | store/queueSlice.ts:38-40 | appends one item; earlier items unchanged |
| QueueSlice.QueueStore.UpdateQueueItem | store/queueSlice.ts:42-47 | merges into the first matching item only; with no match nothing changes |
| QueueSlice.QueueStore.RemoveFromQueue | store/queueSlice.ts:49-51 | the queue becomes WithoutItem; nothing else changes |
| QueueSlice.QueueStore.SetEmergencyAlerts | store/queueSlice.ts:53-55 | replaces the alerts; nothing else changes |
| QueueSlice.QueueStore.AddEmergencyAlert | store/queueSlice.ts:57-59 | appends one alert; nothing else changes |
| QueueSlice.QueueStore.AcknowledgeEmergencyAlert | store/queueSlice.ts:61-66 | the alerts become Acknowledge's; nothing else changes |
| QueueSlice.QueueStore.SetSelectedVisit | store/queueSlice.ts:68-70 | sets the selected visit only |
| QueueSlice.QueueStore.SetFilters | store/queueSlice.ts:72-74 | filters become MergeFilters'; nothing else changes |
| QueueSlice.QueueStore.SetLoading | store/queueSlice.ts:76-78 | sets the loading flag only |
| QueueSlice.QueueStore.SetError | store/queueSlice.ts:80-82 | sets the error only |
| QueueSlice.QueueStore.ClearError | store/queueSlice.ts:84-86 | sets the error to null and touches nothing else |
| UiSlice.WithModal | store/uiSlice.ts:86-89 | only the named modal flag changes |
| UiSlice.WithLoading | store/uiSlice.ts:91-94 | only the named loading key changes |
| UiSlice.WithoutNotification | store/uiSlice.ts:78-80 | removes every notification with the id and keeps the order of the rest |
| UiSlice.ToggleSidebar | store/uiSlice.ts:46-48 | negates sidebarOpen and changes nothing else |
| UiSlice.ToggleTwice | store/uiSlice.ts:46-48 | toggling twice is the identity |
| UiSlice.Reset | store/uiSlice.ts:96-109 | closes the sidebar, empties notifications, clears every modal and loading flag, keeps theme and selected option |
| UiSlice.ResetIdempotent | store/uiSlice.ts:96-109 | resetting twice equals resetting once |
| UiSlice.SameMillisecondNotifications | store/uiSlice.ts:66-80 | two notifications added in one millisecond share an id, so removing one removes both |
| UiSlice.UiStore.constructor | store/uiSlice.ts:3-40 | the initial state |
| UiSlice.UiStore.ToggleSidebarOpen | store/uiSlice.ts:46-48 | the state becomes ToggleSidebar's |
| UiSlice.UiStore.SetSidebarOpen | store/uiSlice.ts:50-52 | sets sidebarOpen only |
| UiSlice.UiStore.SetSelectedOption | store/uiSlice.ts:54-57 | sets the selected option only |
| UiSlice.UiStore.ClearSelectedOption | store/uiSlice.ts:58-60 | clears the selected option only |
| UiSlice.UiStore.SetTheme | store/uiSlice.ts:62-64 | sets the theme only |
| UiSlice.UiStore.AddNotification | store/uiSlice.ts:66-76 | appends one notification stamped with the clock; earlier ones unchanged |
| UiSlice.UiStore.RemoveNotification | store/uiSlice.ts:78-80 | the notifications become WithoutNotification's; nothing else changes |
| UiSlice.UiStore.ClearNotifications | store/uiSlice.ts:82-84 | empties the notifications only |
| UiSlice.UiStore.SetModalOpen | store/uiSlice.ts:86-89 | the modals become WithModal's; nothing else changes |
| UiSlice.UiStore.SetLoadingState | store/uiSlice.ts:91-94 | the loading flags become WithLoading's; nothing else changes |
| UiSlice.UiStore.ResetUI | store/uiSlice.ts:96-109 | the state becomes Reset's |
| AuthSlice.AuthStore.constructor | store/authSlice.ts:22-29 | unauthenticated, no user, null expiry |
| AuthSlice.AuthStore.SetUser | store/authSlice.ts:35-42 | user set, authenticated, not a guest, no guest session, expiry now + 120000 |
| AuthSlice.AuthStore.UpdateActivity | store/authSlice.ts:45-50 | lastActivity = now; the expiry is extended only when already truthy |
| AuthSlice.AuthStore.Logout | store/authSlice.ts:52-59 | clears user and guest session, both flags false, expiry null |
| AuthSlice.AuthStore.ClearGuestSession | store/authSlice.ts:61-65 | clears guest session, isGuest and expiry; user and isAuthenticated untouched |
| AuthSlice.AuthStore.SetSessionExpiry | store/authSlice.ts:67-69 | changes only the expiry |
| QueueApi.Normalize | store/queueApi.ts:19-29 | fills symptoms [], flag false, priority medium, position 0, status waiting, wait 15; a stored wait of 0 is replaced too |
| QueueApi.NormalizeAll | store/queueApi.ts:16-31 | one entry per input visit, in the same order |
| QueueApi.TransformQueue | store/queueApi.ts:16-34 | a failed reply yields no visits and no stats; otherwise the normalised visits and the stats |
| QueueApi.TransformStats | store/queueApi.ts:38-45 | the stats when present, otherwise the empty object |
| QueueApi.NormalizeKeepsSubsequence | store/queueApi.ts:60-76 | normalising a filtered list gives a subsequence of the normalised whole |
| QueueApi.TransformEmergencies | store/queueApi.ts:58-77 | only flagged visits, one per flagged visit, in order; a failure yields [] |
| QueueApi.EmergencyEntries | store/queueApi.ts:60-76 | the flagged entries are emergencies and include every flagged visit |
| QueueApi.Resolve | store/queueApi.ts:12-15 | arguments default to status all, page 1 and limit 50 |
| QueueApi.DefaultsAgreeWithRoute | store/queueApi.ts:12-15 | sending the client's defaults lists what omitting page and limit would |
| QueueApi.NormalizeSerialized | store/queueApi.ts:19-29 | a listed visit normalised keeps its id, position, status, flag, symptoms and non-empty priority |
| QueueApi.ListedPageNormalized | store/queueApi.ts:16-31 | every entry of a listed page keeps the route's position and the visit's fields |
| Kiosk.Toggled | app/page.tsx:44-50 | a chosen symptom is removed (all occurrences), any other appended |
| Kiosk.ToggleTwice | app/page.tsx:44-50 | toggling an absent symptom twice restores the list |
| Kiosk.ManualInfo | app/page.tsx:97-108 | details exist iff name and class are not blank; the student id defaults to GUEST; always a guest |
| Kiosk.CheckInBody | app/page.tsx:110-131 | a body is sent iff details, a symptom and a severity exist, carrying them and the flag |
| Kiosk.SentBodyPassesValidation | app/page.tsx:110-131 | a body the kiosk sends is never refused for missing symptoms or severity |
| Kiosk.ManualEntryIdentifies | app/page.tsx:97-131 | hand-entered details always identify the caller through the body |
| Kiosk.EmergencyStudentId | app/page.tsx:171-180 | the id sent is the student id of the queue details, present exactly for already-waiting details |
| Kiosk.EmergencyFromQueueModalMarks | app/page.tsx:171-180 | the already-in-queue modal's button sends the shown visit's student id, and while that visit is still waiting the route marks the student's waiting visit as an emergency |
| Kiosk.AfterSearch | app/page.tsx:56-95 | a blank id does nothing; an existing waiting visit opens the already-in-queue modal; else the search result or the manual form |
| Kiosk.QueuedSkipsSearch | app/page.tsx:62-76 | when the student already waits, the student search plays no part |
| Kiosk.EnabledButtonSends | app/page.tsx:209-211 | canCheckIn holds iff a body would be sent and nothing is loading |
| Kiosk.Tick | app/page.tsx:35-42 | while a modal is shown the countdown drops by one, at 0 it returns home; otherwise nothing |
| Kiosk.CountdownReturnsHome | app/page.tsx:35-42 | a result shown with c seconds left is cleared after c + 1 ticks |
| Kiosk.KioskPage.constructor | app/page.tsx:6-32 | the page starts in the home state |
| Kiosk.KioskPage.ToggleSymptom | app/page.tsx:44-50 | the symptoms become Toggled's; nothing else changes |
| Kiosk.KioskPage.SelectSeverity | app/page.tsx:52-54 | sets the severity only |
| Kiosk.KioskPage.SetStudentId | app/page.tsx:374 | the student-id input sets that field only |
| Kiosk.KioskPage.SetManualName | app/page.tsx:423 | the name input changes the form's name only |
| Kiosk.KioskPage.SetManualClass | app/page.tsx:430 | the class input changes the form's class only |
| Kiosk.KioskPage.SetManualMobile | app/page.tsx:437 | the mobile input changes the form's mobile only |
| Kiosk.KioskPage.SetEmergencyFlag | app/page.tsx:497 | the emergency checkbox sets the flag only |
| Kiosk.KioskPage.SearchStudent | app/page.tsx:56-95 | the state becomes AfterSearch's, and the student search is made exactly when SearchMade holds |
| Kiosk.KioskPage.SubmitManual | app/page.tsx:97-108 | with blank name or class nothing changes; otherwise the details replace the form |
| Kiosk.KioskPage.CheckIn | app/page.tsx:110-169 | nothing is sent without details, symptom and severity; success or duplicate opens its modal with the queue number |
| Kiosk.KioskPage.ReturnHome | app/page.tsx:195-207 | every field back to its initial value, countdown 30 |
| Kiosk.KioskPage.OnTick | app/page.tsx:35-42 | the state becomes Tick's |
| Kiosk.KioskPage.MarkEmergency | app/page.tsx:171-193 | callable only where the page renders the button, the already-in-queue modal (app/page.tsx:283-334); always sends the shown visit's student id; a marked visit returns home, any other reply changes nothing |

## Left out

- Persistence and concurrency.
  - The database and the connection are not modelled; the store is an in-memory class.
  - Indexes other than the two unique ones are not modelled.
  - Races between a lookup and the insert that follows it are not modelled; every handler runs as one sequential step.
- Document ids are a natural-number counter in place of generated object ids. On the client they are written in decimal.
- The clock, local midnight, date parsing and `toLocaleString`/`toISOString` formatting are not modelled. Times are integers in milliseconds, passed in as `now` and `todayStart`.
- Randomness, bcrypt, cookies and the authentication library are not modelled. They become parameters: the 32 random bytes, `hash`, `matches`, the signed-in session and the cookie value.
- HTTP status codes and JSON envelopes are reduced to outcome datatypes. A 500 from a failed save is an `Invalid…` outcome; thrown exceptions are not modelled.
- Logging is not modelled, including the plaintext password log in the user-creation route.
- JSON `null` and an absent key are both `None`. An explicit `undefined` inside a `Partial` spread is not distinguished from an absent key.
- String case folding and `trim` are ASCII-only.
  - Lower-casing maps only A–Z.
  - White space is space, tab, newline, carriage return, form feed and vertical tab.
- `localeCompare` for the name, student-id, symptom and nurse-name sort keys is a parameter. Only the numeric keys are proved ordered.
- `parseInt` returning NaN for non-numeric `limit`/`page`, and NaN dates, are not modelled.
- Timers are not modelled: `setTimeout`, `setInterval`, the update indicator's timed reset, and the countdown's one-second delay. The countdown is a `Tick` step.
- Rendering, alerts and toasts are not modelled.
- `getAllUniqueSymptoms` and `getAllUniqueNurses` on the nurse board are not modelled; they only feed drop-down options.
- Key lookups in the nurse board's `priorityOrder`/`statusOrder` objects are not modelled for inherited property names (for example "constructor"). Only plain strings are ranked.
- The nurse board's date-range filter is modelled as a `[start, end]` millisecond range. The board moves the end to 23:59:59 of its day with milliseconds left at 0 (`setHours(23, 59, 59)`), so a visit stamped in the last second after :59.000 falls outside; that adjustment is folded into `end`.
- The GET of the check-in route has an `$or` clause on an undefined user id, which the model treats as matching nothing. For a guest this makes the lookup by student id alone.
- QueueRoute.List: a page or limit below 1 is an `UnsupportedPaging` outcome. What the store would do with a negative skip or limit is not modelled.
- EmergencyRoute.Escalate: the `updatedAt` stamp the schema's timestamps add on `findOneAndUpdate` is modelled as written by the update.
- Kiosk.CheckInBody: the kiosk's `isGuest` key is dropped, because the check-in route never reads it.
- Kiosk.KioskPage.CheckIn: a failed request is `ServerError` or `NetworkError` and only raises an alert. Check-in never sets or clears `isLoading` (only the student search does), so nothing stops a second click while the request is pending from sending the same body twice; the model treats each call as one complete request.
- ClinicStore.Store.SaveUser: the unique-index refusal of a taken student id cannot be reached through `CreateUser`, whose route guard refuses it first. It is kept as the index's own behaviour.
- GuestLogin.Purge: the TTL index's timing is not modelled. Purging is a function of a moment `at`, and any `at` up to `now` is shown not to affect a lookup.
- The audio helpers, seed scripts, NextAuth callbacks, endpoint declarations and presentation-only components are outside the model.

=== FILE: admin_cases.dfy ===
/**
 * The administrators' cases page (app/admin/cases/page.tsx): the fetched
 * visits sorted once newest first, and the filter behind the search box and
 * the three drop-downs. The list shown is the fetched list with the
 * non-matching cases dropped and the order kept.
 */
module AdminCases {
  import opened Common
  import opened Sequences
  import opened ClientVisits

  /** The page's filter state: the search box and the status, priority and type drop-downs. */
  datatype CaseFilter = CaseFilter(searchTerm: string, statusFilter: string, priorityFilter: string, emergencyFilter: string)

  /** The initial filter state. */
  const NoFilter: CaseFilter := CaseFilter("", "all", "all", "all")

  /** What the page keeps after a fetch: on success the reply's visits newest first, otherwise what it had. */
  function OnFetch(previous: seq<CaseVisit>, success: bool, visitsData: seq<CaseVisit>): (r: seq<CaseVisit>)
    ensures !success ==> r == previous
    ensures success ==> multiset(r) == multiset(visitsData)
    ensures success ==> forall i, j :: 0 <= i < j < |r| ==> r[i].createdAt >= r[j].createdAt
  {
    if success then ByNewest(visitsData) else previous
  }

  /** Name or student id contain the term ignoring case, or a non-empty mobile contains it exactly. */
  predicate MatchesSearch(v: CaseVisit, term: string) {
    || ContainsIgnoringCase(v.name, term)
    || ContainsIgnoringCase(v.studentId, term)
    || (Truthy(v.mobile) && Contains(v.mobile.value, term))
  }

  predicate MatchesStatus(v: CaseVisit, statusFilter: string) {
    statusFilter == "all" || v.queueStatus == statusFilter
  }

  predicate MatchesPriority(v: CaseVisit, priorityFilter: string) {
    priorityFilter == "all" || v.priority == priorityFilter
  }

  /** The type drop-down: "emergency" wants the flag, "normal" wants it clear, any other value but "all" matches nothing. */
  predicate MatchesType(v: CaseVisit, emergencyFilter: string) {
    || emergencyFilter == "all"
    || (emergencyFilter == "emergency" && v.emergencyFlag)
    || (emergencyFilter == "normal" && !v.emergencyFlag)
  }

  predicate Matches(v: CaseVisit, f: CaseFilter) {
    && MatchesSearch(v, f.searchTerm)
    && MatchesStatus(v, f.statusFilter)
    && MatchesPriority(v, f.priorityFilter)
    && MatchesType(v, f.emergencyFilter)
  }

  /**
   * `filteredVisits`: exactly the matching cases, in the fetched order. The
   * page's "Showing X of Y" therefore never shows X above Y.
   */
  function Shown(visits: seq<CaseVisit>, f: CaseFilter): (r: seq<CaseVisit>)
    ensures Subsequence(r, visits)
    ensures |r| <= |visits|
    ensures forall v :: v in r <==> v in visits && Matches(v, f)
  {
    var r := Filter(visits, v => Matches(v, f));
    FilterIsSubsequence(visits, v => Matches(v, f));
    FilterMembershipAll(visits, v => Matches(v, f));
    r
  }

  /** The empty term occurs in every string. */
  lemma EmptyTermMatches(v: CaseVisit)
    ensures MatchesSearch(v, "")
  {
    assert OccursAt(Lower(v.name), Lower(""), 0);
  }

  /** With the initial filter state every fetched case is shown, in order. */
  lemma NoFilterShowsAll(visits: seq<CaseVisit>)
    ensures Shown(visits, NoFilter) == visits
  {
    forall i | 0 <= i < |visits| ensures Matches(visits[i], NoFilter) {
      EmptyTermMatches(visits[i]);
    }
    FilterAll(visits, v => Matches(v, NoFilter));
  }

  /** The "emergency" and "normal" types split the cases the "all" type shows. */
  lemma {:induction false} TypesPartitionAll(visits: seq<CaseVisit>, f: CaseFilter)
    requires f.emergencyFilter == "all"
    ensures |Shown(visits, f)| == |Shown(visits, f.(emergencyFilter := "emergency"))|
                                  + |Shown(visits, f.(emergencyFilter := "normal"))|
    decreases |visits|
  {
    if visits != [] {
      TypesPartitionAll(visits[1..], f);
    }
  }

  /** A type value other than the three offered shows nothing. */
  lemma UnknownTypeShowsNothing(visits: seq<CaseVisit>, f: CaseFilter)
    requires f.emergencyFilter !in {"all", "emergency", "normal"}
    ensures Shown(visits, f) == []
  {
  }
}

=== FILE: admin_users.dfy ===
/**
 * The administrators' user table (app/api/admin/users/route.ts).
 *
 * GET lists every user newest first with the password left out. POST checks
 * the required fields, refuses a student id already in the table, and adds
 * one user whose password is hashed before it is stored; `Create` states
 * the effect on a table snapshot and `ClinicStore.Store.CreateUser`
 * performs it. Both handlers are for administrators only.
 */
module AdminUsers {
  import opened Common
  import opened Records
  import opened Sequences

  /** `session.user.role === 'admin'`; `None` is a request without a signed-in user. */
  predicate IsAdmin(role: Option<string>) {
    role == Some("admin")
  }

  /** A user as the handlers return it: every field but the password. */
  datatype PublicUser = PublicUser(
    id: nat,
    name: string,
    studentId: string,
    role: Role,
    mobile: Option<string>,
    email: Option<string>,
    studentClass: Option<string>,
    createdAt: int,
    updatedAt: int)

  function WithoutPassword(u: User): (p: PublicUser)
    ensures p.id == u.id && p.name == u.name && p.studentId == u.studentId && p.role == u.role
    ensures p.mobile == u.mobile && p.email == u.email && p.studentClass == u.studentClass
    ensures p.createdAt == u.createdAt && p.updatedAt == u.updatedAt
  {
    PublicUser(u.id, u.name, u.studentId, u.role, u.mobile, u.email, u.studentClass, u.createdAt, u.updatedAt)
  }

  // ---------------------------------------------------------------------
  // GET
  // ---------------------------------------------------------------------

  /** `sort({createdAt: -1})`: `a` may be listed before `b`. */
  predicate CreatedNoEarlier(a: User, b: User) {
    a.createdAt >= b.createdAt
  }

  datatype ListOutcome = ListUnauthorized | UserList(users: seq<PublicUser>)

  /** `.select('-password')` over a list of users. */
  function Project(s: seq<User>): (r: seq<PublicUser>)
    ensures |r| == |s|
    ensures forall i :: 0 <= i < |r| ==> r[i] == WithoutPassword(s[i])
  {
    seq(|s|, i requires 0 <= i < |s| => WithoutPassword(s[i]))
  }

  /** The GET on a snapshot of the table: every user once, newest first, without passwords. */
  function ListUsers(users: seq<User>, role: Option<string>): (r: ListOutcome)
    ensures !IsAdmin(role) <==> r == ListUnauthorized
    ensures r.UserList? ==>
              && |r.users| == |users|
              && (forall i, j :: 0 <= i < j < |r.users| ==> r.users[i].createdAt >= r.users[j].createdAt)
              && (forall u :: u in users ==> WithoutPassword(u) in r.users)
              && (forall i :: 0 <= i < |r.users| ==> PublicViewOf(users, r.users[i]))
  {
    if !IsAdmin(role) then ListUnauthorized
    else
      var listed := Project(Sort(users, CreatedNoEarlier));
      ListingOrdered(users, listed);
      ListingShowsEveryUser(users, listed);
      ListingShowsOnlyUsers(users, listed);
      UserList(listed)
  }

  /** The listing is newest first. */
  lemma ListingOrdered(users: seq<User>, r: seq<PublicUser>)
    requires r == Project(Sort(users, CreatedNoEarlier))
    ensures forall i, j :: 0 <= i < j < |r| ==> r[i].createdAt >= r[j].createdAt
  {
    SortSorted(users, CreatedNoEarlier);
  }

  /** The listing shows every user, each without the password. */
  lemma ListingShowsEveryUser(users: seq<User>, r: seq<PublicUser>)
    requires r == Project(Sort(users, CreatedNoEarlier))
    ensures forall u :: u in users ==> WithoutPassword(u) in r
  {
    var sorted := Sort(users, CreatedNoEarlier);
    SortMembers(users, CreatedNoEarlier);
    forall u | u in users ensures WithoutPassword(u) in r {
      var i :| 0 <= i < |sorted| && sorted[i] == u;
      assert r[i] == WithoutPassword(u);
    }
  }

  /** `p` is the public view of one of the users. */
  predicate PublicViewOf(users: seq<User>, p: PublicUser) {
    exists u :: u in users && p == WithoutPassword(u)
  }

  /** The listing shows only users. */
  lemma ListingShowsOnlyUsers(users: seq<User>, r: seq<PublicUser>)
    requires r == Project(Sort(users, CreatedNoEarlier))
    ensures forall i :: 0 <= i < |r| ==> PublicViewOf(users, r[i])
  {
    var sorted := Sort(users, CreatedNoEarlier);
    SortMembers(users, CreatedNoEarlier);
    forall i | 0 <= i < |r| ensures PublicViewOf(users, r[i]) {
      var u := sorted[i];
      assert u in sorted;
      assert u in users && r[i] == WithoutPassword(u);
    }
  }

  // ---------------------------------------------------------------------
  // POST
  // ---------------------------------------------------------------------

  /** The POST body; absent JSON keys are `None`. */
  datatype CreateRequest = CreateRequest(
    name: Option<string>,
    studentId: Option<string>,
    role: Option<string>,
    email: Option<string>,
    mobile: Option<string>,
    studentClass: Option<string>,
    password: Option<string>)

  /** `!name || !studentId || !role || !password` fails, whatever the role. */
  predicate HasRequiredFields(req: CreateRequest) {
    Truthy(req.name) && Truthy(req.studentId) && Truthy(req.role) && Truthy(req.password)
  }

  /** `findOne({studentId})`, the filter value through the trim setter. */
  predicate StudentIdTaken(users: seq<User>, studentId: string) {
    exists u :: u in users && u.studentId == Trim(studentId)
  }

  /** The new document before hashing, with the schema's trim and lower-case setters applied. */
  function Candidate(req: CreateRequest, role: Role, id: nat, now: int): (u: User)
    requires HasRequiredFields(req)
    ensures u.id == id && u.name == Trim(req.name.value) && u.studentId == Trim(req.studentId.value)
    ensures u.role == role && u.password == req.password && u.createdAt == now && u.updatedAt == now
    ensures u.mobile == TrimOpt(req.mobile) && u.studentClass == TrimOpt(req.studentClass)
    ensures u.email.Some? <==> req.email.Some?
    ensures req.email.Some? ==> u.email == Some(Lower(Trim(req.email.value)))
  {
    User(id, Trim(req.name.value), Trim(req.studentId.value), role, TrimOpt(req.mobile),
         if req.email.Some? then Some(Lower(Trim(req.email.value))) else None,
         TrimOpt(req.studentClass), req.password, now, now)
  }

  datatype CreateOutcome =
    | CreateUnauthorized
    | MissingFields
    | DuplicateStudentId
    /** The schema refused the document (unknown role, short password, missing staff e-mail): a 500. */
    | InvalidUser
    | Created(user: PublicUser)

  /**
   * The POST on a snapshot of the table: its reply and the new table. The
   * new user gets id `id` and the password `hash` (bcrypt) makes of the
   * submitted one.
   */
  function Create(users: seq<User>, role: Option<string>, req: CreateRequest, id: nat, now: int,
                  hash: string -> string): (r: (CreateOutcome, seq<User>))
    ensures r.0 == CreateUnauthorized <==> !IsAdmin(role)
    ensures r.0 == MissingFields <==> IsAdmin(role) && !HasRequiredFields(req)
    ensures r.0 == InvalidUser <==>
              && IsAdmin(role) && HasRequiredFields(req) && !StudentIdTaken(users, req.studentId.value)
              && (|| ParseRole(req.role.value).None?
                  || !ValidUser(Candidate(req, ParseRole(req.role.value).value, id, now)))
    ensures IsAdmin(role) && HasRequiredFields(req) ==>
              (r.0 == DuplicateStudentId <==> StudentIdTaken(users, req.studentId.value))
    ensures !r.0.Created? ==> r.1 == users
    ensures r.0.Created? <==>
              && IsAdmin(role) && HasRequiredFields(req) && !StudentIdTaken(users, req.studentId.value)
              && ParseRole(req.role.value).Some?
              && ValidUser(Candidate(req, ParseRole(req.role.value).value, id, now))
    ensures r.0.Created? ==>
              && |r.1| == |users| + 1 && r.1[..|users|] == users
              && r.1[|users|].(password := req.password) == Candidate(req, ParseRole(req.role.value).value, id, now)
              && r.1[|users|].password == Some(hash(req.password.value))
              && ValidUser(r.1[|users|].(password := req.password))
              && r.0.user == WithoutPassword(r.1[|users|])
  {
    if !IsAdmin(role) then (CreateUnauthorized, users)
    else if !HasRequiredFields(req) then (MissingFields, users)
    else if StudentIdTaken(users, req.studentId.value) then (DuplicateStudentId, users)
    else match ParseRole(req.role.value)
      case None => (InvalidUser, users)
      case Some(r) =>
        var u := Candidate(req, r, id, now);
        if !ValidUser(u) then (InvalidUser, users)
        else
          var saved := PreSave(u, true, hash);
          (Created(WithoutPassword(saved)), users + [saved])
  }

  /** Adding a user keeps student ids unique across the table. */
  lemma CreateKeepsStudentIdsUnique(users: seq<User>, role: Option<string>, req: CreateRequest, id: nat, now: int,
                                    hash: string -> string)
    requires UniqueStudentIds(users)
    ensures UniqueStudentIds(Create(users, role, req, id, now, hash).1)
  {
    var r := Create(users, role, req, id, now, hash);
    if r.0.Created? {
      var saved := r.1[|users|];
      assert r.1 == users + [saved];
      assert saved.studentId == Trim(req.studentId.value);
      AppendUniqueStudentId(users, saved);
    }
  }
}

=== FILE: auth_slice.dfy ===
/**
 * The client's sign-in state (store/authSlice.ts). `AuthStore`'s methods
 * are the reducers, with the clock passed in as `now`. No reducer ever
 * marks the state as a guest's or stores a guest session, so in every
 * state the reducers can reach there is no guest session and the state is
 * authenticated exactly when a user is set; `Valid` states that and every
 * reducer keeps it.
 */
module AuthSlice {
  import opened Common

  /** A signed-in session lasts two minutes from the last activity. */
  const SessionMs: int := 2 * 60 * 1000

  datatype AuthUser = AuthUser(id: string, name: string, studentId: string, role: string, email: Option<string>)

  /** The guest session as the client types it; times in milliseconds. */
  datatype GuestSession = GuestSession(
    id: string,
    name: string,
    studentId: string,
    mobile: Option<string>,
    sessionToken: string,
    expiresAt: int,
    createdAt: int)

  /** `if (state.sessionExpiry)`: set, and not the falsy 0. */
  predicate ExpirySet(sessionExpiry: Option<int>) {
    sessionExpiry.Some? && sessionExpiry.value != 0
  }

  /** All fields of the slice at one moment. */
  datatype AuthView = AuthView(
    user: Option<AuthUser>,
    guestSession: Option<GuestSession>,
    isAuthenticated: bool,
    isGuest: bool,
    lastActivity: int,
    sessionExpiry: Option<int>)

  class AuthStore {
    var user: Option<AuthUser>
    var guestSession: Option<GuestSession>
    var isAuthenticated: bool
    var isGuest: bool
    var lastActivity: int
    var sessionExpiry: Option<int>

    function Snapshot(): AuthView
      reads this
    {
      AuthView(user, guestSession, isAuthenticated, isGuest, lastActivity, sessionExpiry)
    }

    /** What holds in every state the reducers reach. */
    ghost predicate Valid()
      reads this
    {
      && guestSession.None? && !isGuest
      && (isAuthenticated <==> user.Some?)
    }

    /** `initialState`, read at time `now`: signed out, with no expiry. */
    constructor (now: int)
      ensures Valid()
      ensures Snapshot() == AuthView(None, None, false, false, now, None)
    {
      user, guestSession, isAuthenticated, isGuest := None, None, false, false;
      lastActivity, sessionExpiry := now, None;
    }

    /** Signs a user in: authenticated, not a guest, and the session runs two minutes from `now`. */
    method SetUser(u: AuthUser, now: int)
      requires Valid()
      modifies this
      ensures Valid()
      ensures Snapshot() == AuthView(Some(u), None, true, false, now, Some(now + SessionMs))
    {
      user := Some(u);
      isAuthenticated := true;
      isGuest := false;
      guestSession := None;
      lastActivity := now;
      sessionExpiry := Some(now + SessionMs);
    }

    /** Records activity; a running session is extended to two minutes from `now`, an unset one stays unset. */
    method UpdateActivity(now: int)
      requires Valid()
      modifies this
      ensures Valid()
      ensures ExpirySet(old(sessionExpiry)) ==>
                Snapshot() == old(Snapshot()).(lastActivity := now, sessionExpiry := Some(now + SessionMs))
      ensures !ExpirySet(old(sessionExpiry)) ==> Snapshot() == old(Snapshot()).(lastActivity := now)
    {
      lastActivity := now;
      if ExpirySet(sessionExpiry) {
        sessionExpiry := Some(now + SessionMs);
      }
    }

    method Logout(now: int)
      requires Valid()
      modifies this
      ensures Valid()
      ensures Snapshot() == AuthView(None, None, false, false, now, None)
    {
      user := None;
      guestSession := None;
      isAuthenticated := false;
      isGuest := false;
      lastActivity := now;
      sessionExpiry := None;
    }

    /** Ends a guest session; the user and the authentication flag are not touched. */
    method ClearGuestSession()
      requires Valid()
      modifies this
      ensures Valid()
      ensures Snapshot() == old(Snapshot()).(guestSession := None, isGuest := false, sessionExpiry := None)
    {
      guestSession := None;
      isGuest := false;
      sessionExpiry := None;
    }

    method SetSessionExpiry(expiry: int)
      requires Valid()
      modifies this
      ensures Valid()
      ensures Snapshot() == old(Snapshot()).(sessionExpiry := Some(expiry))
    {
      sessionExpiry := Some(expiry);
    }
  }
}

=== FILE: check_in_route.dfy ===
/**
 * The check-in route (app/api/check-in/route.ts).
 *
 * POST validates the request, resolves who is checking in (signed-in
 * session, then the body's name and student id, then a live guest session),
 * refuses a second visit while one is `waiting`, maps the severity to a
 * priority, estimates the wait from the number of waiting visits and stores
 * a new waiting visit. `Submit` states the whole decision on a snapshot of
 * the store; `ClinicStore.Store.CheckIn` performs it step by step.
 *
 * GET finds the caller's active visit and counts the waiting visits ranked
 * ahead of it. The store's comparison of priority strings (`$gte`) is the
 * parameter `geq`.
 */
module CheckInRoute {
  import opened Common
  import opened Records
  import opened Sequences
  import GuestLogin

  /** `session.user` as the server session exposes it; each field may be missing. */
  datatype SessionUser = SessionUser(
    id: Option<string>,
    name: Option<string>,
    studentId: Option<string>,
    email: Option<string>,
    studentClass: Option<string>)

  /** The POST body; absent JSON keys are `None`. */
  datatype CheckInRequest = CheckInRequest(
    symptoms: Option<seq<string>>,
    emergencyFlag: Option<bool>,
    severity: Option<string>,
    name: Option<string>,
    studentId: Option<string>,
    studentClass: Option<string>,
    mobile: Option<string>)

  /** Who is checking in (`userInfo`). */
  datatype Identity = Identity(
    name: string,
    studentId: string,
    mobile: Option<string>,
    userId: Option<string>,
    studentClass: Option<string>)

  // ---------------------------------------------------------------------
  // Priority and wait
  // ---------------------------------------------------------------------

  /** The severity chosen at the kiosk decides the priority; anything unrecognised is medium. */
  function SeverityToPriority(severity: string): (p: Priority)
    ensures p == Emergency <==> severity == "Emergency"
    ensures p == High <==> severity == "High"
    ensures p == Low <==> severity == "Low"
    ensures p == Medium <==> severity !in {"Emergency", "High", "Low"}
  {
    if severity == "Emergency" then Emergency
    else if severity == "High" then High
    else if severity == "Low" then Low
    else Medium
  }

  /** Minutes to wait, given the priority and the number of visits already waiting. */
  function EstimatedWait(p: Priority, waitingCount: nat): (w: nat)
    ensures w >= 5
  {
    match p
    case Emergency => 5
    case High => 10
    case Medium => 15 + waitingCount * 2
    case Low => 20 + waitingCount * 3
  }

  /** A longer queue never shortens the estimate. */
  lemma EstimatedWaitMonotone(p: Priority, m: nat, n: nat)
    requires m <= n
    ensures EstimatedWait(p, m) <= EstimatedWait(p, n)
  {
  }

  /** For the same queue, a more urgent priority never waits longer. */
  lemma EstimatedWaitByUrgency(n: nat)
    ensures EstimatedWait(Emergency, n) <= EstimatedWait(High, n)
    ensures EstimatedWait(High, n) <= EstimatedWait(Medium, n)
    ensures EstimatedWait(Medium, n) <= EstimatedWait(Low, n)
    ensures EstimatedWait(Emergency, n) == 5 && EstimatedWait(High, n) == 10
  {
  }

  // ---------------------------------------------------------------------
  // Identity
  // ---------------------------------------------------------------------

  /** The identity of a signed-in user: missing name, student id and user id become "", the e-mail stands in for the mobile. */
  function SessionIdentity(u: SessionUser): (i: Identity)
    ensures Truthy(u.name) ==> i.name == u.name.value
    ensures !Truthy(u.name) ==> i.name == ""
    ensures Truthy(u.studentId) ==> i.studentId == u.studentId.value
    ensures !Truthy(u.studentId) ==> i.studentId == ""
    ensures Truthy(u.id) ==> i.userId == u.id
    ensures !Truthy(u.id) ==> i.userId == Some("")
    ensures i.mobile.Some? <==> Truthy(u.email)
    ensures i.mobile.Some? ==> i.mobile == u.email
    ensures i.studentClass == u.studentClass
  {
    Identity(OrElse(u.name, ""), OrElse(u.studentId, ""),
             if Truthy(u.email) then u.email else None,
             Some(OrElse(u.id, "")), u.studentClass)
  }

  /** The identity given in the request body, when it names both the student and the student id. */
  predicate HasBodyIdentity(req: CheckInRequest) {
    Truthy(req.name) && Truthy(req.studentId)
  }

  function GuestIdentity(g: GuestSession): Identity {
    Identity(g.name, g.studentId, g.mobile, None, None)
  }

  /**
   * Identity precedence: a signed-in session wins, then the body's
   * name and student id, then a guest session whose cookie names a session
   * the lookup accepts at `now`.
   */
  function ResolveIdentity(session: Option<SessionUser>, req: CheckInRequest, cookie: Option<string>,
                           sessions: seq<GuestSession>, now: int): (r: Option<Identity>)
    ensures session.Some? ==> r == Some(SessionIdentity(session.value))
    ensures session.None? && HasBodyIdentity(req) ==>
              r == Some(Identity(req.name.value, req.studentId.value, req.mobile, None, req.studentClass))
    ensures session.None? && !HasBodyIdentity(req) ==>
              (r.Some? <==> Truthy(cookie) && exists g :: g in sessions && GuestLogin.Accepts(g, cookie.value, now))
    ensures session.None? && !HasBodyIdentity(req) && r.Some? ==>
              exists g :: g in sessions && GuestLogin.Accepts(g, cookie.value, now) && r.value == GuestIdentity(g)
  {
    if session.Some? then Some(SessionIdentity(session.value))
    else if HasBodyIdentity(req) then
      Some(Identity(req.name.value, req.studentId.value, req.mobile, None, req.studentClass))
    else if Truthy(cookie) then
      match GuestLogin.FindSession(sessions, cookie.value, now)
      case Some(g) => Some(GuestIdentity(g))
      case None => None
    else None
  }

  // ---------------------------------------------------------------------
  // Duplicate guard
  // ---------------------------------------------------------------------

  /** `{studentId, queueStatus: 'waiting'}`; the filter value goes through the field's trim setter. */
  predicate IsWaitingFor(v: Visit, studentId: string) {
    v.studentId == Trim(studentId) && v.queueStatus == Waiting
  }

  /** The first stored waiting visit of the student, if any. */
  function FindWaiting(visits: seq<Visit>, studentId: string): (r: Option<Visit>)
    ensures r.Some? ==> r.value in visits && IsWaitingFor(r.value, studentId)
    ensures r.None? <==> forall v :: v in visits ==> !IsWaitingFor(v, studentId)
  {
    if visits == [] then None
    else if IsWaitingFor(visits[0], studentId) then Some(visits[0])
    else FindWaiting(visits[1..], studentId)
  }

  /** An in-progress (or completed) visit never triggers the duplicate guard. */
  lemma OnlyWaitingBlocks(visits: seq<Visit>, studentId: string)
    requires forall v :: v in visits && v.studentId == Trim(studentId) ==> v.queueStatus != Waiting
    ensures FindWaiting(visits, studentId).None?
  {
  }

  /** What the refusal reports about the visit already waiting. */
  datatype ExistingVisit = ExistingVisit(
    id: nat, name: string, studentId: string, priority: string,
    symptoms: seq<string>, emergencyFlag: bool, createdAt: int)

  function Existing(v: Visit): (e: ExistingVisit)
    ensures e.id == v.id && e.name == v.name && e.studentId == v.studentId && e.createdAt == v.createdAt
    ensures e.priority == v.priority && e.symptoms == v.symptoms && e.emergencyFlag == v.emergencyFlag
  {
    ExistingVisit(v.id, v.name, v.studentId, v.priority, v.symptoms, v.emergencyFlag, v.createdAt)
  }

  // ---------------------------------------------------------------------
  // The POST decision
  // ---------------------------------------------------------------------

  predicate IsWaiting(v: Visit) {
    v.queueStatus == Waiting
  }

  /** `countDocuments({queueStatus: 'waiting'})`. */
  function WaitingCount(visits: seq<Visit>): nat {
    Count(visits, IsWaiting)
  }

  /** The visit document the POST stores, with the schema's trim setters and the flag's default applied. */
  function NewVisit(id: nat, who: Identity, symptoms: seq<string>, emergencyFlag: Option<bool>,
                    priority: Priority, wait: nat, now: int): (v: Visit)
    ensures v.id == id && v.queueStatus == Waiting && v.priority == priority.Name()
    ensures v.estimatedWaitTime == Some(wait) && v.symptoms == symptoms
    ensures v.emergencyFlag == emergencyFlag.GetOr(false)
    ensures v.name == Trim(who.name) && v.studentId == Trim(who.studentId) && v.userId == who.userId
    ensures v.notes.None? && v.assignedNurse.None? && v.assignedNurseName.None?
    ensures v.createdAt == now && v.updatedAt == now
  {
    Visit(id, who.userId, Trim(who.name), Trim(who.studentId), TrimOpt(who.mobile), TrimOpt(who.studentClass),
          symptoms, Waiting, emergencyFlag.GetOr(false), priority.Name(), Some(wait), None, None, None, now, now)
  }

  /** The saved visit must also pass the user-id cast: an empty id is not an object id. */
  predicate Savable(v: Visit) {
    ValidVisit(v) && (v.userId.Some? ==> v.userId.value != "")
  }

  datatype CheckInOutcome =
    | MissingSymptoms
    | MissingSeverity
    | NoIdentity
    | AlreadyInQueue(existing: ExistingVisit)
    /** The schema refused the new visit (the route answers 500). */
    | InvalidVisit
    | CheckedIn(visitId: nat, estimatedWaitTime: nat, queueStatus: Status, priority: string,
                symptoms: seq<string>, emergencyFlag: bool)

  /** The visit the request would create, once the body is complete and the caller identified. */
  function Candidate(visits: seq<Visit>, who: Identity, req: CheckInRequest, now: int, newId: nat): Visit
    requires req.symptoms.Some? && req.severity.Some?
  {
    var p := SeverityToPriority(req.severity.value);
    NewVisit(newId, who, req.symptoms.value, req.emergencyFlag, p, EstimatedWait(p, WaitingCount(visits)), now)
  }

  /**
   * The POST once the body is complete and the caller identified as `who`:
   * the duplicate guard, then the new visit (the new visit's id is `newId`,
   * the clock `now`).
   */
  function Admit(visits: seq<Visit>, who: Identity, req: CheckInRequest, now: int, newId: nat): (r: (CheckInOutcome, Option<Visit>))
    requires req.symptoms.Some? && req.severity.Some?
    ensures r.1.Some? <==> r.0.CheckedIn?
    ensures r.0.AlreadyInQueue? || r.0.InvalidVisit? || r.0.CheckedIn?
    ensures r.0.AlreadyInQueue? <==> FindWaiting(visits, who.studentId).Some?
    ensures r.0.AlreadyInQueue? ==> r.0.existing == Existing(FindWaiting(visits, who.studentId).value)
    ensures r.0.CheckedIn? <==>
              FindWaiting(visits, who.studentId).None? && Savable(Candidate(visits, who, req, now, newId))
    ensures r.1.Some? ==> r.1.value == Candidate(visits, who, req, now, newId)
    ensures r.0.CheckedIn? ==>
              var v := r.1.value;
              && r.0.visitId == v.id && Some(r.0.estimatedWaitTime as int) == v.estimatedWaitTime
              && r.0.queueStatus == v.queueStatus && r.0.priority == v.priority
              && r.0.symptoms == v.symptoms && r.0.emergencyFlag == v.emergencyFlag
  {
    match FindWaiting(visits, who.studentId)
    case Some(e) => (AlreadyInQueue(Existing(e)), None)
    case None =>
      var v := Candidate(visits, who, req, now, newId);
      if !Savable(v) then (InvalidVisit, None)
      else (CheckedIn(v.id, v.estimatedWaitTime.value, v.queueStatus, v.priority, v.symptoms, v.emergencyFlag), Some(v))
  }

  /**
   * The POST on the store snapshot `visits`: its reply and the visit it
   * inserts, if any. The body is checked before anyone is looked up, and an
   * unidentified caller is refused before the store is consulted.
   */
  function Submit(visits: seq<Visit>, sessions: seq<GuestSession>, session: Option<SessionUser>,
                  req: CheckInRequest, cookie: Option<string>, now: int, newId: nat): (r: (CheckInOutcome, Option<Visit>))
    ensures (req.symptoms.None? || req.symptoms == Some([])) ==> r == (MissingSymptoms, None)
    ensures req.symptoms.Some? && req.symptoms != Some([]) && !Truthy(req.severity) ==> r == (MissingSeverity, None)
    ensures req.symptoms.Some? && req.symptoms != Some([]) && Truthy(req.severity) ==>
              match ResolveIdentity(session, req, cookie, sessions, now)
              case None => r == (NoIdentity, None)
              case Some(who) => r == Admit(visits, who, req, now, newId)
    ensures r.1.Some? <==> r.0.CheckedIn?
  {
    if req.symptoms.None? || req.symptoms == Some([]) then (MissingSymptoms, None)
    else if !Truthy(req.severity) then (MissingSeverity, None)
    else match ResolveIdentity(session, req, cookie, sessions, now)
      case None => (NoIdentity, None)
      case Some(who) => Admit(visits, who, req, now, newId)
  }

  /**
   * The duplicate guard: an identified caller is refused exactly when a
   * waiting visit with the same (trimmed) student id is stored, and the
   * refusal describes such a visit; an in-progress or completed visit of
   * the same student does not block.
   */
  lemma DuplicateGuard(visits: seq<Visit>, who: Identity, req: CheckInRequest, now: int, newId: nat)
    requires req.symptoms.Some? && req.severity.Some?
    ensures var out := Admit(visits, who, req, now, newId).0;
            out.AlreadyInQueue? <==> exists v :: v in visits && v.studentId == Trim(who.studentId) && v.queueStatus == Waiting
    ensures var out := Admit(visits, who, req, now, newId).0;
            out.AlreadyInQueue? ==> exists v :: v in visits && IsWaitingFor(v, who.studentId) && out.existing == Existing(v)
  {
    var found := FindWaiting(visits, who.studentId);
    if exists v :: v in visits && v.studentId == Trim(who.studentId) && v.queueStatus == Waiting {
      var v :| v in visits && v.studentId == Trim(who.studentId) && v.queueStatus == Waiting;
      assert IsWaitingFor(v, who.studentId);
      assert found.Some?;
    } else {
      assert found.Some? ==> IsWaitingFor(found.value, who.studentId);
    }
  }

  /**
   * A successful check-in stores one valid waiting visit whose priority comes
   * from the severity alone, whose wait is computed from the number of
   * waiting visits, and whose flag is the submitted one (false when absent);
   * the student had no waiting visit before.
   */
  lemma SuccessfulCheckIn(visits: seq<Visit>, who: Identity, req: CheckInRequest, now: int, newId: nat)
    requires req.symptoms.Some? && req.severity.Some?
    requires Admit(visits, who, req, now, newId).0.CheckedIn?
    ensures var (out, ins) := Admit(visits, who, req, now, newId);
            var p := SeverityToPriority(req.severity.value);
            && ins.Some? && ValidVisit(ins.value)
            && ins.value.id == newId && out.visitId == newId
            && ins.value.queueStatus == Waiting && out.queueStatus == Waiting
            && ins.value.priority == out.priority == p.Name()
            && ins.value.estimatedWaitTime == Some(out.estimatedWaitTime)
            && out.estimatedWaitTime == EstimatedWait(p, WaitingCount(visits))
            && ins.value.emergencyFlag == out.emergencyFlag == req.emergencyFlag.GetOr(false)
            && ins.value.symptoms == req.symptoms.value
            && ins.value.studentId == Trim(who.studentId)
            && forall v :: v in visits ==> !IsWaitingFor(v, who.studentId)
  {
  }

  /** The emergency flag never changes the priority or the wait a check-in assigns. */
  lemma FlagDoesNotAlterPriority(visits: seq<Visit>, who: Identity, req: CheckInRequest, now: int, newId: nat, flag: Option<bool>)
    requires req.symptoms.Some? && req.severity.Some?
    requires Admit(visits, who, req, now, newId).0.CheckedIn?
    ensures var other := Admit(visits, who, req.(emergencyFlag := flag), now, newId).0;
            var out := Admit(visits, who, req, now, newId).0;
            && other.CheckedIn?
            && other.priority == out.priority
            && other.estimatedWaitTime == out.estimatedWaitTime
  {
    var req' := req.(emergencyFlag := flag);
    var v := Candidate(visits, who, req, now, newId);
    var v' := Candidate(visits, who, req', now, newId);
    assert FindWaiting(visits, who.studentId).None? && Savable(v);
    assert v' == v.(emergencyFlag := flag.GetOr(false));
    assert Savable(v');
    assert Admit(visits, who, req', now, newId).0
        == CheckedIn(v'.id, v'.estimatedWaitTime.value, v'.queueStatus, v'.priority, v'.symptoms, v'.emergencyFlag);
  }

  /** Whether a body names its own student does not depend on the flag, so neither does the identity. */
  lemma IdentityIgnoresFlag(session: Option<SessionUser>, req: CheckInRequest, cookie: Option<string>,
                            sessions: seq<GuestSession>, now: int, flag: Option<bool>)
    ensures ResolveIdentity(session, req.(emergencyFlag := flag), cookie, sessions, now)
            == ResolveIdentity(session, req, cookie, sessions, now)
  {
  }

  // ---------------------------------------------------------------------
  // GET: the caller's active visit and its position
  // ---------------------------------------------------------------------

  /** Who is asking: the session's user id and student id, or a guest's student id. */
  datatype Viewer = Viewer(userId: Option<string>, studentId: Option<string>)

  function ResolveViewer(session: Option<SessionUser>, cookie: Option<string>,
                         sessions: seq<GuestSession>, now: int): (r: Option<Viewer>)
    ensures session.Some? ==> r == Some(Viewer(session.value.id, session.value.studentId))
    ensures session.None? ==> (r.Some? <==> Truthy(cookie) && GuestLogin.FindSession(sessions, cookie.value, now).Some?)
    ensures session.None? && r.Some? ==> r.value.userId.None?
  {
    if session.Some? then Some(Viewer(session.value.id, session.value.studentId))
    else if Truthy(cookie) then
      match GuestLogin.FindSession(sessions, cookie.value, now)
      case Some(g) => Some(Viewer(None, Some(g.studentId)))
      case None => None
    else None
  }

  /**
   * The active-visit filter: waiting or in progress, and either the same
   * user id or the same student id. A clause whose value is missing
   * matches nothing.
   */
  predicate IsActiveFor(v: Visit, who: Viewer) {
    && (v.queueStatus == Waiting || v.queueStatus == InProgress)
    && ((who.userId.Some? && v.userId == who.userId)
        || (who.studentId.Some? && v.studentId == Trim(who.studentId.value)))
  }

  function FindActive(visits: seq<Visit>, who: Viewer): (r: Option<Visit>)
    ensures r.Some? ==> r.value in visits && IsActiveFor(r.value, who)
    ensures r.None? <==> forall v :: v in visits ==> !IsActiveFor(v, who)
  {
    if visits == [] then None
    else if IsActiveFor(visits[0], who) then Some(visits[0])
    else FindActive(visits[1..], who)
  }

  /** A waiting visit created strictly earlier whose priority the store ranks at least as high. */
  predicate RanksAhead(v: Visit, current: Visit, geq: (string, string) -> bool) {
    v.queueStatus == Waiting && v.createdAt < current.createdAt && geq(v.priority, current.priority)
  }

  /** One more than the number of visits ranked ahead; never below 1. */
  function QueuePosition(visits: seq<Visit>, current: Visit, geq: (string, string) -> bool): (n: nat)
    ensures n >= 1
    ensures n == 1 + Count(visits, v => RanksAhead(v, current, geq))
  {
    1 + Count(visits, v => RanksAhead(v, current, geq))
  }

  /**
   * A waiting visit's position never exceeds the number of waiting visits:
   * the visit itself is waiting but not created before itself.
   */
  lemma QueuePositionBound(visits: seq<Visit>, i: nat, geq: (string, string) -> bool)
    requires i < |visits| && visits[i].queueStatus == Waiting
    ensures QueuePosition(visits, visits[i], geq) <= WaitingCount(visits)
  {
    CountMonotone(visits, v => RanksAhead(v, visits[i], geq), IsWaiting);
  }

  /** The position does not depend on the order in which the store holds the visits. */
  lemma QueuePositionOrderFree(visits: seq<Visit>, reordered: seq<Visit>, current: Visit, geq: (string, string) -> bool)
    requires multiset(visits) == multiset(reordered)
    ensures QueuePosition(visits, current, geq) == QueuePosition(reordered, current, geq)
  {
    CountPermutation(visits, reordered, v => RanksAhead(v, current, geq));
  }

  datatype StatusOutcome =
    | NoValidSession
    /** Success with null data. */
    | NoActiveVisit
    | ActiveVisit(visitId: nat, symptoms: seq<string>, queueStatus: Status, priority: string,
                  estimatedWaitTime: Option<int>, queuePosition: nat, createdAt: int)

  /** The GET on a snapshot of the store. */
  function CurrentVisit(visits: seq<Visit>, sessions: seq<GuestSession>, session: Option<SessionUser>,
                        cookie: Option<string>, now: int, geq: (string, string) -> bool): (r: StatusOutcome)
    ensures r.NoValidSession? <==> ResolveViewer(session, cookie, sessions, now).None?
    ensures r.NoActiveVisit? <==>
              && ResolveViewer(session, cookie, sessions, now).Some?
              && forall v :: v in visits ==> !IsActiveFor(v, ResolveViewer(session, cookie, sessions, now).value)
    ensures r.ActiveVisit? ==>
              exists v :: v in visits && IsActiveFor(v, ResolveViewer(session, cookie, sessions, now).value)
                          && r.visitId == v.id && r.queueStatus == v.queueStatus
                          && r.symptoms == v.symptoms && r.priority == v.priority
                          && r.estimatedWaitTime == v.estimatedWaitTime && r.createdAt == v.createdAt
                          && r.queuePosition == QueuePosition(visits, v, geq)
    ensures r.ActiveVisit? ==> r.queuePosition >= 1
  {
    match ResolveViewer(session, cookie, sessions, now)
    case None => NoValidSession
    case Some(who) =>
      match FindActive(visits, who)
      case None => NoActiveVisit
      case Some(v) =>
        ActiveVisit(v.id, v.symptoms, v.queueStatus, v.priority, v.estimatedWaitTime,
                    QueuePosition(visits, v, geq), v.createdAt)
  }
}

=== FILE: client_visits.dfy ===
/**
 * The visit as the staff pages receive it from the queue listing, and the
 * display helpers those pages share: the newest-first order, the
 * "time ago" label and the badge classes. The admin cases page
 * (app/admin/cases/page.tsx) and the recent-cases panel
 * (components/admin/RecentCases.tsx) each declare the order, the label and
 * the badges; the nurse queue (components/nurse/QueueList.tsx) declares
 * its own badge helpers but no label. The model defines each once.
 */
module ClientVisits {
  import opened Common
  import opened Sequences

  /**
   * A listed visit as JSON: status and priority are plain strings, the time
   * stamps are milliseconds since the epoch (the date parsing is outside the
   * model) and the id is the document id's text.
   */
  datatype CaseVisit = CaseVisit(
    id: string,
    name: string,
    studentId: string,
    mobile: Option<string>,
    symptoms: seq<string>,
    queueStatus: string,
    emergencyFlag: bool,
    priority: string,
    estimatedWaitTime: Option<int>,
    createdAt: int,
    updatedAt: int,
    notes: Option<string>,
    assignedNurse: Option<string>,
    assignedNurseName: Option<string>)

  // ---------------------------------------------------------------------
  // Newest first
  // ---------------------------------------------------------------------

  /** The comparator `b.createdAt - a.createdAt`: `a` may come first when it is no older. */
  predicate NewestFirst(a: CaseVisit, b: CaseVisit) {
    a.createdAt >= b.createdAt
  }

  lemma NewestFirstIsTotalPreorder()
    ensures TotalPreorder(NewestFirst)
  {
  }

  /** The fetched list sorted once, newest first: the same visits, in that order. */
  function ByNewest(visits: seq<CaseVisit>): (r: seq<CaseVisit>)
    ensures multiset(r) == multiset(visits)
    ensures forall i, j :: 0 <= i < j < |r| ==> r[i].createdAt >= r[j].createdAt
  {
    NewestFirstIsTotalPreorder();
    SortSorted(visits, NewestFirst);
    Sort(visits, NewestFirst)
  }

  // ---------------------------------------------------------------------
  // "Time ago"
  // ---------------------------------------------------------------------

  const MinuteMs: int := 60 * 1000
  const HourMs: int := 60 * MinuteMs
  const DayMs: int := 24 * HourMs

  /** The bucket a `formatTimeAgo` label names. */
  datatype Ago = JustNow | MinutesAgo(minutes: nat) | HoursAgo(hours: nat) | DaysAgo(days: nat)

  /**
   * The bucket for `elapsedMs` milliseconds: whole minutes below an hour,
   * whole hours below a day, whole days after. Each label states the
   * elapsed time rounded down to its unit; a negative elapsed time (a date
   * in the future) is "Just now".
   */
  function TimeAgo(elapsedMs: int): (a: Ago)
    ensures a == JustNow <==> elapsedMs < MinuteMs
    ensures a.MinutesAgo? ==> 1 <= a.minutes < 60 && a.minutes * MinuteMs <= elapsedMs < (a.minutes + 1) * MinuteMs
    ensures a.HoursAgo? ==> 1 <= a.hours < 24 && a.hours * HourMs <= elapsedMs < (a.hours + 1) * HourMs
    ensures a.DaysAgo? ==> 1 <= a.days && a.days * DayMs <= elapsedMs < (a.days + 1) * DayMs
  {
    var diffInMinutes := elapsedMs / 60000;
    if diffInMinutes < 1 then JustNow
    else if diffInMinutes < 60 then MinutesAgo(diffInMinutes)
    else if diffInMinutes < 1440 then HoursAgo(diffInMinutes / 60)
    else DaysAgo(diffInMinutes / 1440)
  }

  function Render(a: Ago): string {
    if a.JustNow? then "Just now" else NatToString(Amount(a)) + Unit(a)
  }

  /** `formatTimeAgo`, with the elapsed milliseconds `now - createdAt` as input. */
  function FormatTimeAgo(elapsedMs: int): string {
    Render(TimeAgo(elapsedMs))
  }

  /** Distinct buckets get distinct labels, so a label tells its bucket. */
  lemma RenderInjective(a: Ago, b: Ago)
    requires Render(a) == Render(b)
    ensures a == b
  {
    if !a.JustNow? && !b.JustNow? {
      NumberThenText(Amount(a), Amount(b), Unit(a), Unit(b));
    } else if !a.JustNow? {
      CountedLabel(a);
    } else if !b.JustNow? {
      CountedLabel(b);
    }
  }

  /** A label with a number starts with a digit, so it is never "Just now". */
  lemma CountedLabel(a: Ago)
    requires !a.JustNow?
    ensures Render(a) != "Just now"
  {
    assert IsDigit(Render(a)[0]);
  }

  /** The number a label shows. */
  function Amount(a: Ago): nat {
    match a
    case JustNow => 0
    case MinutesAgo(m) => m
    case HoursAgo(h) => h
    case DaysAgo(d) => d
  }

  /** The text after the number in a label. */
  function Unit(a: Ago): (u: string)
    ensures u != [] && !IsDigit(u[0])
  {
    match a
    case JustNow => "Just now"
    case MinutesAgo(_) => "m ago"
    case HoursAgo(_) => "h ago"
    case DaysAgo(_) => "d ago"
  }

  /** The elapsed time a label states, in whole minutes. */
  function Rank(a: Ago): int {
    match a
    case JustNow => 0
    case MinutesAgo(m) => m
    case HoursAgo(h) => 60 * h
    case DaysAgo(d) => 1440 * d
  }

  lemma TimeAgoMonotone(e1: int, e2: int)
    requires e1 <= e2
    ensures Rank(TimeAgo(e1)) <= Rank(TimeAgo(e2))
  {
    var m1, m2 := e1 / 60000, e2 / 60000;
    assert m1 <= m2;
    if 60 <= m1 && m2 < 1440 {
      assert m1 / 60 <= m2 / 60;
    } else if 1440 <= m1 {
      assert m1 / 1440 <= m2 / 1440;
    }
  }

  // ---------------------------------------------------------------------
  // Badge classes of the staff pages
  // ---------------------------------------------------------------------

  const DefaultBadge: string := "bg-gray-100 text-gray-800 border-gray-200"

  /** The pages' `getStatusColor`: one class per status, the gray default for anything else. */
  function StatusBadge(status: string): (c: string)
    ensures status !in {"waiting", "in-progress", "completed"} <==> c == DefaultBadge
  {
    match status
    case "waiting" => "bg-yellow-100 text-yellow-800 border-yellow-200"
    case "in-progress" => "bg-blue-100 text-blue-800 border-blue-200"
    case "completed" => "bg-green-100 text-green-800 border-green-200"
    case _ => DefaultBadge
  }

  /** The pages' `getPriorityColor`: one class per priority, the gray default for anything else. */
  function PriorityBadge(priority: string): (c: string)
    ensures priority !in {"emergency", "high", "medium", "low"} <==> c == DefaultBadge
  {
    match priority
    case "emergency" => "bg-red-100 text-red-800 border-red-200"
    case "high" => "bg-orange-100 text-orange-800 border-orange-200"
    case "medium" => "bg-yellow-100 text-yellow-800 border-yellow-200"
    case "low" => "bg-green-100 text-green-800 border-green-200"
    case _ => DefaultBadge
  }

  /** Known values get pairwise distinct classes. */
  lemma BadgesDistinct(s: string, t: string)
    ensures s in {"waiting", "in-progress", "completed"} && t in {"waiting", "in-progress", "completed"} && s != t
            ==> StatusBadge(s) != StatusBadge(t)
    ensures s in {"emergency", "high", "medium", "low"} && t in {"emergency", "high", "medium", "low"} && s != t
            ==> PriorityBadge(s) != PriorityBadge(t)
  {
  }
}

=== FILE: clinic_store.dfy ===
/**
 * The clinic's document store and the handlers that change it.
 *
 * `Store` holds the three collections the routes write: visits, users and
 * guest sessions. Each handler that writes is one method, performing its
 * steps in the route's order, and each is proved to leave the store exactly
 * as the snapshot function of its route says (`CheckInRoute.Submit`,
 * `QueueRoute.Patch`, `EmergencyRoute.Mark`, `GuestLogin.Login`,
 * `AdminUsers.Create`). Document ids come from one counter `nextId`, which
 * stands for the store's object-id generator.
 */
module ClinicStore {
  import opened Common
  import opened Records
  import GuestLogin
  import CheckInRoute
  import QueueRoute
  import EmergencyRoute
  import AdminUsers

  /** No two stored visits share an id. */
  predicate DistinctVisitIds(visits: seq<Visit>) {
    forall i, j :: 0 <= i < j < |visits| ==> visits[i].id != visits[j].id
  }

  /** Every visit id is below `bound`. */
  predicate VisitIdsBelow(visits: seq<Visit>, bound: nat) {
    forall k :: 0 <= k < |visits| ==> visits[k].id < bound
  }

  /** Every user id is below `bound`. */
  predicate UserIdsBelow(users: seq<User>, bound: nat) {
    forall k :: 0 <= k < |users| ==> users[k].id < bound
  }

  /** Appending a visit with the counter's id keeps the ids distinct and below the advanced counter. */
  lemma AppendVisitWithNextId(visits: seq<Visit>, v: Visit, nextId: nat)
    requires VisitIdsBelow(visits, nextId) && DistinctVisitIds(visits) && v.id == nextId
    ensures VisitIdsBelow(visits + [v], nextId + 1) && DistinctVisitIds(visits + [v])
  {
    var s := visits + [v];
    forall i, j | 0 <= i < j < |s| ensures s[i].id != s[j].id {
      if j == |visits| {
        assert s[i] == visits[i] && s[i].id < nextId;
      } else {
        assert s[i] == visits[i] && s[j] == visits[j];
      }
    }
  }

  /** Appending a user with the counter's id keeps the ids below the advanced counter. */
  lemma AppendUserWithNextId(users: seq<User>, u: User, nextId: nat)
    requires UserIdsBelow(users, nextId) && u.id == nextId
    ensures UserIdsBelow(users + [u], nextId + 1)
  {
  }

  /** Ids below the counter are below the advanced counter too. */
  lemma AdvanceBounds(visits: seq<Visit>, users: seq<User>, nextId: nat)
    requires VisitIdsBelow(visits, nextId) && UserIdsBelow(users, nextId)
    ensures VisitIdsBelow(visits, nextId + 1) && UserIdsBelow(users, nextId + 1)
  {
  }

  class Store {
    var visits: seq<Visit>
    var users: seq<User>
    var sessions: seq<GuestSession>
    /** The id the next stored document receives. */
    var nextId: nat

    /**
     * The store's indexes: visit and user ids are below the counter, visit
     * ids are distinct, student ids are unique among users and tokens among
     * sessions. Visit validity is not part of it: `update_priority` writes
     * any string, because the update runs no validator.
     */
    ghost predicate Valid()
      reads this
    {
      && VisitIdsBelow(visits, nextId)
      && UserIdsBelow(users, nextId)
      && DistinctVisitIds(visits)
      && UniqueStudentIds(users)
      && UniqueTokens(sessions)
    }

    constructor ()
      ensures Valid()
      ensures visits == [] && users == [] && sessions == [] && nextId == 0
    {
      visits, users, sessions, nextId := [], [], [], 0;
    }

    /**
     * POST /api/check-in. The body is checked, the caller identified, the
     * duplicate guard consulted, and then one visit is appended; on every
     * other path the store is unchanged.
     */
    method CheckIn(session: Option<CheckInRoute.SessionUser>, req: CheckInRoute.CheckInRequest,
                   cookie: Option<string>, now: int) returns (outcome: CheckInRoute.CheckInOutcome)
      requires Valid()
      modifies this
      ensures Valid()
      ensures var (o, inserted) := CheckInRoute.Submit(old(visits), old(sessions), session, req, cookie, now, old(nextId));
              && outcome == o
              && visits == old(visits) + (if inserted.Some? then [inserted.value] else [])
              && nextId == old(nextId) + (if inserted.Some? then 1 else 0)
      ensures users == old(users) && sessions == old(sessions)
    {
      if req.symptoms.None? || req.symptoms == Some([]) {
        return CheckInRoute.MissingSymptoms;
      }
      if !Truthy(req.severity) {
        return CheckInRoute.MissingSeverity;
      }
      var userInfo := CheckInRoute.ResolveIdentity(session, req, cookie, sessions, now);
      if userInfo.None? {
        return CheckInRoute.NoIdentity;
      }
      var existingVisit := CheckInRoute.FindWaiting(visits, userInfo.value.studentId);
      if existingVisit.Some? {
        return CheckInRoute.AlreadyInQueue(CheckInRoute.Existing(existingVisit.value));
      }
      var priority := CheckInRoute.SeverityToPriority(req.severity.value);
      var waitingCount := CheckInRoute.WaitingCount(visits);
      var estimatedWaitTime := CheckInRoute.EstimatedWait(priority, waitingCount);
      var visit := CheckInRoute.NewVisit(nextId, userInfo.value, req.symptoms.value, req.emergencyFlag,
                                         priority, estimatedWaitTime, now);
      var saved := InsertVisit(visit);
      if !saved {
        return CheckInRoute.InvalidVisit;
      }
      outcome := CheckInRoute.CheckedIn(visit.id, estimatedWaitTime, visit.queueStatus, visit.priority,
                                        visit.symptoms, visit.emergencyFlag);
    }

    /**
     * `Visit.create`: the schema's validators, then the insert of a visit
     * carrying the counter's id. A refused document leaves the store unchanged.
     */
    method InsertVisit(visit: Visit) returns (saved: bool)
      requires Valid() && visit.id == nextId
      modifies this
      ensures Valid()
      ensures saved == CheckInRoute.Savable(visit)
      ensures saved ==> visits == old(visits) + [visit] && nextId == old(nextId) + 1
      ensures !saved ==> visits == old(visits) && nextId == old(nextId)
      ensures users == old(users) && sessions == old(sessions)
    {
      if !CheckInRoute.Savable(visit) {
        return false;
      }
      AppendVisitWithNextId(visits, visit, nextId);
      AdvanceBounds(visits, users, nextId);
      visits := visits + [visit];
      nextId := nextId + 1;
      saved := true;
    }

    /**
     * PATCH /api/queue. The update is built field by field from the action
     * and then written over the visit with the requested id.
     */
    method UpdateVisit(role: Option<string>, req: QueueRoute.PatchRequest, now: int)
      returns (outcome: QueueRoute.PatchOutcome)
      requires Valid()
      modifies this
      ensures Valid()
      ensures (outcome, visits) == QueueRoute.Patch(old(visits), role, req, now)
      ensures users == old(users) && sessions == old(sessions) && nextId == old(nextId)
    {
      if !QueueRoute.IsStaff(role) {
        return QueueRoute.PatchUnauthorized;
      }
      if req.visitId.None? || !Truthy(req.action) {
        return QueueRoute.MissingFields;
      }
      var updateData := QueueRoute.VisitUpdate(None, None, None, now);
      var action := QueueRoute.ParseAction(req.action.value);
      if action.None? {
        return QueueRoute.InvalidAction;
      }
      match action.value {
        case Start =>
          updateData := updateData.(queueStatus := Some(InProgress), notes := req.notes);
        case Complete =>
          updateData := updateData.(queueStatus := Some(Completed), notes := req.notes);
        case UpdateNotes =>
          updateData := updateData.(notes := req.notes);
        case UpdatePriority =>
          if Truthy(req.priority) {
            updateData := updateData.(priority := req.priority);
          }
      }
      assert updateData == QueueRoute.UpdateFor(action.value, req, now);
      var index := QueueRoute.IndexOfId(visits, req.visitId.value);
      if index.None? {
        return QueueRoute.VisitNotFound;
      }
      var updatedVisit := QueueRoute.Apply(visits[index.value], updateData);
      visits := visits[index.value := updatedVisit];
      outcome := QueueRoute.Updated(updatedVisit);
    }

    /** POST /api/queue/emergency: escalates the student's first waiting visit in place. */
    method MarkEmergency(studentId: Option<string>, now: int) returns (outcome: EmergencyRoute.MarkOutcome)
      requires Valid()
      modifies this
      ensures Valid()
      ensures (outcome, visits) == EmergencyRoute.Mark(old(visits), studentId, now)
      ensures users == old(users) && sessions == old(sessions) && nextId == old(nextId)
    {
      if !Truthy(studentId) {
        return EmergencyRoute.MissingStudentId;
      }
      var index := EmergencyRoute.IndexOfWaiting(visits, studentId.value);
      if index.None? {
        return EmergencyRoute.NoWaitingVisit;
      }
      var visit := EmergencyRoute.Escalate(visits[index.value], now);
      visits := visits[index.value := visit];
      outcome := EmergencyRoute.Marked(visit.id, visit.name, visit.studentId, visit.priority, visit.emergencyFlag);
    }

    /** POST /api/guest-login with the 32 bytes the random generator gave. */
    method SignInGuest(req: GuestLogin.LoginRequest, randomBytes: seq<GuestLogin.Byte>, now: int)
      returns (outcome: GuestLogin.LoginOutcome)
      requires Valid() && |randomBytes| == GuestLogin.TokenBytes
      modifies this
      ensures Valid()
      ensures (outcome, sessions) == GuestLogin.Register(old(sessions), req, randomBytes, now)
      ensures visits == old(visits) && users == old(users) && nextId == old(nextId)
    {
      if !GuestLogin.HasRequiredFields(req) {
        return GuestLogin.MissingFields;
      }
      var guestSession := GuestLogin.NewSession(req, randomBytes, now);
      if !ValidGuestSession(guestSession) || GuestLogin.TokenTaken(sessions, guestSession.sessionToken) {
        return GuestLogin.InvalidSession;
      }
      GuestLogin.AppendFreshToken(sessions, guestSession);
      sessions := sessions + [guestSession];
      outcome := GuestLogin.LoggedIn(guestSession.sessionToken, req.name.value, req.studentId.value, req.mobile,
                                     guestSession.expiresAt, guestSession.sessionToken, GuestLogin.CookieMaxAgeSeconds);
    }

    /** POST /api/admin/users, with `hash` standing for bcrypt. */
    method CreateUser(role: Option<string>, req: AdminUsers.CreateRequest, now: int, hash: string -> string)
      returns (outcome: AdminUsers.CreateOutcome)
      requires Valid()
      modifies this
      ensures Valid()
      ensures (outcome, users) == AdminUsers.Create(old(users), role, req, old(nextId), now, hash)
      ensures nextId == old(nextId) + (if outcome.Created? then 1 else 0)
      ensures visits == old(visits) && sessions == old(sessions)
    {
      if !AdminUsers.IsAdmin(role) {
        return AdminUsers.CreateUnauthorized;
      }
      if !AdminUsers.HasRequiredFields(req) {
        return AdminUsers.MissingFields;
      }
      if AdminUsers.StudentIdTaken(users, req.studentId.value) {
        return AdminUsers.DuplicateStudentId;
      }
      var parsedRole := ParseRole(req.role.value);
      if parsedRole.None? {
        return AdminUsers.InvalidUser;
      }
      var user := AdminUsers.Candidate(req, parsedRole.value, nextId, now);
      var saved := SaveUser(user, hash);
      if saved.None? {
        return AdminUsers.InvalidUser;
      }
      outcome := AdminUsers.Created(AdminUsers.WithoutPassword(saved.value));
    }

    /**
     * `user.save()`: the schema's validators, the unique index on
     * `studentId`, then the pre-save hook that hashes the password, and the
     * insert. A refused document leaves the store unchanged.
     */
    method SaveUser(user: User, hash: string -> string) returns (saved: Option<User>)
      requires Valid() && user.id == nextId
      modifies this
      ensures Valid()
      ensures saved.Some? <==> ValidUser(user) && !(exists u :: u in old(users) && u.studentId == user.studentId)
      ensures saved.Some? ==> && saved.value == PreSave(user, true, hash)
                              && users == old(users) + [saved.value] && nextId == old(nextId) + 1
      ensures saved.None? ==> users == old(users) && nextId == old(nextId)
      ensures visits == old(visits) && sessions == old(sessions)
    {
      if !ValidUser(user) || exists u :: u in users && u.studentId == user.studentId {
        return None;
      }
      var hashed := PreSave(user, true, hash);
      AppendUniqueStudentId(users, hashed);
      AppendUserWithNextId(users, hashed, nextId);
      AdvanceBounds(visits, users, nextId);
      users := users + [hashed];
      nextId := nextId + 1;
      saved := Some(hashed);
    }
  }
}

=== FILE: common.dfy ===
/**
 * Small value-level helpers shared by every module of the clinic model:
 * optional values, JavaScript truthiness of optional strings, ASCII case
 * folding, substring search, whitespace trimming and decimal rendering.
 */
module Common {

  datatype Option<+T> = None | Some(value: T) {
    /** The carried value, or `default` when absent (JavaScript `x ?? default`). */
    function GetOr(default: T): T {
      match this
      case Some(v) => v
      case None => default
    }
  }

  /** JavaScript truthiness of an optional string: present and not empty. */
  predicate Truthy(s: Option<string>) {
    s.Some? && s.value != ""
  }

  /** The JavaScript expression `s || fallback` on an optional string. */
  function OrElse(s: Option<string>, fallback: string): string {
    if Truthy(s) then s.value else fallback
  }

  // ---------------------------------------------------------------------
  // Case folding and substring search (`toLowerCase`, `includes`)
  // ---------------------------------------------------------------------

  function LowerChar(c: char): char {
    if 'A' <= c <= 'Z' then (c as int + 32) as char else c
  }

  /** `toLowerCase`, restricted to the ASCII letters. */
  function Lower(s: string): (r: string)
    ensures |r| == |s|
    ensures forall i :: 0 <= i < |s| ==> r[i] == LowerChar(s[i])
  {
    seq(|s|, i requires 0 <= i < |s| => LowerChar(s[i]))
  }

  /** `s.includes(sub)`: `sub` occurs in `s` at some offset (the empty string occurs everywhere). */
  predicate Contains(s: string, sub: string) {
    exists i :: 0 <= i <= |s| - |sub| && OccursAt(s, sub, i)
  }

  predicate OccursAt(s: string, sub: string, i: nat)
    requires i + |sub| <= |s|
  {
    s[i..i + |sub|] == sub
  }

  /** Case-insensitive `includes`, as the search boxes compute it. */
  predicate ContainsIgnoringCase(s: string, sub: string) {
    Contains(Lower(s), Lower(sub))
  }

  // ---------------------------------------------------------------------
  // Whitespace trimming (the `trim: true` schema option)
  // ---------------------------------------------------------------------

  predicate IsSpace(c: char) {
    c == ' ' || c == '\t' || c == '\n' || c == '\r' || c == '\U{B}' || c == '\U{C}'
  }

  function TrimStart(s: string): (r: string)
    ensures r == [] || !IsSpace(r[0])
    decreases |s|
  {
    if |s| > 0 && IsSpace(s[0]) then TrimStart(s[1..]) else s
  }

  /** `TrimStart` keeps a suffix and drops only white space before it. */
  lemma {:induction false} TrimStartDropsSpaces(s: string)
    ensures var r := TrimStart(s);
            && |r| <= |s| && r == s[|s| - |r|..]
            && forall i :: 0 <= i < |s| - |r| ==> IsSpace(s[i])
    decreases |s|
  {
    if |s| > 0 && IsSpace(s[0]) {
      var tail := s[1..];
      TrimStartDropsSpaces(tail);
      var r := TrimStart(s);
      assert r == TrimStart(tail);
      assert tail[|tail| - |r|..] == s[|s| - |r|..];
      forall i | 0 <= i < |s| - |r| ensures IsSpace(s[i]) {
        if i > 0 {
          assert s[i] == tail[i - 1];
        }
      }
    }
  }

  function TrimEnd(s: string): (r: string)
    ensures r == [] || !IsSpace(r[|r| - 1])
    decreases |s|
  {
    if |s| > 0 && IsSpace(s[|s| - 1]) then TrimEnd(s[..|s| - 1]) else s
  }

  /** `TrimEnd` keeps a prefix and drops only white space after it. */
  lemma {:induction false} TrimEndDropsSpaces(s: string)
    ensures var r := TrimEnd(s);
            && |r| <= |s| && r == s[..|r|]
            && forall i :: |r| <= i < |s| ==> IsSpace(s[i])
    decreases |s|
  {
    if |s| > 0 && IsSpace(s[|s| - 1]) {
      var init := s[..|s| - 1];
      TrimEndDropsSpaces(init);
      var r := TrimEnd(s);
      assert r == TrimEnd(init);
      assert init[..|r|] == s[..|r|];
      forall i | |r| <= i < |s| ensures IsSpace(s[i]) {
        if i < |s| - 1 {
          assert s[i] == init[i];
        }
      }
    }
  }

  /** `String.prototype.trim`: drops leading and trailing white space. */
  function Trim(s: string): string {
    TrimEnd(TrimStart(s))
  }

  /** A trimmed string neither starts nor ends with white space. */
  lemma TrimmedEnds(s: string)
    ensures Trim(s) == [] || (!IsSpace(Trim(s)[0]) && !IsSpace(Trim(s)[|Trim(s)| - 1]))
  {
    var t := TrimStart(s);
    var r := TrimEnd(t);
    TrimEndDropsSpaces(t);
    if r != [] {
      assert r[0] == t[0];
    }
  }

  /** Trimming twice is trimming once, so stored values are stable under re-saving. */
  lemma TrimIdempotent(s: string)
    ensures Trim(Trim(s)) == Trim(s)
  {
    var r := Trim(s);
    TrimmedEnds(s);
    assert TrimStart(r) == r;
    assert TrimEnd(r) == r;
  }

  // ---------------------------------------------------------------------
  // Decimal rendering (template literals `${n}`)
  // ---------------------------------------------------------------------

  predicate IsDigit(c: char) {
    '0' <= c <= '9'
  }

  function DigitChar(d: nat): (c: char)
    requires d < 10
    ensures IsDigit(c)
  {
    ('0' as int + d) as char
  }

  /** The decimal digits of `n`, most significant first, without leading zeros. */
  function NatToString(n: nat): (r: string)
    ensures |r| >= 1
    ensures forall i :: 0 <= i < |r| ==> IsDigit(r[i])
    ensures r[0] == '0' ==> n == 0
    decreases n
  {
    if n < 10 then [DigitChar(n)] else NatToString(n / 10) + [DigitChar(n % 10)]
  }

  /** `${n}` for an integer: a minus sign before the digits of a negative number. */
  function IntToString(n: int): string {
    if n < 0 then "-" + NatToString(-n) else NatToString(n)
  }

  /** The number a string of decimal digits denotes (the partner of `NatToString`). */
  function DecimalValue(s: string): nat
    requires forall i :: 0 <= i < |s| ==> IsDigit(s[i])
    decreases |s|
  {
    if s == [] then 0 else DecimalValue(s[..|s| - 1]) * 10 + DigitValue(s[|s| - 1])
  }

  function DigitValue(c: char): (d: nat)
    requires IsDigit(c)
    ensures d < 10
  {
    c as int - '0' as int
  }

  /** Reading back the rendered digits gives the number: the rendering is exact and injective. */
  lemma {:induction false} DecimalRoundTrip(n: nat)
    ensures DecimalValue(NatToString(n)) == n
    decreases n
  {
    if n >= 10 {
      var s := NatToString(n);
      DecimalRoundTrip(n / 10);
      assert s[..|s| - 1] == NatToString(n / 10);
    }
  }

  lemma NatToStringInjective(m: nat, n: nat)
    requires NatToString(m) == NatToString(n)
    ensures m == n
  {
    DecimalRoundTrip(m);
    DecimalRoundTrip(n);
  }

  /**
   * A rendered number followed by text that starts with a non-digit can be
   * split back apart: the number and the text are recovered.
   */
  lemma NumberThenText(m: nat, n: nat, s: string, t: string)
    requires s != [] && t != [] && !IsDigit(s[0]) && !IsDigit(t[0])
    requires NatToString(m) + s == NatToString(n) + t
    ensures m == n && s == t
  {
    var p, q := NatToString(m), NatToString(n);
    if |p| < |q| {
      ShorterNumberDiffers(m, n, s, t);
    } else if |q| < |p| {
      ShorterNumberDiffers(n, m, t, s);
    } else {
      assert p == (p + s)[..|p|] == (q + t)[..|q|] == q;
      assert s == (p + s)[|p|..] == (q + t)[|q|..] == t;
      NatToStringInjective(m, n);
    }
  }

  lemma ShorterNumberDiffers(m: nat, n: nat, s: string, t: string)
    requires s != [] && !IsDigit(s[0])
    requires |NatToString(m)| < |NatToString(n)|
    ensures NatToString(m) + s != NatToString(n) + t
  {
    var p, q := NatToString(m), NatToString(n);
    assert (q + t)[|p|] == q[|p|];
  }
}

=== FILE: emergency_route.dfy ===
/**
 * The emergency route (app/api/queue/emergency/route.ts).
 *
 * GET lists the flagged visits that are still waiting or being seen,
 * ordered by the store's priority key descending and then oldest first,
 * numbered from 1; it performs no authorisation check. POST escalates the
 * student's waiting visit to a flagged emergency; `Mark` states its effect
 * on a store snapshot and `ClinicStore.Store.MarkEmergency` performs it.
 */
module EmergencyRoute {
  import opened Common
  import opened Records
  import opened Sequences
  import CheckInRoute
  import QueueRoute

  // ---------------------------------------------------------------------
  // GET
  // ---------------------------------------------------------------------

  /** `sort({priority: -1, createdAt: 1})` with the store's priority comparison `geq`. */
  predicate PriorityThenAge(a: Visit, b: Visit, geq: (string, string) -> bool) {
    if QueueRoute.Above(a.priority, b.priority, geq) then true
    else if QueueRoute.Above(b.priority, a.priority, geq) then false
    else a.createdAt <= b.createdAt
  }

  lemma PriorityThenAgeIsTotalPreorder(geq: (string, string) -> bool)
    requires TotalPreorder(geq)
    ensures TotalPreorder((a: Visit, b: Visit) => PriorityThenAge(a, b, geq))
  {
    var le := (a: Visit, b: Visit) => PriorityThenAge(a, b, geq);
    forall a: Visit, b: Visit, c: Visit | le(a, b) && le(b, c) ensures le(a, c) {
      var x, y, z := a.priority, b.priority, c.priority;
      assert geq(x, y) && geq(y, z) ==> geq(x, z);
      assert geq(z, y) && geq(y, x) ==> geq(z, x);
      assert geq(y, x) && geq(x, z) ==> geq(y, z);
      assert geq(z, x) && geq(x, y) ==> geq(z, y);
    }
  }

  datatype NumberedVisit = NumberedVisit(visit: Visit, position: nat)

  /** Numbers the visits 1, 2, ... in their order. */
  function Numbered(s: seq<Visit>): (r: seq<NumberedVisit>)
    ensures |r| == |s|
    ensures forall i :: 0 <= i < |r| ==> r[i] == NumberedVisit(s[i], i + 1)
  {
    seq(|s|, i requires 0 <= i < |s| => NumberedVisit(s[i], i + 1))
  }

  /** The GET's answer: exactly the open emergencies, in order, numbered 1, 2, ... */
  function EmergencyList(visits: seq<Visit>, geq: (string, string) -> bool): (r: seq<NumberedVisit>)
    ensures |r| == Count(visits, QueueRoute.IsOpenEmergency)
    ensures forall i :: 0 <= i < |r| ==> r[i].position == i + 1
    ensures forall v :: InList(r, v) <==> v in visits && QueueRoute.IsOpenEmergency(v)
  {
    var le := (a: Visit, b: Visit) => PriorityThenAge(a, b, geq);
    var sorted := Sort(Filter(visits, QueueRoute.IsOpenEmergency), le);
    var r := Numbered(sorted);
    forall v ensures InList(r, v) <==> v in visits && QueueRoute.IsOpenEmergency(v) {
      SortFilterMembership(visits, QueueRoute.IsOpenEmergency, le, v);
      NumberedMembership(sorted, v);
    }
    r
  }

  /** `v` is one of the numbered visits. */
  predicate InList(r: seq<NumberedVisit>, v: Visit) {
    exists i :: 0 <= i < |r| && r[i].visit == v
  }

  /** A visit is numbered exactly when it is in the list. */
  lemma NumberedMembership(s: seq<Visit>, v: Visit)
    ensures InList(Numbered(s), v) <==> v in s
  {
    var r := Numbered(s);
    if v in s {
      var i :| 0 <= i < |s| && s[i] == v;
      assert r[i].visit == v;
    }
  }

  /** With a total-preorder priority comparison, the list is in priority-then-age order. */
  lemma EmergencyListOrdered(visits: seq<Visit>, geq: (string, string) -> bool)
    requires TotalPreorder(geq)
    ensures var r := EmergencyList(visits, geq);
            forall i, j :: 0 <= i < j < |r| ==> PriorityThenAge(r[i].visit, r[j].visit, geq)
  {
    PriorityThenAgeIsTotalPreorder(geq);
    SortSorted(Filter(visits, QueueRoute.IsOpenEmergency), (a: Visit, b: Visit) => PriorityThenAge(a, b, geq));
  }

  // ---------------------------------------------------------------------
  // POST
  // ---------------------------------------------------------------------

  /** The `$set` of the update, with the `updatedAt` stamp the schema's timestamps add. */
  function Escalate(v: Visit, now: int): (w: Visit)
    ensures w.emergencyFlag && w.priority == "emergency" && w.updatedAt == now
    ensures w == v.(emergencyFlag := true, priority := "emergency", updatedAt := now)
  {
    v.(emergencyFlag := true, priority := "emergency", updatedAt := now)
  }

  /** Escalating twice leaves the visit as escalating once at the later time. */
  lemma EscalateIdempotent(v: Visit, t1: int, t2: int)
    ensures Escalate(Escalate(v, t1), t2) == Escalate(v, t2)
  {
  }

  /** The index of the first waiting visit of the student. */
  function IndexOfWaiting(visits: seq<Visit>, studentId: string): (r: Option<nat>)
    ensures r.Some? ==> r.value < |visits| && CheckInRoute.IsWaitingFor(visits[r.value], studentId)
    ensures r.Some? ==> forall k :: 0 <= k < r.value ==> !CheckInRoute.IsWaitingFor(visits[k], studentId)
    ensures r.None? <==> forall k :: 0 <= k < |visits| ==> !CheckInRoute.IsWaitingFor(visits[k], studentId)
  {
    if visits == [] then None
    else if CheckInRoute.IsWaitingFor(visits[0], studentId) then Some(0)
    else match IndexOfWaiting(visits[1..], studentId)
      case None => None
      case Some(k) => Some(k + 1)
  }

  datatype MarkOutcome =
    | MissingStudentId
    | NoWaitingVisit
    | Marked(id: nat, name: string, studentId: string, priority: string, emergencyFlag: bool)

  /**
   * The POST on a store snapshot: its reply and the new snapshot. Only the
   * first waiting visit of the student changes; in-progress and completed
   * visits are never touched.
   */
  function Mark(visits: seq<Visit>, studentId: Option<string>, now: int): (r: (MarkOutcome, seq<Visit>))
    ensures r.0 == MissingStudentId <==> !Truthy(studentId)
    ensures r.0.Marked? <==> Truthy(studentId) && IndexOfWaiting(visits, studentId.value).Some?
    ensures !r.0.Marked? ==> r.1 == visits
    ensures r.0 == NoWaitingVisit <==>
              Truthy(studentId) && forall v :: v in visits ==> !CheckInRoute.IsWaitingFor(v, studentId.value)
    ensures r.0.Marked? ==>
              var i := IndexOfWaiting(visits, studentId.value).value;
              && r.1 == visits[i := Escalate(visits[i], now)]
              && r.0.id == visits[i].id && r.0.priority == "emergency" && r.0.emergencyFlag
              && r.0.name == visits[i].name && r.0.studentId == visits[i].studentId
    ensures |r.1| == |visits|
    ensures forall k :: 0 <= k < |visits| && visits[k].queueStatus != Waiting ==> r.1[k] == visits[k]
  {
    if !Truthy(studentId) then (MissingStudentId, visits)
    else match IndexOfWaiting(visits, studentId.value)
      case None => (NoWaitingVisit, visits)
      case Some(i) =>
        var w := Escalate(visits[i], now);
        (Marked(w.id, w.name, w.studentId, w.priority, w.emergencyFlag), visits[i := w])
  }

  /**
   * Marking twice has the effect of marking once: the same visit is chosen
   * again and only its time stamp moves.
   */
  lemma MarkTwice(visits: seq<Visit>, studentId: Option<string>, t1: int, t2: int)
    requires Mark(visits, studentId, t1).0.Marked?
    ensures var once := Mark(visits, studentId, t1).1;
            var i := IndexOfWaiting(visits, studentId.value).value;
            && Mark(once, studentId, t2).0.Marked?
            && Mark(once, studentId, t2).1 == visits[i := Escalate(visits[i], t2)]
  {
    var sid := studentId.value;
    var i := IndexOfWaiting(visits, sid).value;
    var once := Mark(visits, studentId, t1).1;
    assert once == visits[i := Escalate(visits[i], t1)];
    forall k | 0 <= k < i ensures !CheckInRoute.IsWaitingFor(once[k], sid) {
      assert once[k] == visits[k];
    }
    assert CheckInRoute.IsWaitingFor(once[i], sid);
    IndexOfWaitingIs(once, sid, i);
    EscalateIdempotent(visits[i], t1, t2);
    assert once[i := Escalate(once[i], t2)] == visits[i := Escalate(visits[i], t2)];
  }

  /** A waiting visit of the student with none before it is the one `IndexOfWaiting` finds. */
  lemma IndexOfWaitingIs(visits: seq<Visit>, studentId: string, i: nat)
    requires i < |visits| && CheckInRoute.IsWaitingFor(visits[i], studentId)
    requires forall k :: 0 <= k < i ==> !CheckInRoute.IsWaitingFor(visits[k], studentId)
    ensures IndexOfWaiting(visits, studentId) == Some(i)
  {
    var r := IndexOfWaiting(visits, studentId);
    assert r.Some?;
    assert !(r.value < i) && !(r.value > i);
  }
}

=== FILE: guest_login.dfy ===
/**
 * Guest sign-in (app/api/guest-login/route.ts) and guest-session expiry
 * (models/GuestSession.ts): a session lives two minutes, its token is the
 * hexadecimal rendering of 32 random bytes, and a lookup accepts it only
 * while `expiresAt > now` strictly. The random bytes and the clock are
 * parameters. Storing a new session is `ClinicStore.Store.SignInGuest`.
 */
module GuestLogin {
  import opened Common
  import opened Records
  import opened Sequences

  /** Two minutes, in milliseconds, from creation to `expiresAt`. */
  const SessionLifetimeMs: int := 2 * 60 * 1000
  /** The cookie's `maxAge`, in seconds. */
  const CookieMaxAgeSeconds: int := 2 * 60
  /** The number of random bytes behind a session token. */
  const TokenBytes: nat := 32

  type Byte = b: int | 0 <= b < 256

  // ---------------------------------------------------------------------
  // Token rendering (`randomBytes(32).toString('hex')`)
  // ---------------------------------------------------------------------

  predicate IsHexChar(c: char) {
    '0' <= c <= '9' || 'a' <= c <= 'f'
  }

  function HexChar(d: int): (c: char)
    requires 0 <= d < 16
    ensures IsHexChar(c)
  {
    if d < 10 then ('0' as int + d) as char else ('a' as int + d - 10) as char
  }

  function HexCharValue(c: char): (d: int)
    requires IsHexChar(c)
    ensures 0 <= d < 16
    ensures HexChar(d) == c
  {
    if c <= '9' then c as int - '0' as int else c as int - 'a' as int + 10
  }

  /** Two lower-case hexadecimal digits per byte, high nibble first. */
  function HexEncode(bytes: seq<Byte>): (r: string)
    ensures |r| == 2 * |bytes|
    ensures forall i :: 0 <= i < |r| ==> IsHexChar(r[i])
  {
    if bytes == [] then []
    else [HexChar(bytes[0] / 16), HexChar(bytes[0] % 16)] + HexEncode(bytes[1..])
  }

  predicate IsHexString(s: string) {
    |s| % 2 == 0 && forall i :: 0 <= i < |s| ==> IsHexChar(s[i])
  }

  /** The partner of `HexEncode`: reads pairs of digits back into bytes. */
  function HexDecode(s: string): (r: seq<Byte>)
    requires IsHexString(s)
    ensures |r| == |s| / 2
  {
    if s == [] then []
    else [HexCharValue(s[0]) * 16 + HexCharValue(s[1])] + HexDecode(s[2..])
  }

  /** Decoding the rendered token gives back the bytes, so distinct bytes give distinct tokens. */
  lemma {:induction false} HexRoundTrip(bytes: seq<Byte>)
    ensures HexDecode(HexEncode(bytes)) == bytes
  {
    if bytes != [] {
      var s := HexEncode(bytes);
      assert s[2..] == HexEncode(bytes[1..]);
      HexRoundTrip(bytes[1..]);
      assert HexCharValue(s[0]) == bytes[0] / 16;
      assert HexCharValue(s[1]) == bytes[0] % 16;
    }
  }

  /** The session token built from the random bytes. */
  function SessionToken(randomBytes: seq<Byte>): (token: string)
    requires |randomBytes| == TokenBytes
    ensures |token| == 64 && IsHexString(token)
    ensures HexDecode(token) == randomBytes
  {
    HexRoundTrip(randomBytes);
    HexEncode(randomBytes)
  }

  // ---------------------------------------------------------------------
  // Creating a session (POST)
  // ---------------------------------------------------------------------

  /** The POST body; absent JSON keys are `None`. */
  datatype LoginRequest = LoginRequest(name: Option<string>, studentId: Option<string>, mobile: Option<string>)

  /** The `!name || !studentId` guard. */
  predicate HasRequiredFields(req: LoginRequest) {
    Truthy(req.name) && Truthy(req.studentId)
  }

  /** The document the POST stores: the schema's trim setters applied, expiring two minutes after `now`. */
  function NewSession(req: LoginRequest, randomBytes: seq<Byte>, now: int): (g: GuestSession)
    requires HasRequiredFields(req) && |randomBytes| == TokenBytes
    ensures g.expiresAt == now + SessionLifetimeMs && g.createdAt == now
    ensures g.expiresAt - g.createdAt == CookieMaxAgeSeconds * 1000
    ensures g.name == Trim(req.name.value) && g.studentId == Trim(req.studentId.value)
    ensures g.mobile == TrimOpt(req.mobile)
    ensures |g.sessionToken| == 64 && IsHexString(g.sessionToken)
  {
    GuestSession(Trim(req.name.value), Trim(req.studentId.value), TrimOpt(req.mobile),
                 SessionToken(randomBytes), now + SessionLifetimeMs, now)
  }

  datatype LoginOutcome =
    | MissingFields
    /** The `required` validator refused the trimmed document (a 500). */
    | InvalidSession
    /** The reply echoes the request's own name, student id and mobile; the cookie carries the token. */
    | LoggedIn(sessionToken: string, name: string, studentId: string, mobile: Option<string>,
               expiresAt: int, cookieValue: string, cookieMaxAge: int)

  /** What the POST answers, and which session (if any) it stores. */
  function Login(req: LoginRequest, randomBytes: seq<Byte>, now: int): (r: (LoginOutcome, Option<GuestSession>))
    requires |randomBytes| == TokenBytes
    ensures !HasRequiredFields(req) ==> r == (MissingFields, None)
    ensures HasRequiredFields(req) ==> (r.0.LoggedIn? <==> ValidGuestSession(NewSession(req, randomBytes, now)))
    ensures HasRequiredFields(req) && !ValidGuestSession(NewSession(req, randomBytes, now)) ==> r == (InvalidSession, None)
    ensures r.1.Some? <==> r.0.LoggedIn?
    ensures r.1.Some? ==> r.1 == Some(NewSession(req, randomBytes, now)) && ValidGuestSession(r.1.value)
    ensures r.0.LoggedIn? ==>
              && r.0.cookieValue == r.0.sessionToken == r.1.value.sessionToken
              && r.0.cookieMaxAge * 1000 == r.0.expiresAt - now
              && r.0.name == req.name.value && r.0.studentId == req.studentId.value
              && r.0.mobile == req.mobile && r.0.expiresAt == r.1.value.expiresAt
  {
    if !HasRequiredFields(req) then (MissingFields, None)
    else
      var g := NewSession(req, randomBytes, now);
      if !ValidGuestSession(g) then (InvalidSession, None)
      else (LoggedIn(g.sessionToken, req.name.value, req.studentId.value, req.mobile,
                     g.expiresAt, g.sessionToken, CookieMaxAgeSeconds), Some(g))
  }

  /** A stored session already carries the token. */
  predicate TokenTaken(sessions: seq<GuestSession>, token: string) {
    exists g :: g in sessions && g.sessionToken == token
  }

  /**
   * The POST on a snapshot of the session store: its reply and the new
   * store. The unique index on `sessionToken` refuses a session whose token
   * is already stored, which the route answers like any other failed save,
   * so tokens stay unique.
   */
  function Register(sessions: seq<GuestSession>, req: LoginRequest, randomBytes: seq<Byte>, now: int)
    : (r: (LoginOutcome, seq<GuestSession>))
    requires |randomBytes| == TokenBytes
    ensures var (o, stored) := Login(req, randomBytes, now);
            && (stored.None? ==> r == (o, sessions))
            && (stored.Some? && TokenTaken(sessions, stored.value.sessionToken) ==> r == (InvalidSession, sessions))
            && (stored.Some? && !TokenTaken(sessions, stored.value.sessionToken) ==> r == (o, sessions + [stored.value]))
    ensures r.0.LoggedIn? <==>
              && HasRequiredFields(req) && ValidGuestSession(NewSession(req, randomBytes, now))
              && !TokenTaken(sessions, NewSession(req, randomBytes, now).sessionToken)
    ensures r.0.LoggedIn? ==> r.1 == sessions + [NewSession(req, randomBytes, now)]
    ensures UniqueTokens(sessions) ==> UniqueTokens(r.1)
  {
    var (o, stored) := Login(req, randomBytes, now);
    if stored.None? then (o, sessions)
    else if TokenTaken(sessions, stored.value.sessionToken) then (InvalidSession, sessions)
    else
      AppendFreshToken(sessions, stored.value);
      (o, sessions + [stored.value])
  }

  lemma AppendFreshToken(sessions: seq<GuestSession>, g: GuestSession)
    requires !TokenTaken(sessions, g.sessionToken)
    ensures UniqueTokens(sessions) ==> UniqueTokens(sessions + [g])
  {
    var s := sessions + [g];
    if UniqueTokens(sessions) {
      forall i, j | 0 <= i < j < |s| ensures s[i].sessionToken != s[j].sessionToken {
        if j == |sessions| {
          assert s[i] in sessions;
        }
      }
    }
  }

  // ---------------------------------------------------------------------
  // Looking a session up (GET, and the check-in routes)
  // ---------------------------------------------------------------------

  /** The lookup's filter: matching token and `expiresAt > now`. */
  predicate Accepts(g: GuestSession, token: string, now: int) {
    g.sessionToken == token && g.expiresAt > now
  }

  /** `findOne({sessionToken, expiresAt: {$gt: now}})`: the first stored session the filter accepts. */
  function FindSession(sessions: seq<GuestSession>, token: string, now: int): (r: Option<GuestSession>)
    ensures r.Some? ==> r.value in sessions && Accepts(r.value, token, now)
    ensures r.None? <==> forall g :: g in sessions ==> !Accepts(g, token, now)
  {
    if sessions == [] then None
    else if Accepts(sessions[0], token, now) then Some(sessions[0])
    else FindSession(sessions[1..], token, now)
  }

  /**
   * The lookup and `isExpired` disagree at the expiry instant: a session
   * whose `expiresAt` equals `now` is not yet expired by `isExpired`, but the
   * lookup already refuses it. Before that instant both accept it, after it
   * both refuse it.
   */
  lemma ExpiryBoundary(g: GuestSession, now: int)
    ensures now == g.expiresAt ==> !IsExpired(g, now) && FindSession([g], g.sessionToken, now).None?
    ensures now < g.expiresAt ==> !IsExpired(g, now) && FindSession([g], g.sessionToken, now) == Some(g)
    ensures now > g.expiresAt ==> IsExpired(g, now) && FindSession([g], g.sessionToken, now).None?
  {
  }

  /** With unique tokens, the lookup finds the one session carrying the token exactly when it is unexpired and not at its expiry instant. */
  lemma FindSessionUnique(sessions: seq<GuestSession>, i: nat, now: int)
    requires UniqueTokens(sessions) && i < |sessions|
    ensures FindSession(sessions, sessions[i].sessionToken, now) ==
            (if sessions[i].expiresAt > now then Some(sessions[i]) else None)
  {
    if sessions[i].expiresAt > now {
      assert Accepts(sessions[i], sessions[i].sessionToken, now);
    }
    var r := FindSession(sessions, sessions[i].sessionToken, now);
    if r.Some? {
      var j :| 0 <= j < |sessions| && sessions[j] == r.value;
      assert sessions[j].sessionToken == sessions[i].sessionToken;
      assert j == i;
    }
  }

  /** The GET's reply: no cookie, a cookie no current session carries, or the session's details. */
  datatype ValidateOutcome =
    | NoGuestSession
    | InvalidOrExpired
    | SessionData(name: string, studentId: string, mobile: Option<string>, sessionToken: string, expiresAt: int)

  /**
   * The GET: a request without a `guest-session` cookie, or with an empty
   * one, is refused before any lookup; otherwise the cookie is looked up at
   * `now` and the session found is described.
   */
  function Validate(sessions: seq<GuestSession>, cookie: Option<string>, now: int): (r: ValidateOutcome)
    ensures r.NoGuestSession? <==> !Truthy(cookie)
    ensures r.SessionData? <==> Truthy(cookie) && FindSession(sessions, cookie.value, now).Some?
    ensures r.SessionData? ==>
              var g := FindSession(sessions, cookie.value, now).value;
              && r.name == g.name && r.studentId == g.studentId && r.mobile == g.mobile
              && r.sessionToken == g.sessionToken && r.expiresAt == g.expiresAt
    ensures r.SessionData? ==> r.sessionToken == cookie.value && r.expiresAt > now
  {
    if !Truthy(cookie) then NoGuestSession
    else match FindSession(sessions, cookie.value, now)
      case None => InvalidOrExpired
      case Some(g) => SessionData(g.name, g.studentId, g.mobile, g.sessionToken, g.expiresAt)
  }

  /**
   * Signing in and then presenting the cookie: until the two minutes are up
   * the GET describes the new session, with the trimmed details; from the
   * expiry instant on it is refused.
   */
  lemma SignInThenValidate(sessions: seq<GuestSession>, req: LoginRequest, randomBytes: seq<Byte>, now: int,
                           later: int)
    requires |randomBytes| == TokenBytes && UniqueTokens(sessions)
    requires Register(sessions, req, randomBytes, now).0.LoggedIn?
    ensures var (o, stored) := Register(sessions, req, randomBytes, now);
            var v := Validate(stored, Some(o.cookieValue), later);
            && (later < now + SessionLifetimeMs ==>
                  v == SessionData(Trim(req.name.value), Trim(req.studentId.value), TrimOpt(req.mobile),
                                   o.cookieValue, now + SessionLifetimeMs))
            && (later >= now + SessionLifetimeMs ==> v == InvalidOrExpired)
  {
    var (o, stored) := Register(sessions, req, randomBytes, now);
    var g := NewSession(req, randomBytes, now);
    assert Login(req, randomBytes, now).1 == Some(g);
    assert !TokenTaken(sessions, g.sessionToken);
    assert stored == sessions + [g];
    assert o.cookieValue == g.sessionToken;
    FindSessionUnique(stored, |sessions|, later);
  }

  /**
   * The TTL index removes sessions whose `expiresAt` is earlier than the
   * moment it runs. Removing them, at any moment up to `now`, never changes
   * what a lookup at `now` finds.
   */
  function Purge(sessions: seq<GuestSession>, at: int): (r: seq<GuestSession>)
    ensures forall g :: g in r <==> g in sessions && g.expiresAt >= at
  {
    var keep := (g: GuestSession) => g.expiresAt >= at;
    FilterMembershipAll(sessions, keep);
    Filter(sessions, keep)
  }

  lemma {:induction false} PurgeInvisible(sessions: seq<GuestSession>, token: string, at: int, now: int)
    requires at <= now
    ensures FindSession(Purge(sessions, at), token, now) == FindSession(sessions, token, now)
    decreases |sessions|
  {
    if sessions != [] {
      var g := sessions[0];
      var rest := Purge(sessions[1..], at);
      PurgeInvisible(sessions[1..], token, at, now);
      if g.expiresAt >= at {
        var p := Purge(sessions, at);
        assert p == [g] + rest;
        assert p[0] == g && p[1..] == rest;
      } else {
        assert Purge(sessions, at) == [] + rest == rest;
        assert !Accepts(g, token, now);
      }
    }
  }
}

=== FILE: kiosk.dfy ===
/**
 * The check-in kiosk (app/page.tsx). `KioskPage` holds the page's state;
 * each handler is a method, and the replies of the requests it makes are
 * parameters, so a handler is one step of a small state machine. The
 * symptom toggle, the manual-entry record, the request body and the
 * countdown step are functions on values, and the lemmas relate them to
 * the server's check-in route.
 */
module Kiosk {
  import opened Common
  import opened Sequences
  import CheckInRoute
  import PositionRoute
  import StudentSearch
  import EmergencyRoute
  import Records

  /** The seconds a result stays on screen before the kiosk resets itself. */
  const CountdownStart: nat := 30

  /** The manual-entry form; `studentClass` is the form's `class`. */
  datatype ManualForm = ManualForm(name: string, studentClass: string, mobile: string)

  const EmptyForm: ManualForm := ManualForm("", "", "")

  /** What the queue-number modal describes: the visit already waiting, or the check-in just made. */
  datatype QueueDetails =
    | AlreadyWaiting(visit: CheckInRoute.ExistingVisit)
    | JustCheckedIn(reply: CheckInRoute.CheckInOutcome)

  /** `queueInfo`: the details with the queue number and the waiting count. */
  datatype QueueInfo = QueueInfo(details: QueueDetails, queueNumber: nat, totalWaiting: nat)

  /**
   * How a request ended: with the reply of the route, with a reply that
   * carries no success (a server error), or with an exception (the network,
   * or a body that is not JSON).
   */
  datatype Response<T> = Reply(body: T) | ServerError | NetworkError

  // ---------------------------------------------------------------------
  // Symptoms, manual entry and the request body
  // ---------------------------------------------------------------------

  /**
   * `handleSymptomToggle`: a chosen symptom is removed, every occurrence of
   * it; any other is added at the end.
   */
  function Toggled(selected: seq<string>, id: string): (r: seq<string>)
    ensures id in selected ==> Subsequence(r, selected) && forall s :: s in r <==> s in selected && s != id
    ensures id !in selected ==> |r| == |selected| + 1 && r[..|selected|] == selected && r[|selected|] == id
    ensures id in r <==> id !in selected
  {
    if id in selected then
      FilterIsSubsequence(selected, (s: string) => s != id);
      FilterMembershipAll(selected, (s: string) => s != id);
      Filter(selected, (s: string) => s != id)
    else
      selected + [id]
  }

  /** Toggling a symptom that was not chosen, twice, gives back the same list. */
  lemma ToggleTwice(selected: seq<string>, id: string)
    requires id !in selected
    ensures Toggled(Toggled(selected, id), id) == selected
  {
    var p := (s: string) => s != id;
    FilterAppend(selected, [id], p);
    FilterAll(selected, p);
    assert Filter([id], p) == [];
  }

  /**
   * `handleManualSubmit`'s record: only with a name and a class that are
   * not blank; the student id typed earlier, or "GUEST" when none was
   * typed; always a guest. The fields are kept as typed.
   */
  function ManualInfo(form: ManualForm, studentId: string): (r: Option<StudentSearch.StudentInfo>)
    ensures r.Some? <==> Trim(form.name) != "" && Trim(form.studentClass) != ""
    ensures r.Some? ==> && r.value.isGuest
                        && r.value.name == form.name && r.value.studentClass == form.studentClass
                        && r.value.mobile == form.mobile
                        && r.value.studentId == (if studentId == "" then "GUEST" else studentId)
  {
    if Trim(form.name) != "" && Trim(form.studentClass) != "" then
      Some(StudentSearch.StudentInfo(form.name, OrElse(Some(studentId), "GUEST"), form.studentClass, form.mobile, true))
    else
      None
  }

  /**
   * `handleCheckIn`'s guard and body: nothing is sent without student
   * details, a symptom and a severity; otherwise the body carries them with
   * the flag. The `isGuest` key the kiosk adds is not read by the route, so
   * it is not part of the request here.
   */
  function CheckInBody(info: Option<StudentSearch.StudentInfo>, symptoms: seq<string>, severity: string,
                       emergencyFlag: bool): (r: Option<CheckInRoute.CheckInRequest>)
    ensures r.Some? <==> info.Some? && symptoms != [] && severity != ""
    ensures r.Some? ==> && r.value.symptoms == Some(symptoms) && r.value.severity == Some(severity)
                        && r.value.emergencyFlag == Some(emergencyFlag)
                        && r.value.name == Some(info.value.name) && r.value.studentId == Some(info.value.studentId)
  {
    if info.None? || symptoms == [] || severity == "" then None
    else
      var i := info.value;
      Some(CheckInRoute.CheckInRequest(Some(symptoms), Some(emergencyFlag), Some(severity), Some(i.name),
                                       Some(i.studentId), Some(i.studentClass), Some(i.mobile)))
  }

  /**
   * The kiosk's guard is the route's validation: a body the kiosk sends is
   * never refused for missing symptoms or severity, whoever sends it and
   * whatever the store holds.
   */
  lemma SentBodyPassesValidation(info: Option<StudentSearch.StudentInfo>, symptoms: seq<string>, severity: string,
                                 emergencyFlag: bool, visits: seq<Records.Visit>,
                                 sessions: seq<Records.GuestSession>, session: Option<CheckInRoute.SessionUser>,
                                 cookie: Option<string>, now: int, newId: nat)
    requires CheckInBody(info, symptoms, severity, emergencyFlag).Some?
    ensures var out := CheckInRoute.Submit(visits, sessions, session, CheckInBody(info, symptoms, severity, emergencyFlag).value,
                                           cookie, now, newId).0;
            !out.MissingSymptoms? && !out.MissingSeverity?
  {
  }

  /** A trimmed-nonblank string is not empty. */
  lemma NonBlankIsNotEmpty(s: string)
    requires Trim(s) != ""
    ensures s != ""
  {
    TrimOfEmpty();
  }

  lemma TrimOfEmpty()
    ensures Trim("") == ""
  {
    assert TrimStart("") == "";
  }

  /**
   * Details entered by hand always identify the caller by the body: the
   * name is not blank and the student id is at least "GUEST", so a kiosk
   * without a session never needs a guest cookie for them.
   */
  lemma ManualEntryIdentifies(form: ManualForm, studentId: string, symptoms: seq<string>, severity: string,
                              emergencyFlag: bool)
    requires ManualInfo(form, studentId).Some? && symptoms != [] && severity != ""
    ensures CheckInRoute.HasBodyIdentity(CheckInBody(ManualInfo(form, studentId), symptoms, severity, emergencyFlag).value)
  {
    NonBlankIsNotEmpty(form.name);
  }

  /**
   * The student id the emergency button sends: the one in the queue
   * details. Only already-waiting details carry one; the button is shown
   * only with those details (see `KioskPage.EmergencyButtonShown`).
   */
  function EmergencyStudentId(info: QueueInfo): (r: Option<string>)
    ensures info.details.AlreadyWaiting? <==> r.Some?
    ensures r.Some? ==> r.value == info.details.visit.studentId
  {
    match info.details
    case AlreadyWaiting(v) => Some(v.studentId)
    case JustCheckedIn(_) => None
  }

  /**
   * The already-in-queue modal describes a stored waiting visit; while that
   * visit is still waiting, the emergency button's request escalates the
   * first waiting visit of the same student.
   */
  lemma EmergencyFromQueueModalMarks(v: Records.Visit, visits: seq<Records.Visit>, queueNumber: nat,
                                     totalWaiting: nat, now: int)
    requires v in visits && v.queueStatus == Records.Waiting
    requires v.studentId != "" && Trim(v.studentId) == v.studentId
    ensures var sent := EmergencyStudentId(QueueInfo(AlreadyWaiting(CheckInRoute.Existing(v)), queueNumber, totalWaiting));
            var r := EmergencyRoute.Mark(visits, sent, now);
            && sent == Some(v.studentId)
            && r.0.Marked? && r.0.studentId == v.studentId && r.0.priority == "emergency"
  {
    var k :| 0 <= k < |visits| && visits[k] == v;
    assert CheckInRoute.IsWaitingFor(visits[k], v.studentId);
  }

  // ---------------------------------------------------------------------
  // The page's state and its steps
  // ---------------------------------------------------------------------

  /** All of the page's state at one moment. */
  datatype KioskView = KioskView(
    studentId: string,
    studentInfo: Option<StudentSearch.StudentInfo>,
    isLoading: bool,
    showManualForm: bool,
    showSuccessModal: bool,
    showAlreadyInQueueModal: bool,
    queueInfo: Option<QueueInfo>,
    countdown: int,
    manualForm: ManualForm,
    selectedSymptoms: seq<string>,
    severity: string,
    emergencyFlag: bool)

  /** The state `handleReturnHome` leaves: every field as the page starts, except the loading flag, which it does not touch. */
  function Home(isLoading: bool): KioskView {
    KioskView("", None, isLoading, false, false, false, None, CountdownStart, EmptyForm, [], "", false)
  }

  /** The position request answered with a waiting visit. */
  predicate InQueue(position: Response<PositionRoute.PositionOutcome>) {
    position.Reply? && position.body.Position?
  }

  /** Whether `handleStudentIdSearch` asks for the student: an id is typed and the position request neither failed nor found a visit. */
  predicate SearchMade(v: KioskView, position: Response<PositionRoute.PositionOutcome>) {
    Trim(v.studentId) != "" && !position.NetworkError? && !InQueue(position)
  }

  /**
   * `handleStudentIdSearch` on a snapshot. A blank id does nothing.
   * Otherwise the position of a waiting visit is asked first; when there is
   * one, the already-in-queue modal opens with its number and a fresh
   * countdown. A failed position request goes straight to the manual form.
   * A position reply without a visit leads to the student search, whose
   * student, if found, becomes the details, and otherwise the manual form
   * opens. The loading flag is off afterwards.
   */
  function AfterSearch(v: KioskView, position: Response<PositionRoute.PositionOutcome>,
                       search: Response<StudentSearch.SearchOutcome>): (r: KioskView)
    ensures Trim(v.studentId) == "" ==> r == v
    ensures Trim(v.studentId) != "" ==> !r.isLoading
    ensures Trim(v.studentId) != "" && InQueue(position) ==>
              && r.showAlreadyInQueueModal && r.countdown == CountdownStart
              && r.queueInfo == Some(QueueInfo(AlreadyWaiting(position.body.currentVisit), position.body.queueNumber,
                                               position.body.totalWaiting))
              && r.studentInfo == v.studentInfo && r.showManualForm == v.showManualForm
    ensures Trim(v.studentId) != "" && !InQueue(position) ==>
              && r.queueInfo == v.queueInfo && r.showAlreadyInQueueModal == v.showAlreadyInQueueModal
              && r.countdown == v.countdown
              && (r.showManualForm <==> r.studentInfo.None?)
              && (r.studentInfo.Some? <==> SearchMade(v, position) && search.Reply? && search.body.Found?)
              && (r.studentInfo.Some? ==> r.studentInfo.value == search.body.student)
    ensures r.(queueInfo := v.queueInfo, showAlreadyInQueueModal := v.showAlreadyInQueueModal, countdown := v.countdown,
               studentInfo := v.studentInfo, showManualForm := v.showManualForm, isLoading := v.isLoading) == v
  {
    if Trim(v.studentId) == "" then v
    else if position.NetworkError? then v.(showManualForm := true, studentInfo := None, isLoading := false)
    else if InQueue(position) then
      var p := position.body;
      v.(queueInfo := Some(QueueInfo(AlreadyWaiting(p.currentVisit), p.queueNumber, p.totalWaiting)),
         showAlreadyInQueueModal := true, countdown := CountdownStart, isLoading := false)
    else if search.Reply? && search.body.Found? then
      v.(studentInfo := Some(search.body.student), showManualForm := false, isLoading := false)
    else
      v.(showManualForm := true, studentInfo := None, isLoading := false)
  }

  /** When the student already waits, the search reply plays no part: the search is skipped. */
  lemma QueuedSkipsSearch(v: KioskView, position: Response<PositionRoute.PositionOutcome>,
                          s1: Response<StudentSearch.SearchOutcome>, s2: Response<StudentSearch.SearchOutcome>)
    requires InQueue(position)
    ensures !SearchMade(v, position)
    ensures AfterSearch(v, position, s1) == AfterSearch(v, position, s2)
  {
  }

  /** `canCheckIn`: the check-in button is enabled. */
  predicate CanCheckIn(v: KioskView) {
    v.studentInfo.Some? && |v.selectedSymptoms| > 0 && v.severity != "" && !v.isLoading
  }

  /** An enabled button sends a body; the only state the guard adds to the button's is the loading flag. */
  lemma EnabledButtonSends(v: KioskView)
    ensures CanCheckIn(v) <==> CheckInBody(v.studentInfo, v.selectedSymptoms, v.severity, v.emergencyFlag).Some? && !v.isLoading
  {
  }

  predicate ModalShown(v: KioskView) {
    v.showSuccessModal || v.showAlreadyInQueueModal
  }

  /**
   * One second of the countdown effect: while a result is shown the count
   * drops by one, and at zero the kiosk returns home; with no result shown
   * nothing happens.
   */
  function Tick(v: KioskView): (r: KioskView)
    ensures ModalShown(v) && v.countdown > 0 ==> r == v.(countdown := v.countdown - 1)
    ensures ModalShown(v) && v.countdown == 0 ==> r == Home(v.isLoading)
    ensures !ModalShown(v) ==> r == v
  {
    if ModalShown(v) && v.countdown > 0 then v.(countdown := v.countdown - 1)
    else if ModalShown(v) && v.countdown == 0 then Home(v.isLoading)
    else v
  }

  /** `n` seconds of the countdown effect. */
  function Ticks(v: KioskView, n: nat): KioskView
    decreases n
  {
    if n == 0 then v else Ticks(Tick(v), n - 1)
  }

  /** A result shown with `c` seconds on the counter is cleared after `c + 1` seconds. */
  lemma {:induction false} CountdownReturnsHome(v: KioskView)
    requires ModalShown(v) && v.countdown >= 0
    ensures Ticks(v, v.countdown + 1) == Home(v.isLoading)
    decreases v.countdown
  {
    if v.countdown > 0 {
      CountdownReturnsHome(Tick(v));
    }
  }

  class KioskPage {
    var studentId: string
    var studentInfo: Option<StudentSearch.StudentInfo>
    var isLoading: bool
    var showManualForm: bool
    var showSuccessModal: bool
    var showAlreadyInQueueModal: bool
    var queueInfo: Option<QueueInfo>
    var countdown: int
    var manualForm: ManualForm
    var selectedSymptoms: seq<string>
    var severity: string
    var emergencyFlag: bool

    function Snapshot(): KioskView
      reads this
    {
      KioskView(studentId, studentInfo, isLoading, showManualForm, showSuccessModal, showAlreadyInQueueModal,
                queueInfo, countdown, manualForm, selectedSymptoms, severity, emergencyFlag)
    }

    /** The counter never leaves 0..30, and a queue modal always has details to show. */
    ghost predicate Valid()
      reads this
    {
      && 0 <= countdown <= CountdownStart
      && (showAlreadyInQueueModal ==> queueInfo.Some?)
      && (showAlreadyInQueueModal && !showSuccessModal ==> queueInfo.value.details.AlreadyWaiting?)
      && (showSuccessModal ==> queueInfo.Some?)
    }

    /** The page as it first renders. */
    constructor ()
      ensures Valid()
      ensures Snapshot() == Home(false)
    {
      studentId, studentInfo, isLoading, showManualForm := "", None, false, false;
      showSuccessModal, showAlreadyInQueueModal, queueInfo, countdown := false, false, None, CountdownStart;
      manualForm, selectedSymptoms, severity, emergencyFlag := EmptyForm, [], "", false;
    }

    method ToggleSymptom(id: string)
      requires Valid()
      modifies this
      ensures Valid()
      ensures Snapshot() == old(Snapshot()).(selectedSymptoms := Toggled(old(selectedSymptoms), id))
    {
      selectedSymptoms := Toggled(selectedSymptoms, id);
    }

    method SelectSeverity(level: string)
      requires Valid()
      modifies this
      ensures Valid()
      ensures Snapshot() == old(Snapshot()).(severity := level)
    {
      severity := level;
    }

    /** The student-id input's `onChange`. */
    method SetStudentId(value: string)
      requires Valid()
      modifies this
      ensures Valid()
      ensures Snapshot() == old(Snapshot()).(studentId := value)
    {
      studentId := value;
    }

    /** The manual form's `onChange` handlers: each input replaces its own field and keeps the others. */
    method SetManualName(value: string)
      requires Valid()
      modifies this
      ensures Valid()
      ensures Snapshot() == old(Snapshot()).(manualForm := old(manualForm).(name := value))
    {
      manualForm := manualForm.(name := value);
    }

    method SetManualClass(value: string)
      requires Valid()
      modifies this
      ensures Valid()
      ensures Snapshot() == old(Snapshot()).(manualForm := old(manualForm).(studentClass := value))
    {
      manualForm := manualForm.(studentClass := value);
    }

    method SetManualMobile(value: string)
      requires Valid()
      modifies this
      ensures Valid()
      ensures Snapshot() == old(Snapshot()).(manualForm := old(manualForm).(mobile := value))
    {
      manualForm := manualForm.(mobile := value);
    }

    /** The emergency checkbox's `onChange`. */
    method SetEmergencyFlag(checked: bool)
      requires Valid()
      modifies this
      ensures Valid()
      ensures Snapshot() == old(Snapshot()).(emergencyFlag := checked)
    {
      emergencyFlag := checked;
    }

    /** `handleStudentIdSearch`; `searched` tells whether the student search was made. */
    method SearchStudent(position: Response<PositionRoute.PositionOutcome>,
                         search: Response<StudentSearch.SearchOutcome>) returns (searched: bool)
      requires Valid()
      modifies this
      ensures Valid()
      ensures searched == SearchMade(old(Snapshot()), position)
      ensures Snapshot() == AfterSearch(old(Snapshot()), position, search)
    {
      var before := Snapshot();
      searched := SearchMade(before, position);
      var after := AfterSearch(before, position, search);
      isLoading, showManualForm, studentInfo := after.isLoading, after.showManualForm, after.studentInfo;
      queueInfo, showAlreadyInQueueModal, countdown := after.queueInfo, after.showAlreadyInQueueModal, after.countdown;
    }

    /** `handleManualSubmit`: the hand-entered details, when name and class are filled in, replace the form. */
    method SubmitManual()
      requires Valid()
      modifies this
      ensures Valid()
      ensures ManualInfo(old(manualForm), old(studentId)).None? ==> Snapshot() == old(Snapshot())
      ensures ManualInfo(old(manualForm), old(studentId)).Some? ==>
                Snapshot() == old(Snapshot()).(studentInfo := ManualInfo(old(manualForm), old(studentId)), showManualForm := false)
    {
      var info := ManualInfo(manualForm, studentId);
      if info.Some? {
        studentInfo := info;
        showManualForm := false;
      }
    }

    /**
     * `handleCheckIn`. Without details, a symptom or a severity nothing is
     * sent (`sent` is `None`) and nothing changes. Otherwise the body is
     * sent; a successful check-in opens the success modal and a duplicate
     * the already-in-queue modal, each only when the follow-up position
     * request succeeds. Every other reply only raises an alert.
     */
    method CheckIn(reply: Response<CheckInRoute.CheckInOutcome>, position: Response<PositionRoute.PositionOutcome>)
      returns (sent: Option<CheckInRoute.CheckInRequest>)
      requires Valid()
      modifies this
      ensures Valid()
      ensures sent == CheckInBody(old(studentInfo), old(selectedSymptoms), old(severity), old(emergencyFlag))
      ensures sent.Some? && reply.Reply? && reply.body.CheckedIn? && position.Reply? && position.body.Position? ==>
                Snapshot() == old(Snapshot()).(queueInfo := Some(QueueInfo(JustCheckedIn(reply.body), position.body.queueNumber,
                                                                           position.body.totalWaiting)),
                                               showSuccessModal := true, countdown := CountdownStart)
      ensures sent.Some? && reply.Reply? && reply.body.AlreadyInQueue? && position.Reply? && position.body.Position? ==>
                Snapshot() == old(Snapshot()).(queueInfo := Some(QueueInfo(AlreadyWaiting(reply.body.existing), position.body.queueNumber,
                                                                           position.body.totalWaiting)),
                                               showAlreadyInQueueModal := true, countdown := CountdownStart)
      ensures var shown := reply.Reply? && (reply.body.CheckedIn? || reply.body.AlreadyInQueue?);
              var numbered := position.Reply? && position.body.Position?;
              !(sent.Some? && shown && numbered) ==> Snapshot() == old(Snapshot())
    {
      sent := CheckInBody(studentInfo, selectedSymptoms, severity, emergencyFlag);
      if sent.None? {
        return;
      }
      if reply.Reply? && position.Reply? && position.body.Position? {
        var p := position.body;
        match reply.body
        case CheckedIn(_, _, _, _, _, _) =>
          queueInfo := Some(QueueInfo(JustCheckedIn(reply.body), p.queueNumber, p.totalWaiting));
          showSuccessModal := true;
          countdown := CountdownStart;
        case AlreadyInQueue(existing) =>
          queueInfo := Some(QueueInfo(AlreadyWaiting(existing), p.queueNumber, p.totalWaiting));
          showAlreadyInQueueModal := true;
          countdown := CountdownStart;
        case _ =>
      }
    }

    /** `handleReturnHome`: every field back to its first value except the loading flag. */
    method ReturnHome()
      requires Valid()
      modifies this
      ensures Valid()
      ensures Snapshot() == Home(old(isLoading))
    {
      var home := Home(isLoading);
      showSuccessModal, showAlreadyInQueueModal, queueInfo := home.showSuccessModal, home.showAlreadyInQueueModal, home.queueInfo;
      studentId, studentInfo, showManualForm := home.studentId, home.studentInfo, home.showManualForm;
      selectedSymptoms, severity, emergencyFlag := home.selectedSymptoms, home.severity, home.emergencyFlag;
      manualForm, countdown := home.manualForm, home.countdown;
    }

    /** The countdown effect, once a second. */
    method OnTick()
      requires Valid()
      modifies this
      ensures Valid()
      ensures Snapshot() == Tick(old(Snapshot()))
    {
      if (showSuccessModal || showAlreadyInQueueModal) && countdown > 0 {
        countdown := countdown - 1;
      } else if (showSuccessModal || showAlreadyInQueueModal) && countdown == 0 {
        ReturnHome();
      }
    }

    /**
     * The "Mark as Emergency" button is rendered only in the already-in-queue
     * modal, and that modal only when the success modal, which the page
     * renders first, is closed.
     */
    predicate EmergencyButtonShown()
      reads this
    {
      showAlreadyInQueueModal && !showSuccessModal && queueInfo.Some?
    }

    /**
     * `handleEmergency`, from the already-in-queue modal: the student id of
     * the waiting visit it shows is sent, and a visit marked by the route
     * sends the kiosk home; any other reply only raises an alert. The id
     * sent is returned.
     */
    method MarkEmergency(reply: Response<EmergencyRoute.MarkOutcome>) returns (sentId: Option<string>)
      requires Valid() && EmergencyButtonShown()
      modifies this
      ensures Valid()
      ensures sentId == EmergencyStudentId(old(queueInfo).value)
      ensures sentId == Some(old(queueInfo).value.details.visit.studentId)
      ensures reply.Reply? && reply.body.Marked? ==> Snapshot() == Home(old(isLoading))
      ensures !(reply.Reply? && reply.body.Marked?) ==> Snapshot() == old(Snapshot())
    {
      sentId := EmergencyStudentId(queueInfo.value);
      if reply.Reply? && reply.body.Marked? {
        ReturnHome();
      }
    }
  }
}

=== FILE: position_route.dfy ===
/**
 * The kiosk's queue-position lookup (app/api/queue/position/route.ts).
 *
 * It finds the student's waiting visit, refuses one older than an hour
 * (the student may then check in again), and otherwise searches the waiting
 * list, ordered like the staff listing, for the visit's place. The handler
 * reads the store three times; the model takes the state seen by the first
 * lookup (`lookup`) apart from the state seen by the count and the ordered
 * list (`ranking`), which is how a visit can go missing from the list.
 */
module PositionRoute {
  import opened Common
  import opened Records
  import opened Sequences
  import CheckInRoute
  import QueueRoute

  /** One hour in milliseconds. */
  const OneHourMs: int := 60 * 60 * 1000

  /** Strictly older than one hour at `now`; a visit exactly one hour old is still current. */
  predicate IsStale(v: Visit, now: int) {
    v.createdAt < now - OneHourMs
  }

  /** The waiting visits in the listing order (flag, then priority key, then check-in time). */
  function WaitingOrder(visits: seq<Visit>, geq: (string, string) -> bool): (r: seq<Visit>)
    ensures |r| == CheckInRoute.WaitingCount(visits)
    ensures multiset(r) == multiset(Filter(visits, CheckInRoute.IsWaiting))
  {
    Sort(Filter(visits, CheckInRoute.IsWaiting), (a: Visit, b: Visit) => QueueRoute.RanksNoLater(a, b, geq))
  }

  /** One more than the first place of `id` in the ordered list, and 1 when it is not there. */
  function QueueNumber(order: seq<Visit>, id: nat): (n: nat)
    ensures n >= 1
  {
    match QueueRoute.IndexOfId(order, id)
    case Some(i) => i + 1
    case None => 1
  }

  datatype PositionOutcome =
    | MissingStudentId
    | NoActiveVisit
    /** `success: false, canRecheckIn: true` */
    | VisitExpired
    | Position(queueNumber: nat, totalWaiting: nat, currentVisit: CheckInRoute.ExistingVisit)

  /**
   * The handler. The search runs over the ordered waiting list and stops at
   * the first visit with the current visit's id; a visit that is not in the
   * list leaves the position at 0, so its queue number is 1.
   */
  method QueuePosition(lookup: seq<Visit>, ranking: seq<Visit>, studentId: Option<string>, now: int,
                       geq: (string, string) -> bool) returns (r: PositionOutcome)
    ensures r == MissingStudentId <==> !Truthy(studentId)
    ensures r.Position? <==>
              Truthy(studentId) && CheckInRoute.FindWaiting(lookup, studentId.value).Some?
              && !IsStale(CheckInRoute.FindWaiting(lookup, studentId.value).value, now)
    ensures r == NoActiveVisit <==> Truthy(studentId) && CheckInRoute.FindWaiting(lookup, studentId.value).None?
    ensures r == VisitExpired <==>
              Truthy(studentId) && CheckInRoute.FindWaiting(lookup, studentId.value).Some?
              && IsStale(CheckInRoute.FindWaiting(lookup, studentId.value).value, now)
    ensures r.Position? ==>
              var current := CheckInRoute.FindWaiting(lookup, studentId.value).value;
              && r.currentVisit == CheckInRoute.Existing(current)
              && r.totalWaiting == CheckInRoute.WaitingCount(ranking)
              && r.queueNumber == QueueNumber(WaitingOrder(ranking, geq), current.id)
  {
    if !Truthy(studentId) {
      return MissingStudentId;
    }
    var found := CheckInRoute.FindWaiting(lookup, studentId.value);
    if found.None? {
      return NoActiveVisit;
    }
    var current := found.value;
    if current.createdAt < now - OneHourMs {
      return VisitExpired;
    }
    var totalWaiting := CheckInRoute.WaitingCount(ranking);
    var queuePosition := SearchPosition(WaitingOrder(ranking, geq), current.id);
    var queueNumber := queuePosition + 1;
    r := Position(queueNumber, totalWaiting, CheckInRoute.Existing(current));
  }

  /**
   * The search loop: the index of the first visit with the id in the
   * ordered list, stopping there, and 0 when none has it.
   */
  method SearchPosition(waitingVisits: seq<Visit>, id: nat) returns (queuePosition: nat)
    ensures queuePosition + 1 == QueueNumber(waitingVisits, id)
    ensures (queuePosition < |waitingVisits| && waitingVisits[queuePosition].id == id)
            || (queuePosition == 0 && forall k :: 0 <= k < |waitingVisits| ==> waitingVisits[k].id != id)
  {
    queuePosition := 0;
    var i := 0;
    while i < |waitingVisits|
      invariant 0 <= i <= |waitingVisits|
      invariant queuePosition == 0
      invariant forall k :: 0 <= k < i ==> waitingVisits[k].id != id
    {
      if waitingVisits[i].id == id {
        queuePosition := i;
        QueueNumberCountsPredecessors(waitingVisits, i);
        break;
      }
      i := i + 1;
    }
  }

  /**
   * When nothing changed between the reads, the current visit is in the
   * ordered list, so its queue number lies between 1 and the number of
   * waiting visits.
   */
  lemma QueueNumberInRange(visits: seq<Visit>, current: Visit, geq: (string, string) -> bool)
    requires current in visits && current.queueStatus == Waiting
    ensures 1 <= QueueNumber(WaitingOrder(visits, geq), current.id) <= CheckInRoute.WaitingCount(visits)
    ensures QueueRoute.IndexOfId(WaitingOrder(visits, geq), current.id).Some?
  {
    var order := WaitingOrder(visits, geq);
    FilterMembership(visits, CheckInRoute.IsWaiting, current);
    assert current in multiset(Filter(visits, CheckInRoute.IsWaiting));
    assert current in multiset(order);
    var k :| 0 <= k < |order| && order[k] == current;
    assert order[k].id == current.id;
  }

  /** A visit that is missing from the ordered list gets queue number 1. */
  lemma MissingVisitIsFirst(order: seq<Visit>, id: nat)
    requires forall k :: 0 <= k < |order| ==> order[k].id != id
    ensures QueueNumber(order, id) == 1
  {
  }

  /** The queue number is one more than the number of visits listed before the first one with the id. */
  lemma QueueNumberCountsPredecessors(order: seq<Visit>, k: nat)
    requires k < |order| && forall j :: 0 <= j < k ==> order[j].id != order[k].id
    ensures QueueNumber(order, order[k].id) == k + 1
  {
    var r := QueueRoute.IndexOfId(order, order[k].id);
    if r.Some? {
      assert !(r.value < k);
      assert !(k < r.value);
    }
  }
}

=== FILE: queue_api.dfy ===
/**
 * The client's queue endpoints (store/queueApi.ts): the query arguments
 * with their defaults, and the `transformResponse` callbacks that turn the
 * listing's JSON into queue entries, pick out the emergencies and fall back
 * to empty results when the reply is not a success.
 */
module QueueApi {
  import opened Common
  import opened Sequences
  import opened QueueSlice
  import Records
  import QueueRoute

  /** A visit as the listing's JSON carries it; keys that may be absent are `Option`s. */
  datatype RawVisit = RawVisit(
    id: string,
    name: string,
    studentId: string,
    symptoms: Option<seq<string>>,
    emergencyFlag: Option<bool>,
    priority: Option<string>,
    queuePosition: Option<int>,
    estimatedWaitTime: Option<int>,
    queueStatus: Option<string>)

  /** The wait shown when the reply has none, or has 0. */
  const DefaultWait: int := 15

  /** `x || fallback` for a number: absent and the falsy 0 both give the fallback. */
  function NumberOr(x: Option<int>, fallback: int): int {
    if x.Some? && x.value != 0 then x.value else fallback
  }

  /**
   * One visit made a queue entry with the `||` defaults: no symptoms, no
   * flag, priority "medium", position 0, a wait of 15 and status "waiting".
   * Because `||` tests truthiness, an empty priority or status and a wait
   * of 0 are replaced as well, so an entry never shows a wait of 0.
   */
  function Normalize(v: RawVisit): (item: QueueItem)
    ensures item.id == v.id && item.name == v.name && item.studentId == v.studentId
    ensures item.symptoms == (if v.symptoms.Some? then v.symptoms.value else [])
    ensures item.emergencyFlag <==> v.emergencyFlag == Some(true)
    ensures Truthy(v.priority) ==> item.priority == v.priority.value
    ensures !Truthy(v.priority) ==> item.priority == "medium"
    ensures Truthy(v.queueStatus) ==> item.status == v.queueStatus.value
    ensures !Truthy(v.queueStatus) ==> item.status == "waiting"
    ensures v.queuePosition.Some? && v.queuePosition.value != 0 ==> item.position == v.queuePosition.value
    ensures v.queuePosition.None? || v.queuePosition == Some(0) ==> item.position == 0
    ensures v.estimatedWaitTime.Some? && v.estimatedWaitTime.value != 0 ==> item.estimatedWaitTime == v.estimatedWaitTime.value
    ensures item.estimatedWaitTime != 0
  {
    QueueItem(v.id, v.name, v.studentId,
              v.symptoms.GetOr([]),
              v.emergencyFlag.GetOr(false),
              OrElse(v.priority, "medium"),
              NumberOr(v.queuePosition, 0),
              NumberOr(v.estimatedWaitTime, DefaultWait),
              OrElse(v.queueStatus, "waiting"))
  }

  /** `visits.map(normalize)`. */
  function NormalizeAll(vs: seq<RawVisit>): (r: seq<QueueItem>)
    ensures |r| == |vs|
    ensures forall i :: 0 <= i < |r| ==> r[i] == Normalize(vs[i])
    decreases |vs|
  {
    if vs == [] then [] else [Normalize(vs[0])] + NormalizeAll(vs[1..])
  }

  /** The reply of GET /api/queue; `data` is absent on a failure. */
  datatype QueueData = QueueData(visits: seq<RawVisit>, stats: Option<QueueRoute.QueueStats>)

  datatype QueueReply = QueueReply(success: bool, data: Option<QueueData>)

  /** What `getQueue` hands to the page; `stats` is `None` for the empty object of a failure. */
  datatype QueueResult = QueueResult(visits: seq<QueueItem>, stats: Option<QueueRoute.QueueStats>)

  /** `getQueue`'s transform: one entry per visit, in the reply's order; on a failure nothing. */
  function TransformQueue(reply: QueueReply): (r: QueueResult)
    ensures !(reply.success && reply.data.Some?) ==> r == QueueResult([], None)
    ensures reply.success && reply.data.Some? ==>
              && |r.visits| == |reply.data.value.visits|
              && (forall i :: 0 <= i < |r.visits| ==> r.visits[i] == Normalize(reply.data.value.visits[i]))
              && r.stats == reply.data.value.stats
  {
    if reply.success && reply.data.Some? then
      QueueResult(NormalizeAll(reply.data.value.visits), reply.data.value.stats)
    else
      QueueResult([], None)
  }

  /** `getQueueStats`'s transform: the stats when the reply has them, else the empty object. */
  function TransformStats(reply: QueueReply): (r: Option<QueueRoute.QueueStats>)
    ensures r.Some? <==> reply.success && reply.data.Some? && reply.data.value.stats.Some?
    ensures r.Some? ==> r == reply.data.value.stats
  {
    if reply.success && reply.data.Some? then reply.data.value.stats else None
  }

  /** `filter(visit => visit.emergencyFlag)`. */
  predicate Flagged(v: RawVisit) {
    v.emergencyFlag == Some(true)
  }

  /** Normalising a subsequence gives a subsequence of the normalised whole. */
  lemma {:induction false} NormalizeKeepsSubsequence(s: seq<RawVisit>, p: RawVisit -> bool)
    ensures Subsequence(NormalizeAll(Filter(s, p)), NormalizeAll(s))
    decreases |s|
  {
    if s != [] {
      NormalizeKeepsSubsequence(s[1..], p);
      var rest := NormalizeAll(Filter(s[1..], p));
      var whole := NormalizeAll(s);
      assert whole[1..] == NormalizeAll(s[1..]);
      if p(s[0]) {
        var kept := NormalizeAll(Filter(s, p));
        assert Filter(s, p) == [s[0]] + Filter(s[1..], p);
        assert kept == [Normalize(s[0])] + rest;
        assert kept[0] == whole[0] && kept[1..] == rest;
      } else {
        assert Filter(s, p) == Filter(s[1..], p);
        SubsequenceOfTail(rest, whole);
      }
    }
  }

  /**
   * `getEmergencyAlerts`'s transform: the flagged visits only, normalised,
   * in the reply's order; on a failure nothing.
   */
  function TransformEmergencies(reply: QueueReply): (r: seq<QueueItem>)
    ensures !(reply.success && reply.data.Some?) ==> r == []
    ensures forall i :: 0 <= i < |r| ==> r[i].emergencyFlag
    ensures reply.success && reply.data.Some? ==>
              var vs := reply.data.value.visits;
              && |r| == Count(vs, Flagged)
              && Subsequence(r, NormalizeAll(vs))
              && forall v :: v in vs && Flagged(v) ==> Normalize(v) in r
  {
    if reply.success && reply.data.Some? then
      EmergencyEntries(reply.data.value.visits);
      NormalizeAll(Filter(reply.data.value.visits, Flagged))
    else
      []
  }

  /** The flagged visits, normalised, are emergencies, one per flagged visit, each flagged visit among them. */
  lemma EmergencyEntries(vs: seq<RawVisit>)
    ensures var r := NormalizeAll(Filter(vs, Flagged));
            && |r| == Count(vs, Flagged)
            && (forall i :: 0 <= i < |r| ==> r[i].emergencyFlag)
            && Subsequence(r, NormalizeAll(vs))
            && forall v :: v in vs && Flagged(v) ==> Normalize(v) in r
  {
    var flagged := Filter(vs, Flagged);
    var r := NormalizeAll(flagged);
    NormalizeKeepsSubsequence(vs, Flagged);
    FilterMembershipAll(vs, Flagged);
    forall i | 0 <= i < |r| ensures r[i].emergencyFlag {
      assert r[i] == Normalize(flagged[i]) && Flagged(flagged[i]);
    }
    forall v | v in vs && Flagged(v) ensures Normalize(v) in r {
      assert v in flagged;
      var i :| 0 <= i < |flagged| && flagged[i] == v;
      assert r[i] == Normalize(v);
    }
  }

  // ---------------------------------------------------------------------
  // Query arguments
  // ---------------------------------------------------------------------

  /** `getQueue`'s arguments; each may be left out. */
  datatype QueueArgs = QueueArgs(status: Option<string>, page: Option<int>, limit: Option<int>)

  /** The arguments sent: status "all", page 1 and limit 50 unless given. */
  function Resolve(args: QueueArgs): (r: (string, int, int))
    ensures args.status.None? ==> r.0 == "all"
    ensures args.page.None? ==> r.1 == 1
    ensures args.limit.None? ==> r.2 == 50
    ensures args.status.Some? ==> r.0 == args.status.value
    ensures args.page.Some? ==> r.1 == args.page.value
    ensures args.limit.Some? ==> r.2 == args.limit.value
  {
    (args.status.GetOr("all"), args.page.GetOr(1), args.limit.GetOr(50))
  }

  /** The client's default page and limit are the route's own: sending them lists what omitting them would. */
  lemma DefaultsAgreeWithRoute(visits: seq<Records.Visit>, role: Option<string>, todayStart: int,
                               geq: (string, string) -> bool)
    ensures var (status, page, limit) := Resolve(QueueArgs(None, None, None));
            QueueRoute.List(visits, role, Some(status), Some(limit), Some(page), todayStart, geq)
            == QueueRoute.List(visits, role, Some(status), None, None, todayStart, geq)
  {
  }

  // ---------------------------------------------------------------------
  // From the route's listing to queue entries
  // ---------------------------------------------------------------------

  /** The JSON of one listed visit, with the document id written in decimal. */
  function Serialize(lv: QueueRoute.ListedVisit): RawVisit {
    var v := lv.visit;
    RawVisit(NatToString(v.id), v.name, v.studentId, Some(v.symptoms), Some(v.emergencyFlag), Some(v.priority),
             Some(lv.queuePosition), v.estimatedWaitTime, Some(v.queueStatus.Name()))
  }

  /** One listed visit through `Serialize` and `Normalize`: the visit's own fields come back. */
  lemma NormalizeSerialized(lv: QueueRoute.ListedVisit)
    ensures var item := Normalize(Serialize(lv));
            && item.id == NatToString(lv.visit.id)
            && (lv.queuePosition != 0 ==> item.position == lv.queuePosition)
            && item.status == lv.visit.queueStatus.Name()
            && item.emergencyFlag == lv.visit.emergencyFlag
            && item.symptoms == lv.visit.symptoms
            && item.priority == (if lv.visit.priority == "" then "medium" else lv.visit.priority)
  {
    assert lv.visit.queueStatus.Name() != "";
  }

  /**
   * A page of the route's listing, normalised: each entry keeps the
   * position the route gave it, the visit's status, flag and symptoms, and
   * its priority unless that is empty.
   */
  lemma ListedPageNormalized(visits: seq<Records.Visit>, role: Option<string>, status: Option<string>,
                             limit: Option<int>, page: Option<int>, todayStart: int, geq: (string, string) -> bool)
    ensures var r := QueueRoute.List(visits, role, status, limit, page, todayStart, geq);
            r.Listed? ==>
              forall i :: 0 <= i < |r.visits| ==>
                var item := Normalize(Serialize(r.visits[i]));
                var v := r.visits[i].visit;
                && item.position == r.visits[i].queuePosition
                && item.status == v.queueStatus.Name()
                && item.emergencyFlag == v.emergencyFlag
                && item.symptoms == v.symptoms
                && item.priority == (if v.priority == "" then "medium" else v.priority)
  {
    var r := QueueRoute.List(visits, role, status, limit, page, todayStart, geq);
    if r.Listed? {
      forall i | 0 <= i < |r.visits|
        ensures var item := Normalize(Serialize(r.visits[i]));
                var v := r.visits[i].visit;
                && item.position == r.visits[i].queuePosition
                && item.status == v.queueStatus.Name()
                && item.emergencyFlag == v.emergencyFlag
                && item.symptoms == v.symptoms
                && item.priority == (if v.priority == "" then "medium" else v.priority)
      {
        NormalizeSerialized(r.visits[i]);
      }
    }
  }
}

=== FILE: queue_list.dfy ===
/**
 * The nurse's queue board (components/nurse/QueueList.tsx).
 *
 * The board keeps a list of visits, fetched per tab (today's visits, all
 * visits, the visits assigned to this nurse), and shows it through
 * `sortVisits`, the three columns of the today tab and the filters of the
 * other two tabs. A status change is applied to the list optimistically
 * once the server accepts it, and a poll every ten seconds replaces the
 * list only when it sees a change. `Board` holds the list and performs
 * those two updates; everything it shows is computed by the functions
 * here.
 */
module NurseQueue {
  import opened Common
  import opened Sequences
  import opened ClientVisits
  import GuestLogin
  import Records
  import QueueRoute

  // ---------------------------------------------------------------------
  // The nurse id the board is given
  // ---------------------------------------------------------------------

  datatype NurseIdCheck = MissingNurseId | InvalidNurseId | NurseIdAccepted

  /** `[0-9a-fA-F]`. */
  predicate IsHexDigit(c: char) {
    '0' <= c <= '9' || 'a' <= c <= 'f' || 'A' <= c <= 'F'
  }

  /** The board's guard: an empty id, then anything but 24 hexadecimal digits, is refused. */
  function CheckNurseId(nurseId: string): (r: NurseIdCheck)
    ensures r == MissingNurseId <==> nurseId == ""
    ensures r == NurseIdAccepted <==> |nurseId| == 24 && forall i :: 0 <= i < |nurseId| ==> IsHexDigit(nurseId[i])
  {
    if nurseId == "" then MissingNurseId
    else if |nurseId| == 24 && forall i :: 0 <= i < |nurseId| ==> IsHexDigit(nurseId[i]) then NurseIdAccepted
    else InvalidNurseId
  }

  /** A document id, twelve bytes written in lower-case hexadecimal, passes the guard. */
  lemma ObjectIdAccepted(bytes: seq<GuestLogin.Byte>)
    requires |bytes| == 12
    ensures CheckNurseId(GuestLogin.HexEncode(bytes)) == NurseIdAccepted
  {
    var id := GuestLogin.HexEncode(bytes);
    forall i | 0 <= i < |id| ensures IsHexDigit(id[i]) {
      assert GuestLogin.IsHexChar(id[i]);
    }
  }

  /** An accepted id is none of the nurse filter's special values. */
  lemma AcceptedIdIsNotSpecial(nurseId: string)
    requires CheckNurseId(nurseId) == NurseIdAccepted
    ensures nurseId != "all" && nurseId != "unassigned"
  {
  }

  // ---------------------------------------------------------------------
  // sortVisits
  // ---------------------------------------------------------------------

  /** `{emergency: 4, high: 3, medium: 2, low: 1}[p] || 0`. */
  function PriorityRank(priority: string): (r: int)
    ensures 0 <= r <= 4
    ensures r == 0 <==> priority !in {"emergency", "high", "medium", "low"}
  {
    match priority
    case "emergency" => 4
    case "high" => 3
    case "medium" => 2
    case "low" => 1
    case _ => 0
  }

  /** `{waiting: 1, 'in-progress': 2, completed: 3}[s] || 0`. */
  function StatusRank(status: string): (r: int)
    ensures 0 <= r <= 3
    ensures r == 0 <==> status !in {"waiting", "in-progress", "completed"}
  {
    match status
    case "waiting" => 1
    case "in-progress" => 2
    case "completed" => 3
    case _ => 0
  }

  /** The tiers of the priority key, highest first: emergency, high, medium, low, then anything else. */
  lemma PriorityTiers(other: string)
    requires other !in {"emergency", "high", "medium", "low"}
    ensures PriorityRank("emergency") > PriorityRank("high") > PriorityRank("medium")
            > PriorityRank("low") > PriorityRank(other)
  {
  }

  /** `symptoms.join(', ')`. */
  function JoinSymptoms(symptoms: seq<string>): string {
    if symptoms == [] then ""
    else if |symptoms| == 1 then symptoms[0]
    else symptoms[0] + ", " + JoinSymptoms(symptoms[1..])
  }

  /**
   * The sort controls. `localeCompare` stands for `String.prototype.localeCompare`,
   * which depends on the browser's locale.
   */
  datatype SortSpec = SortSpec(sortBy: string, sortOrder: string, localeCompare: (string, string) -> int)

  /** The keys compared as numbers. */
  predicate IsNumericKey(sortBy: string) {
    sortBy in {"priority", "createdAt", "updatedAt", "status", "emergency"}
  }

  /** The number a numeric key compares. */
  function Key(v: CaseVisit, sortBy: string): int {
    match sortBy
    case "priority" => PriorityRank(v.priority)
    case "createdAt" => v.createdAt
    case "updatedAt" => v.updatedAt
    case "status" => StatusRank(v.queueStatus)
    case "emergency" => if v.emergencyFlag then 1 else 0
    case _ => 0
  }

  /** `comparison` for the ascending order. */
  function Ascending(a: CaseVisit, b: CaseVisit, spec: SortSpec): int {
    match spec.sortBy
    case "symptom" => spec.localeCompare(Lower(JoinSymptoms(a.symptoms)), Lower(JoinSymptoms(b.symptoms)))
    case "name" => spec.localeCompare(a.name, b.name)
    case "studentId" => spec.localeCompare(a.studentId, b.studentId)
    case _ => Key(a, spec.sortBy) - Key(b, spec.sortBy)
  }

  /** The comparator: anything but "asc" sorts in descending order. */
  function Compare(a: CaseVisit, b: CaseVisit, spec: SortSpec): int {
    if spec.sortOrder == "asc" then Ascending(a, b, spec) else -Ascending(a, b, spec)
  }

  /** For every key the descending comparator is the negated ascending one. */
  lemma DescendingIsNegatedAscending(a: CaseVisit, b: CaseVisit, spec: SortSpec)
    ensures Compare(a, b, spec.(sortOrder := "desc")) == -Compare(a, b, spec.(sortOrder := "asc"))
  {
  }

  /** A numeric key compares the key's difference, so swapping the visits negates the comparison. */
  lemma NumericComparison(a: CaseVisit, b: CaseVisit, spec: SortSpec)
    requires IsNumericKey(spec.sortBy)
    ensures spec.sortOrder == "asc" ==> Compare(a, b, spec) == Key(a, spec.sortBy) - Key(b, spec.sortBy)
    ensures spec.sortOrder != "asc" ==> Compare(a, b, spec) == Key(b, spec.sortBy) - Key(a, spec.sortBy)
    ensures Compare(a, b, spec) == -Compare(b, a, spec)
  {
  }

  /** A stable sort keeps `a` ahead of a later `b` when the comparator is not positive. */
  function Order(spec: SortSpec): (CaseVisit, CaseVisit) -> bool {
    (a, b) => Compare(a, b, spec) <= 0
  }

  /** `sortVisits`: a sorted copy, the same visits; the input list is left as it was. */
  function SortVisits(visits: seq<CaseVisit>, spec: SortSpec): (r: seq<CaseVisit>)
    ensures |r| == |visits| && multiset(r) == multiset(visits)
  {
    Sort(visits, Order(spec))
  }

  /** Under a numeric key the result runs through the key upwards for "asc" and downwards otherwise. */
  lemma SortVisitsOrdered(visits: seq<CaseVisit>, spec: SortSpec)
    requires IsNumericKey(spec.sortBy)
    ensures var r := SortVisits(visits, spec);
            forall i, j :: 0 <= i < j < |r| ==>
              if spec.sortOrder == "asc" then Key(r[i], spec.sortBy) <= Key(r[j], spec.sortBy)
              else Key(r[i], spec.sortBy) >= Key(r[j], spec.sortBy)
  {
    forall a, b ensures Order(spec)(a, b) <==>
                          if spec.sortOrder == "asc" then Key(a, spec.sortBy) <= Key(b, spec.sortBy)
                          else Key(a, spec.sortBy) >= Key(b, spec.sortBy) {
      NumericComparison(a, b, spec);
    }
    assert TotalPreorder(Order(spec));
    SortSorted(visits, Order(spec));
  }

  /** The default view, priority descending, lists emergencies, then high, medium, low and the rest. */
  lemma DefaultSortByTier(visits: seq<CaseVisit>, localeCompare: (string, string) -> int)
    ensures var r := SortVisits(visits, SortSpec("priority", "desc", localeCompare));
            forall i, j :: 0 <= i < j < |r| ==> PriorityRank(r[i].priority) >= PriorityRank(r[j].priority)
  {
    SortVisitsOrdered(visits, SortSpec("priority", "desc", localeCompare));
  }

  // ---------------------------------------------------------------------
  // What each tab fetches
  // ---------------------------------------------------------------------

  datatype Tab = Today | All | History

  /** Today's window, `[todayStart, todayStart + 24 h)`, with local midnight given as `todayStart`. */
  predicate InToday(v: CaseVisit, todayStart: int) {
    todayStart <= v.createdAt < todayStart + DayMs
  }

  /** `visit.assignedNurse === nurseId`. */
  predicate AssignedTo(v: CaseVisit, nurseId: string) {
    v.assignedNurse == Some(nurseId)
  }

  function FetchFilter(tab: Tab, todayStart: int, nurseId: string): CaseVisit -> bool {
    match tab
    case Today => v => InToday(v, todayStart)
    case All => v => true
    case History => v => AssignedTo(v, nurseId)
  }

  /** The list a successful fetch stores: the reply's visits of the tab, in the reply's order. */
  function Fetched(tab: Tab, visitsData: seq<CaseVisit>, todayStart: int, nurseId: string): (r: seq<CaseVisit>)
    ensures Subsequence(r, visitsData)
    ensures tab == All ==> r == visitsData
    ensures forall v :: v in r <==> v in visitsData && (tab == Today ==> InToday(v, todayStart))
                                                     && (tab == History ==> AssignedTo(v, nurseId))
  {
    var keep := FetchFilter(tab, todayStart, nurseId);
    FilterIsSubsequence(visitsData, keep);
    FilterMembershipAll(visitsData, keep);
    if tab == All then
      FilterAll(visitsData, keep);
      Filter(visitsData, keep)
    else
      Filter(visitsData, keep)
  }

  // ---------------------------------------------------------------------
  // The today tab's columns
  // ---------------------------------------------------------------------

  datatype Column = Pending | Processing | Done

  /** Pending: waiting and assigned to nobody; the other two: this nurse's visits in that status. */
  predicate InColumn(v: CaseVisit, column: Column, nurseId: string) {
    match column
    case Pending => v.queueStatus == "waiting" && !Truthy(v.assignedNurse)
    case Processing => v.queueStatus == "in-progress" && AssignedTo(v, nurseId)
    case Done => v.queueStatus == "completed" && AssignedTo(v, nurseId)
  }

  function ColumnFilter(column: Column, nurseId: string): CaseVisit -> bool {
    v => InColumn(v, column, nurseId)
  }

  /** A column: its visits, sorted by the sort controls. */
  function ColumnVisits(visits: seq<CaseVisit>, column: Column, nurseId: string, spec: SortSpec): (r: seq<CaseVisit>)
    ensures forall v :: v in r <==> v in visits && InColumn(v, column, nurseId)
    ensures |r| == Count(visits, ColumnFilter(column, nurseId))
  {
    var shown := Filter(visits, ColumnFilter(column, nurseId));
    FilterMembershipAll(visits, ColumnFilter(column, nurseId));
    var r := SortVisits(shown, spec);
    forall v ensures v in r <==> v in shown {
      assert v in r <==> v in multiset(r);
      assert v in shown <==> v in multiset(shown);
    }
    r
  }

  /** No visit appears in two columns. */
  lemma ColumnsDisjoint(v: CaseVisit, c: Column, d: Column, nurseId: string)
    requires InColumn(v, c, nurseId) && InColumn(v, d, nurseId)
    ensures c == d
  {
  }

  // ---------------------------------------------------------------------
  // The filters of the all-cases and history tabs
  // ---------------------------------------------------------------------

  /**
   * The filter controls. `emergencyFilter` is `None` for "any"; `start` and
   * `end` are the date range's bounds in milliseconds, `end` being the end
   * date at 23:59:59.
   */
  datatype CaseFilters = CaseFilters(
    statusFilter: string,
    priorityFilter: string,
    emergencyFilter: Option<bool>,
    searchTerm: string,
    symptomFilter: string,
    assignedNurseFilter: string,
    start: int,
    end: int)

  /** The checks the filters make, each of which can turn a visit away. */
  datatype Criterion = Mine | Status | Priority | Emergency | Search | Symptom | Nurse | Dates

  /** Whether a visit passes one check. */
  predicate Holds(c: Criterion, v: CaseVisit, f: CaseFilters, nurseId: string) {
    match c
    case Mine => AssignedTo(v, nurseId)
    case Status => f.statusFilter == "all" || v.queueStatus == f.statusFilter
    case Priority => f.priorityFilter == "all" || v.priority == f.priorityFilter
    case Emergency => f.emergencyFilter.None? || v.emergencyFlag == f.emergencyFilter.value
    case Search => f.searchTerm == "" || ContainsIgnoringCase(v.name, f.searchTerm) || ContainsIgnoringCase(v.studentId, f.searchTerm)
    case Symptom => f.symptomFilter == "all" || exists k :: 0 <= k < |v.symptoms| && ContainsIgnoringCase(v.symptoms[k], f.symptomFilter)
    case Nurse =>
      || f.assignedNurseFilter == "all"
      || (f.assignedNurseFilter == "unassigned" && !Truthy(v.assignedNurse))
      || (f.assignedNurseFilter != "unassigned" && AssignedTo(v, f.assignedNurseFilter))
    case Dates => f.start <= v.createdAt <= f.end
  }

  /** The all-cases tab's checks, in the order the filter makes them. */
  const AllCasesChecks: seq<Criterion> := [Status, Priority, Emergency, Search, Symptom, Nurse, Dates]

  /** The history tab's checks: this nurse's visits first, then the same checks without the nurse filter. */
  const HistoryChecks: seq<Criterion> := [Mine, Status, Priority, Emergency, Search, Symptom, Dates]

  /** The filter's early `return false`s: the first check the visit fails, if any. */
  function FirstFailed(checks: seq<Criterion>, v: CaseVisit, f: CaseFilters, nurseId: string): Option<Criterion> {
    if checks == [] then None
    else if !Holds(checks[0], v, f, nurseId) then Some(checks[0])
    else FirstFailed(checks[1..], v, f, nurseId)
  }

  /** A visit passes exactly when it fails none of the checks; otherwise the one reported is the first it fails. */
  lemma {:induction false} FirstFailedIsFirst(checks: seq<Criterion>, v: CaseVisit, f: CaseFilters, nurseId: string)
    ensures var r := FirstFailed(checks, v, f, nurseId);
            && (r.None? <==> forall k :: 0 <= k < |checks| ==> Holds(checks[k], v, f, nurseId))
            && (r.Some? ==> exists k :: && 0 <= k < |checks| && checks[k] == r.value && !Holds(r.value, v, f, nurseId)
                                        && forall j :: 0 <= j < k ==> Holds(checks[j], v, f, nurseId))
    decreases |checks|
  {
    if checks != [] && Holds(checks[0], v, f, nurseId) {
      var tail := checks[1..];
      FirstFailedIsFirst(tail, v, f, nurseId);
      var rest := FirstFailed(tail, v, f, nurseId);
      assert forall k :: 1 <= k < |checks| ==> checks[k] == tail[k - 1];
      if rest.None? {
        assert forall k :: 0 <= k < |checks| ==> Holds(checks[k], v, f, nurseId);
      } else {
        var k :| && 0 <= k < |tail| && tail[k] == rest.value && !Holds(rest.value, v, f, nurseId)
                 && forall j :: 0 <= j < k ==> Holds(tail[j], v, f, nurseId);
        assert checks[k + 1] == rest.value;
        assert !Holds(checks[k + 1], v, f, nurseId);
      }
    }
  }

  /** The checks of a tab; the today tab shows its columns instead. */
  function ChecksOf(tab: Tab): seq<Criterion> {
    if tab == History then HistoryChecks else AllCasesChecks
  }

  predicate Passes(tab: Tab, v: CaseVisit, f: CaseFilters, nurseId: string) {
    FirstFailed(ChecksOf(tab), v, f, nurseId).None?
  }

  function PassFilter(tab: Tab, f: CaseFilters, nurseId: string): CaseVisit -> bool {
    v => Passes(tab, v, f, nurseId)
  }

  /** A visit passes the all-cases filter exactly when every active criterion holds. */
  lemma AllCasesFilterIsConjunction(v: CaseVisit, f: CaseFilters, nurseId: string)
    ensures Passes(All, v, f, nurseId) <==>
              && Holds(Status, v, f, nurseId) && Holds(Priority, v, f, nurseId) && Holds(Emergency, v, f, nurseId)
              && Holds(Search, v, f, nurseId) && Holds(Symptom, v, f, nurseId) && Holds(Nurse, v, f, nurseId)
              && Holds(Dates, v, f, nurseId)
  {
    var cs := AllCasesChecks;
    FirstFailedIsFirst(cs, v, f, nurseId);
    assert cs[0] == Status && cs[1] == Priority && cs[2] == Emergency && cs[3] == Search;
    assert cs[4] == Symptom && cs[5] == Nurse && cs[6] == Dates;
  }

  /** A visit passes the history filter exactly when it is this nurse's and every active criterion holds. */
  lemma HistoryFilterIsConjunction(v: CaseVisit, f: CaseFilters, nurseId: string)
    ensures Passes(History, v, f, nurseId) <==>
              && Holds(Mine, v, f, nurseId) && Holds(Status, v, f, nurseId) && Holds(Priority, v, f, nurseId)
              && Holds(Emergency, v, f, nurseId) && Holds(Search, v, f, nurseId) && Holds(Symptom, v, f, nurseId)
              && Holds(Dates, v, f, nurseId)
  {
    var hs := HistoryChecks;
    FirstFailedIsFirst(hs, v, f, nurseId);
    assert hs[0] == Mine && hs[1] == Status && hs[2] == Priority && hs[3] == Emergency;
    assert hs[4] == Search && hs[5] == Symptom && hs[6] == Dates;
  }

  /** The history filter is the all-cases filter with the nurse filter set to this nurse's id. */
  lemma HistoryIsMyAllCases(v: CaseVisit, f: CaseFilters, nurseId: string)
    requires nurseId != "unassigned" && nurseId != "all"
    ensures Passes(History, v, f, nurseId) <==> Passes(All, v, f.(assignedNurseFilter := nurseId), nurseId)
  {
    var g := f.(assignedNurseFilter := nurseId);
    AllCasesFilterIsConjunction(v, g, nurseId);
    HistoryFilterIsConjunction(v, f, nurseId);
    assert Holds(Nurse, v, g, nurseId) <==> Holds(Mine, v, f, nurseId);
    assert g.statusFilter == f.statusFilter && g.priorityFilter == f.priorityFilter;
    assert g.emergencyFilter == f.emergencyFilter && g.searchTerm == f.searchTerm;
    assert g.symptomFilter == f.symptomFilter && g.start == f.start && g.end == f.end;
  }

  /** `filteredAllCases` / `filteredMyHistory`: the passing visits, sorted. */
  function Filtered(tab: Tab, visits: seq<CaseVisit>, f: CaseFilters, nurseId: string, spec: SortSpec): (r: seq<CaseVisit>)
    ensures multiset(r) == multiset(Filter(visits, PassFilter(tab, f, nurseId)))
    ensures forall v :: v in r <==> v in visits && Passes(tab, v, f, nurseId)
  {
    var shown := Filter(visits, PassFilter(tab, f, nurseId));
    FilterMembershipAll(visits, PassFilter(tab, f, nurseId));
    var r := SortVisits(shown, spec);
    forall v ensures v in r <==> v in shown {
      assert v in r <==> v in multiset(r);
      assert v in shown <==> v in multiset(shown);
    }
    r
  }

  // ---------------------------------------------------------------------
  // getStats
  // ---------------------------------------------------------------------

  datatype Stats = Stats(total: nat, pending: nat, processing: nat, completed: nat, emergency: nat)

  predicate IsWaiting(v: CaseVisit) { v.queueStatus == "waiting" }
  predicate IsInProgress(v: CaseVisit) { v.queueStatus == "in-progress" }
  predicate IsCompleted(v: CaseVisit) { v.queueStatus == "completed" }
  predicate IsFlagged(v: CaseVisit) { v.emergencyFlag }

  /**
   * The five counters of a tab. On the today tab they count the list and
   * its columns; on the other two they count the filtered list by status,
   * and the sort does not change a count. Either way the three status
   * counters never add up to more than the total.
   */
  function GetStats(tab: Tab, visits: seq<CaseVisit>, f: CaseFilters, nurseId: string, spec: SortSpec): (r: Stats)
    ensures r.pending + r.processing + r.completed <= r.total
    ensures r.emergency <= r.total
    ensures tab == Today ==>
              && r.total == |visits|
              && r.pending == Count(visits, ColumnFilter(Pending, nurseId))
              && r.processing == Count(visits, ColumnFilter(Processing, nurseId))
              && r.completed == Count(visits, ColumnFilter(Done, nurseId))
              && r.emergency == Count(visits, IsFlagged)
    ensures tab != Today ==>
              var shown := Filter(visits, PassFilter(tab, f, nurseId));
              && r.total == |shown|
              && r.pending == Count(shown, IsWaiting)
              && r.processing == Count(shown, IsInProgress)
              && r.completed == Count(shown, IsCompleted)
              && r.emergency == Count(shown, IsFlagged)
  {
    if tab == Today then
      CountDisjoint(visits, ColumnFilter(Pending, nurseId), ColumnFilter(Processing, nurseId), ColumnFilter(Done, nurseId));
      Stats(|visits|,
            |ColumnVisits(visits, Pending, nurseId, spec)|,
            |ColumnVisits(visits, Processing, nurseId, spec)|,
            |ColumnVisits(visits, Done, nurseId, spec)|,
            Count(visits, IsFlagged))
    else
      var listed := Filtered(tab, visits, f, nurseId, spec);
      var shown := Filter(visits, PassFilter(tab, f, nurseId));
      CountPermutation(listed, shown, IsWaiting);
      CountPermutation(listed, shown, IsInProgress);
      CountPermutation(listed, shown, IsCompleted);
      CountPermutation(listed, shown, IsFlagged);
      CountDisjoint(shown, IsWaiting, IsInProgress, IsCompleted);
      assert |listed| == |multiset(listed)| == |multiset(shown)| == |shown|;
      Stats(|listed|, Count(listed, IsWaiting), Count(listed, IsInProgress), Count(listed, IsCompleted),
            Count(listed, IsFlagged))
  }

  // ---------------------------------------------------------------------
  // The optimistic status update
  // ---------------------------------------------------------------------

  /** `action` of the PATCH body the board sends for a new status. */
  function ActionFor(newStatus: string): (a: string)
    ensures QueueRoute.ParseAction(a).Some?
  {
    if newStatus == "in-progress" then "start"
    else if newStatus == "completed" then "complete"
    else "update_notes"
  }

  /** `visitNotes || notes`: the notes sent and written locally. */
  function NotesSent(visitNotes: Option<string>, notes: string): string {
    OrElse(visitNotes, notes)
  }

  /**
   * The local copy of the updated visit: the new status and notes, and the
   * nurse taken as assigned (shown as "You") only when the new status is
   * in-progress. Nothing else changes.
   */
  function UpdatedLocally(v: CaseVisit, newStatus: string, sentNotes: string, nurseId: string): (w: CaseVisit)
    ensures w.queueStatus == newStatus && w.notes == Some(sentNotes)
    ensures newStatus == "in-progress" ==> w.assignedNurse == Some(nurseId) && w.assignedNurseName == Some("You")
    ensures newStatus != "in-progress" ==> w.assignedNurse == v.assignedNurse && w.assignedNurseName == v.assignedNurseName
    ensures w.(queueStatus := v.queueStatus, notes := v.notes, assignedNurse := v.assignedNurse,
               assignedNurseName := v.assignedNurseName) == v
  {
    v.(queueStatus := newStatus,
       notes := Some(sentNotes),
       assignedNurse := if newStatus == "in-progress" then Some(nurseId) else v.assignedNurse,
       assignedNurseName := if newStatus == "in-progress" then Some("You") else v.assignedNurseName)
  }

  /** `prevVisits.map(...)` after the server accepted the update: only the visits with that id change. */
  function ApplyLocally(visits: seq<CaseVisit>, visitId: string, newStatus: string, sentNotes: string,
                        nurseId: string): (r: seq<CaseVisit>)
    ensures |r| == |visits|
    ensures forall i :: 0 <= i < |r| && visits[i].id != visitId ==> r[i] == visits[i]
    ensures forall i :: 0 <= i < |r| && visits[i].id == visitId ==>
              r[i] == UpdatedLocally(visits[i], newStatus, sentNotes, nurseId)
  {
    seq(|visits|, i requires 0 <= i < |visits| =>
      if visits[i].id == visitId then UpdatedLocally(visits[i], newStatus, sentNotes, nurseId) else visits[i])
  }

  /**
   * What the server stores for the same request. It agrees with the local
   * copy on the status for "in-progress" and "completed" and keeps the
   * status for any other value, writes the notes trimmed, and never records
   * the nurse, although the local copy shows the visit as assigned.
   */
  lemma ServerVersusLocal(sv: Records.Visit, v: CaseVisit, newStatus: string, sentNotes: string, nurseId: string, now: int)
    ensures var action := QueueRoute.ParseAction(ActionFor(newStatus)).value;
            var req := QueueRoute.PatchRequest(Some(sv.id), Some(ActionFor(newStatus)), Some(sentNotes), None);
            var w := QueueRoute.Apply(sv, QueueRoute.UpdateFor(action, req, now));
            && (newStatus in {"in-progress", "completed"} ==> w.queueStatus.Name() == newStatus)
            && (newStatus !in {"in-progress", "completed"} ==> w.queueStatus == sv.queueStatus)
            && w.notes == Some(Trim(sentNotes))
            && w.assignedNurse == sv.assignedNurse
            && (newStatus == "in-progress" ==> UpdatedLocally(v, newStatus, sentNotes, nurseId).assignedNurse == Some(nurseId))
  {
    var action := QueueRoute.ParseAction(ActionFor(newStatus)).value;
    var req := QueueRoute.PatchRequest(Some(sv.id), Some(ActionFor(newStatus)), Some(sentNotes), None);
    QueueRoute.ActionEffects(sv, action, req, now);
  }

  // ---------------------------------------------------------------------
  // The background poll
  // ---------------------------------------------------------------------

  /** `prevVisits.find(v => v._id === id)`. */
  function FindById(visits: seq<CaseVisit>, id: string): (r: Option<CaseVisit>)
    ensures r.Some? ==> r.value in visits && r.value.id == id
    ensures r.None? <==> forall k :: 0 <= k < |visits| ==> visits[k].id != id
  {
    if visits == [] then None
    else if visits[0].id == id then Some(visits[0])
    else FindById(visits[1..], id)
  }

  /** The fields the poll compares. */
  predicate SameWatched(e: CaseVisit, n: CaseVisit) {
    && e.queueStatus == n.queueStatus
    && e.assignedNurse == n.assignedNurse
    && e.assignedNurseName == n.assignedNurseName
    && e.notes == n.notes
    && e.updatedAt == n.updatedAt
  }

  /** The poll's three tests: a different count, an id not seen before, or a watched field changed. */
  predicate Changed(prev: seq<CaseVisit>, todays: seq<CaseVisit>) {
    || |prev| != |todays|
    || (exists k :: 0 <= k < |todays| && FindById(prev, todays[k].id).None?)
    || (exists k :: 0 <= k < |todays| && FindById(prev, todays[k].id).Some?
                    && !SameWatched(FindById(prev, todays[k].id).value, todays[k]))
  }

  /** The updater the poll hands to `setVisits`: the fresh list on a change, else the previous one. */
  function PollMerge(prev: seq<CaseVisit>, todays: seq<CaseVisit>): (r: seq<CaseVisit>)
    ensures Changed(prev, todays) ==> r == todays
    ensures !Changed(prev, todays) ==> r == prev
  {
    if Changed(prev, todays) then todays else prev
  }

  predicate DistinctIds(visits: seq<CaseVisit>) {
    forall i, j :: 0 <= i < j < |visits| ==> visits[i].id != visits[j].id
  }

  /** With distinct ids the lookup finds the one visit carrying the id. */
  lemma {:induction false} FindByIdUnique(visits: seq<CaseVisit>, k: nat)
    requires DistinctIds(visits) && k < |visits|
    ensures FindById(visits, visits[k].id) == Some(visits[k])
    decreases |visits|
  {
    if k > 0 {
      FindByIdUnique(visits[1..], k - 1);
    }
  }

  /**
   * The poll keeps the previous list exactly when it sees the same number of
   * visits, each of which matches a previous one with the same id in every
   * watched field. So a list fetched again without change does not replace
   * the board's list, while a change confined to other fields (the priority,
   * the flag) or to the order goes unseen.
   */
  lemma PollKeepsPrevious(prev: seq<CaseVisit>, todays: seq<CaseVisit>)
    requires DistinctIds(prev)
    ensures PollMerge(prev, todays) == prev || PollMerge(prev, todays) == todays
    ensures !Changed(prev, todays) <==>
              && |prev| == |todays|
              && forall k :: 0 <= k < |todays| ==>
                   exists e :: e in prev && e.id == todays[k].id && SameWatched(e, todays[k])
  {
    if |prev| == |todays| && forall k :: 0 <= k < |todays| ==>
                   exists e :: e in prev && e.id == todays[k].id && SameWatched(e, todays[k]) {
      forall k | 0 <= k < |todays|
        ensures FindById(prev, todays[k].id).Some? && SameWatched(FindById(prev, todays[k].id).value, todays[k])
      {
        var e :| e in prev && e.id == todays[k].id && SameWatched(e, todays[k]);
        var i :| 0 <= i < |prev| && prev[i] == e;
        FindByIdUnique(prev, i);
      }
    }
  }

  /** Polling the very list the board holds changes nothing. */
  lemma PollOfSameListKeeps(prev: seq<CaseVisit>)
    requires DistinctIds(prev)
    ensures PollMerge(prev, prev) == prev
  {
  }

  // ---------------------------------------------------------------------
  // The board's state
  // ---------------------------------------------------------------------

  /** The state the board updates in place: its list and the "new updates" indicator. */
  class Board {
    var visits: seq<CaseVisit>
    var hasNewUpdates: bool

    constructor ()
      ensures visits == [] && !hasNewUpdates
    {
      visits, hasNewUpdates := [], false;
    }

    /** A fetch of the tab that succeeded: the list is replaced by the tab's visits of the reply. */
    method Load(tab: Tab, visitsData: seq<CaseVisit>, todayStart: int, nurseId: string)
      modifies this
      ensures visits == Fetched(tab, visitsData, todayStart, nurseId)
      ensures hasNewUpdates == old(hasNewUpdates)
    {
      visits := Fetched(tab, visitsData, todayStart, nurseId);
    }

    /** `updateQueueStatus` once the server replied with success. */
    method ApplyStatusUpdate(visitId: string, newStatus: string, visitNotes: Option<string>, notes: string,
                             nurseId: string)
      modifies this
      ensures visits == ApplyLocally(old(visits), visitId, newStatus, NotesSent(visitNotes, notes), nurseId)
      ensures hasNewUpdates == old(hasNewUpdates)
    {
      visits := ApplyLocally(visits, visitId, newStatus, NotesSent(visitNotes, notes), nurseId);
    }

    /** One background poll of the today tab that succeeded; the indicator is raised on a change. */
    method Poll(visitsData: seq<CaseVisit>, todayStart: int, nurseId: string)
      modifies this
      ensures var todays := Fetched(Today, visitsData, todayStart, nurseId);
              && visits == PollMerge(old(visits), todays)
              && hasNewUpdates == (old(hasNewUpdates) || Changed(old(visits), todays))
    {
      var todays := Fetched(Today, visitsData, todayStart, nurseId);
      if Changed(visits, todays) {
        hasNewUpdates := true;
        visits := todays;
      }
    }
  }
}

=== FILE: queue_route.dfy ===
/**
 * The staff queue route (app/api/queue/route.ts).
 *
 * GET lists the visits, optionally of one status, ordered emergencies
 * first, then by the store's priority key descending, then oldest first;
 * it returns one page with consecutive queue positions and the queue's
 * counters. PATCH turns an action into a field update of one stored visit;
 * `ClinicStore.Store.UpdateVisit` applies it to the store.
 *
 * Only nurses and admins may use either handler.
 */
module QueueRoute {
  import opened Common
  import opened Records
  import opened Sequences

  /** `['nurse', 'admin'].includes(session.user.role)`; `None` is a request without a signed-in user. */
  predicate IsStaff(role: Option<string>) {
    role == Some("nurse") || role == Some("admin")
  }

  // ---------------------------------------------------------------------
  // Ordering
  // ---------------------------------------------------------------------

  /** `x` ranks strictly above `y` under the store's comparison of priority strings. */
  predicate Above(x: string, y: string, geq: (string, string) -> bool) {
    geq(x, y) && !geq(y, x)
  }

  /**
   * `sort({emergencyFlag: -1, priority: -1, createdAt: 1})`: `a` may be
   * listed before `b`. The store's comparison of the priority strings is
   * `geq`; equal-ranking priorities fall through to the check-in time.
   */
  predicate RanksNoLater(a: Visit, b: Visit, geq: (string, string) -> bool) {
    if a.emergencyFlag != b.emergencyFlag then a.emergencyFlag
    else if Above(a.priority, b.priority, geq) then true
    else if Above(b.priority, a.priority, geq) then false
    else a.createdAt <= b.createdAt
  }

  /** The three-key order is a total preorder whenever the store's priority comparison is. */
  lemma RankingIsTotalPreorder(geq: (string, string) -> bool)
    requires TotalPreorder(geq)
    ensures TotalPreorder((a: Visit, b: Visit) => RanksNoLater(a, b, geq))
  {
    var le := (a: Visit, b: Visit) => RanksNoLater(a, b, geq);
    forall a: Visit, b: Visit, c: Visit | le(a, b) && le(b, c) ensures le(a, c) {
      RanksNoLaterTransitive(a, b, c, geq);
    }
  }

  lemma RanksNoLaterTransitive(a: Visit, b: Visit, c: Visit, geq: (string, string) -> bool)
    requires TotalPreorder(geq)
    requires RanksNoLater(a, b, geq) && RanksNoLater(b, c, geq)
    ensures RanksNoLater(a, c, geq)
  {
    if a.emergencyFlag == b.emergencyFlag == c.emergencyFlag {
      var x, y, z := a.priority, b.priority, c.priority;
      assert geq(x, y) && geq(y, z) ==> geq(x, z);
      assert geq(z, y) && geq(y, x) ==> geq(z, x);
      assert geq(x, z) || geq(z, x);
      assert geq(x, y) || geq(y, x);
      assert geq(y, z) || geq(z, y);
      assert geq(y, x) && geq(x, z) ==> geq(y, z);
      assert geq(z, x) && geq(x, y) ==> geq(z, y);
    }
  }

  /** Emergencies always come first: every flagged visit may precede every unflagged one and not conversely. */
  lemma EmergenciesFirst(a: Visit, b: Visit, geq: (string, string) -> bool)
    requires a.emergencyFlag && !b.emergencyFlag
    ensures RanksNoLater(a, b, geq) && !RanksNoLater(b, a, geq)
  {
  }

  // ---------------------------------------------------------------------
  // GET: filter, page, positions
  // ---------------------------------------------------------------------

  /** The optional `status` parameter: absent, empty or "all" keeps every visit. */
  predicate MatchesStatus(status: Option<string>, v: Visit) {
    !Truthy(status) || status.value == "all" || v.queueStatus.Name() == status.value
  }

  /** The visits the query selects, in the listing order. */
  function Listing(visits: seq<Visit>, status: Option<string>, geq: (string, string) -> bool): (r: seq<Visit>)
    ensures |r| == Count(visits, v => MatchesStatus(status, v))
    ensures multiset(r) == multiset(Filter(visits, v => MatchesStatus(status, v)))
  {
    Sort(Filter(visits, v => MatchesStatus(status, v)), (a: Visit, b: Visit) => RanksNoLater(a, b, geq))
  }

  /** With a total-preorder priority comparison, the listing is in the three-key order. */
  lemma ListingSorted(visits: seq<Visit>, status: Option<string>, geq: (string, string) -> bool)
    requires TotalPreorder(geq)
    ensures SortedBy(Listing(visits, status, geq), (a: Visit, b: Visit) => RanksNoLater(a, b, geq))
  {
    RankingIsTotalPreorder(geq);
    SortSorted(Filter(visits, v => MatchesStatus(status, v)), (a: Visit, b: Visit) => RanksNoLater(a, b, geq));
  }

  /** A listed visit with its position in the whole listing. */
  datatype ListedVisit = ListedVisit(visit: Visit, queuePosition: nat)

  /**
   * `.skip(skip).limit(limit)` followed by the position numbering: each
   * visit's position is its 1-based place in the whole listing.
   */
  function PageOf(sorted: seq<Visit>, skip: nat, limit: nat): (r: seq<ListedVisit>)
    ensures |r| <= limit
    ensures |r| == if skip >= |sorted| then 0 else if skip + limit <= |sorted| then limit else |sorted| - skip
    ensures forall i :: 0 <= i < |r| ==> r[i].queuePosition == skip + i + 1
    ensures forall i :: 0 <= i < |r| ==> r[i].queuePosition <= |sorted| && sorted[r[i].queuePosition - 1] == r[i].visit
  {
    if skip >= |sorted| then []
    else
      var n := if skip + limit <= |sorted| then limit else |sorted| - skip;
      seq(n, i requires 0 <= i < n => ListedVisit(sorted[skip + i], skip + i + 1))
  }

  /** Consecutive pages continue one another: when the next page is not empty, this one is full and the next starts one position after it. */
  lemma PagesAreContiguous(sorted: seq<Visit>, skip: nat, limit: nat)
    requires limit >= 1 && |PageOf(sorted, skip + limit, limit)| > 0
    ensures |PageOf(sorted, skip, limit)| == limit
    ensures PageOf(sorted, skip + limit, limit)[0].queuePosition
            == PageOf(sorted, skip, limit)[limit - 1].queuePosition + 1
  {
  }

  // ---------------------------------------------------------------------
  // GET: counters
  // ---------------------------------------------------------------------

  predicate HasStatus(st: Status, v: Visit) {
    v.queueStatus == st
  }

  /** The `$group` by status: the number of visits in `st`, 0 when there are none. */
  function StatusCount(visits: seq<Visit>, st: Status): nat {
    Count(visits, v => HasStatus(st, v))
  }

  /** A flagged visit that is still waiting or being seen. */
  predicate IsOpenEmergency(v: Visit) {
    v.emergencyFlag && (v.queueStatus == Waiting || v.queueStatus == InProgress)
  }

  /** `Math.ceil(n / d)` for a non-negative count and a positive page size. */
  function CeilDiv(n: nat, d: nat): (r: nat)
    requires d >= 1
    ensures r * d >= n
    ensures n > 0 ==> (r - 1) * d < n
    ensures n == 0 ==> r == 0
  {
    var q := n / d;
    assert n == q * d + n % d;
    if n % d == 0 then q else q + 1
  }

  datatype QueueStats = QueueStats(
    totalWaiting: nat,
    totalInProgress: nat,
    totalCompleted: nat,
    emergencyCases: nat,
    totalToday: nat,
    averageWaitTime: nat,
    totalPages: nat,
    currentPage: nat,
    totalCount: nat)

  /** The fixed average wait the route reports. */
  const AverageWaitMinutes: nat := 15

  /** The counters; `todayStart` is local midnight, `totalCount` the number of visits the status filter selects. */
  function Stats(visits: seq<Visit>, totalCount: nat, page: nat, limit: nat, todayStart: int): (s: QueueStats)
    requires limit >= 1
    ensures s.totalWaiting == StatusCount(visits, Waiting)
    ensures s.totalInProgress == StatusCount(visits, InProgress)
    ensures s.totalCompleted == StatusCount(visits, Completed)
    ensures s.emergencyCases == Count(visits, IsOpenEmergency)
    ensures s.totalPages == CeilDiv(totalCount, limit)
    ensures s.currentPage == page && s.totalCount == totalCount
    ensures s.averageWaitTime == 15
    ensures s.totalPages * limit >= totalCount
    ensures totalCount > 0 ==> (s.totalPages - 1) * limit < totalCount
    ensures s.totalWaiting + s.totalInProgress + s.totalCompleted == |visits|
    ensures s.emergencyCases <= s.totalWaiting + s.totalInProgress
    ensures s.totalToday == Count(visits, (v: Visit) => v.createdAt >= todayStart)
  {
    StatusCountsPartition(visits);
    OpenEmergenciesBound(visits);
    QueueStats(StatusCount(visits, Waiting), StatusCount(visits, InProgress), StatusCount(visits, Completed),
               Count(visits, IsOpenEmergency), Count(visits, (v: Visit) => v.createdAt >= todayStart),
               AverageWaitMinutes, CeilDiv(totalCount, limit), page, totalCount)
  }

  /** Every visit has exactly one status, so the three per-status counts add up to the number of visits. */
  lemma {:induction false} StatusCountsPartition(visits: seq<Visit>)
    ensures StatusCount(visits, Waiting) + StatusCount(visits, InProgress) + StatusCount(visits, Completed) == |visits|
    decreases |visits|
  {
    if visits != [] {
      StatusCountsPartition(visits[1..]);
    }
  }

  /** Open emergencies are among the waiting and in-progress visits. */
  lemma {:induction false} OpenEmergenciesBound(visits: seq<Visit>)
    ensures Count(visits, IsOpenEmergency) <= StatusCount(visits, Waiting) + StatusCount(visits, InProgress)
    decreases |visits|
  {
    if visits != [] {
      OpenEmergenciesBound(visits[1..]);
    }
  }

  datatype ListOutcome =
    | Unauthorized
    /** A page or page size below 1 (the store's own handling of those is not modelled). */
    | UnsupportedPaging
    | Listed(visits: seq<ListedVisit>, stats: QueueStats)

  /**
   * The GET on a snapshot of the store. Absent `limit` and `page`
   * parameters default to 50 and 1.
   */
  function List(visits: seq<Visit>, role: Option<string>, status: Option<string>, limit: Option<int>,
                page: Option<int>, todayStart: int, geq: (string, string) -> bool): (r: ListOutcome)
    ensures !IsStaff(role) <==> r.Unauthorized?
    ensures r.Listed? ==>
              var l := limit.GetOr(50);
              var p := page.GetOr(1);
              && l >= 1 && p >= 1
              && |r.visits| <= l
              && (forall i :: 0 <= i < |r.visits| ==>
                    && r.visits[i].queuePosition == (p - 1) * l + i + 1 >= 1
                    && MatchesStatus(status, r.visits[i].visit)
                    && r.visits[i].visit in visits)
              && r.stats.totalCount == Count(visits, v => MatchesStatus(status, v))
              && r.stats.currentPage == p
    ensures r.UnsupportedPaging? <==> IsStaff(role) && (limit.GetOr(50) < 1 || page.GetOr(1) < 1)
    ensures r.Listed? ==>
              var l := limit.GetOr(50);
              var p := page.GetOr(1);
              && l >= 1 && p >= 1
              && r.visits == PageOf(Listing(visits, status, geq), Offset(p, l), l)
              && r.stats == Stats(visits, |Listing(visits, status, geq)|, p, l, todayStart)
  {
    if !IsStaff(role) then Unauthorized
    else
      var l := limit.GetOr(50);
      var p := page.GetOr(1);
      if l < 1 || p < 1 then UnsupportedPaging
      else ListPage(visits, status, l, p, todayStart, geq)
  }

  /** Page `p` of `l` visits of the listing, with the counters. */
  function ListPage(visits: seq<Visit>, status: Option<string>, l: nat, p: nat, todayStart: int,
                    geq: (string, string) -> bool): (r: ListOutcome)
    requires l >= 1 && p >= 1
    ensures r.Listed?
    ensures |r.visits| <= l
    ensures forall i :: 0 <= i < |r.visits| ==>
              && r.visits[i].queuePosition == (p - 1) * l + i + 1 >= 1
              && MatchesStatus(status, r.visits[i].visit)
              && r.visits[i].visit in visits
    ensures r.stats.totalCount == Count(visits, v => MatchesStatus(status, v))
    ensures r.stats.currentPage == p
    ensures r.visits == PageOf(Listing(visits, status, geq), Offset(p, l), l)
    ensures r.stats == Stats(visits, |Listing(visits, status, geq)|, p, l, todayStart)
  {
    var sorted := Listing(visits, status, geq);
    var skip := Offset(p, l);
    var listed := PageOf(sorted, skip, l);
    ListedAreSelected(visits, status, geq, listed, sorted, skip, l);
    Listed(listed, Stats(visits, |sorted|, p, l, todayStart))
  }

  /** `(page - 1) * limit`, the number of visits before page `page`. */
  function Offset(page: nat, limit: nat): (skip: nat)
    requires page >= 1
  {
    (page - 1) * limit
  }

  lemma ListedAreSelected(visits: seq<Visit>, status: Option<string>, geq: (string, string) -> bool,
                          listed: seq<ListedVisit>, sorted: seq<Visit>, skip: nat, l: nat)
    requires sorted == Listing(visits, status, geq) && listed == PageOf(sorted, skip, l)
    ensures forall i :: 0 <= i < |listed| ==> MatchesStatus(status, listed[i].visit) && listed[i].visit in visits
  {
    ListingMembers(visits, status, geq);
    forall i | 0 <= i < |listed| ensures listed[i].visit in sorted {
      assert listed[i].visit == sorted[listed[i].queuePosition - 1];
    }
  }

  /** The listing holds exactly the stored visits that match the status filter. */
  lemma ListingMembers(visits: seq<Visit>, status: Option<string>, geq: (string, string) -> bool)
    ensures forall v :: v in Listing(visits, status, geq) <==> v in visits && MatchesStatus(status, v)
  {
    var sorted := Listing(visits, status, geq);
    var selected := Filter(visits, v => MatchesStatus(status, v));
    FilterMembershipAll(visits, v => MatchesStatus(status, v));
    forall v ensures v in sorted <==> v in selected {
      assert v in sorted <==> v in multiset(sorted);
      assert v in selected <==> v in multiset(selected);
    }
  }

  /**
   * A sorted page: with a total-preorder priority comparison, each page is in
   * listing order and everything on an earlier page may precede it.
   */
  lemma PageIsOrdered(visits: seq<Visit>, status: Option<string>, geq: (string, string) -> bool, skip: nat, limit: nat)
    requires TotalPreorder(geq)
    ensures var listed := PageOf(Listing(visits, status, geq), skip, limit);
            forall i, j :: 0 <= i < j < |listed| ==> RanksNoLater(listed[i].visit, listed[j].visit, geq)
  {
    var sorted := Listing(visits, status, geq);
    var listed := PageOf(sorted, skip, limit);
    ListingSorted(visits, status, geq);
    forall i, j | 0 <= i < j < |listed| ensures RanksNoLater(listed[i].visit, listed[j].visit, geq) {
      assert listed[i].visit == sorted[listed[i].queuePosition - 1];
      assert listed[j].visit == sorted[listed[j].queuePosition - 1];
    }
  }

  // ---------------------------------------------------------------------
  // PATCH
  // ---------------------------------------------------------------------

  datatype Action = Start | Complete | UpdateNotes | UpdatePriority {
    function Name(): string {
      match this
      case Start => "start"
      case Complete => "complete"
      case UpdateNotes => "update_notes"
      case UpdatePriority => "update_priority"
    }
  }

  function ParseAction(s: string): (r: Option<Action>)
    ensures r.Some? ==> r.value.Name() == s
    ensures r.None? ==> s !in {"start", "complete", "update_notes", "update_priority"}
  {
    if s == "start" then Some(Start)
    else if s == "complete" then Some(Complete)
    else if s == "update_notes" then Some(UpdateNotes)
    else if s == "update_priority" then Some(UpdatePriority)
    else None
  }

  /** The PATCH body; a visit id is `None` when missing or empty. */
  datatype PatchRequest = PatchRequest(visitId: Option<nat>, action: Option<string>, notes: Option<string>, priority: Option<string>)

  /** `updateData`: the fields to overwrite; `None` keys are left out of the update. */
  datatype VisitUpdate = VisitUpdate(queueStatus: Option<Status>, notes: Option<string>, priority: Option<string>, updatedAt: int)

  function UpdateFor(action: Action, req: PatchRequest, now: int): (u: VisitUpdate)
    ensures u.updatedAt == now
    ensures u.queueStatus.Some? <==> action == Start || action == Complete
    ensures u.priority.Some? <==> action == UpdatePriority && Truthy(req.priority)
    ensures action == UpdatePriority ==> u.notes.None?
  {
    match action
    case Start => VisitUpdate(Some(InProgress), req.notes, None, now)
    case Complete => VisitUpdate(Some(Completed), req.notes, None, now)
    case UpdateNotes => VisitUpdate(None, req.notes, None, now)
    case UpdatePriority => VisitUpdate(None, None, if Truthy(req.priority) then req.priority else None, now)
  }

  /** `findByIdAndUpdate`: the present keys overwrite the stored fields (notes through the trim setter); no validator runs. */
  function Apply(v: Visit, u: VisitUpdate): (w: Visit)
    ensures w.id == v.id && w.createdAt == v.createdAt && w.updatedAt == u.updatedAt
  {
    v.(queueStatus := u.queueStatus.GetOr(v.queueStatus),
       notes := if u.notes.Some? then Some(Trim(u.notes.value)) else v.notes,
       priority := u.priority.GetOr(v.priority),
       updatedAt := u.updatedAt)
  }

  /**
   * What each action does to a stored visit, whatever its current status:
   * `start` and `complete` set the status and write the notes, `update_notes`
   * writes only the notes, `update_priority` writes only the priority and
   * only when one is given; all of them stamp `updatedAt`, and none of them
   * touches the assigned nurse.
   */
  lemma ActionEffects(v: Visit, action: Action, req: PatchRequest, now: int)
    ensures var w := Apply(v, UpdateFor(action, req, now));
            var notes := if req.notes.Some? then Some(Trim(req.notes.value)) else v.notes;
            && w.assignedNurse == v.assignedNurse && w.assignedNurseName == v.assignedNurseName
            && w.updatedAt == now
            && (action == Start ==> w == v.(queueStatus := InProgress, notes := notes, updatedAt := now))
            && (action == Complete ==> w == v.(queueStatus := Completed, notes := notes, updatedAt := now))
            && (action == UpdateNotes ==> w == v.(notes := notes, updatedAt := now))
            && (action == UpdatePriority && Truthy(req.priority) ==> w == v.(priority := req.priority.value, updatedAt := now))
            && (action == UpdatePriority && !Truthy(req.priority) ==> w == v.(updatedAt := now))
  {
  }

  /** Completing an already completed visit is accepted and only rewrites its notes and time stamp. */
  lemma CompleteIsUnguarded(v: Visit, req: PatchRequest, now: int)
    requires v.queueStatus == Completed
    ensures Apply(v, UpdateFor(Complete, req, now)).queueStatus == Completed
    ensures Apply(v, UpdateFor(Start, req, now)).queueStatus == InProgress
  {
  }

  /** The position of the visit with id `id` in the store, if any. */
  function IndexOfId(visits: seq<Visit>, id: nat): (r: Option<nat>)
    ensures r.Some? ==> r.value < |visits| && visits[r.value].id == id
    ensures r.Some? ==> forall k :: 0 <= k < r.value ==> visits[k].id != id
    ensures r.None? <==> forall k :: 0 <= k < |visits| ==> visits[k].id != id
  {
    if visits == [] then None
    else if visits[0].id == id then Some(0)
    else match IndexOfId(visits[1..], id)
      case None => None
      case Some(k) => Some(k + 1)
  }

  datatype PatchOutcome =
    | PatchUnauthorized
    | MissingFields
    | InvalidAction
    | VisitNotFound
    | Updated(visit: Visit)

  /** The PATCH on a snapshot of the store: its reply and the new snapshot. */
  function Patch(visits: seq<Visit>, role: Option<string>, req: PatchRequest, now: int): (r: (PatchOutcome, seq<Visit>))
    ensures !r.0.Updated? ==> r.1 == visits
    ensures r.0 == PatchUnauthorized <==> !IsStaff(role)
    ensures r.0 == MissingFields <==> IsStaff(role) && (req.visitId.None? || !Truthy(req.action))
    ensures r.0 == InvalidAction <==>
              IsStaff(role) && req.visitId.Some? && Truthy(req.action) && ParseAction(req.action.value).None?
    ensures r.0 == VisitNotFound <==>
              IsStaff(role) && req.visitId.Some? && Truthy(req.action) && ParseAction(req.action.value).Some?
              && forall k :: 0 <= k < |visits| ==> visits[k].id != req.visitId.value
    ensures r.0.Updated? <==>
              IsStaff(role) && req.visitId.Some? && Truthy(req.action) && ParseAction(req.action.value).Some?
              && IndexOfId(visits, req.visitId.value).Some?
    ensures r.0.Updated? ==>
              var i := IndexOfId(visits, req.visitId.value).value;
              && r.1 == visits[i := r.0.visit]
              && r.0.visit == Apply(visits[i], UpdateFor(ParseAction(req.action.value).value, req, now))
  {
    if !IsStaff(role) then (PatchUnauthorized, visits)
    else if req.visitId.None? || !Truthy(req.action) then (MissingFields, visits)
    else match ParseAction(req.action.value)
      case None => (InvalidAction, visits)
      case Some(action) =>
        match IndexOfId(visits, req.visitId.value)
        case None => (VisitNotFound, visits)
        case Some(i) =>
          var w := Apply(visits[i], UpdateFor(action, req, now));
          (Updated(w), visits[i := w])
  }
}

=== FILE: queue_slice.dfy ===
/**
 * The client's queue state (store/queueSlice.ts): the queue as last
 * listed, the emergency alerts, the selected visit, the list filters and
 * the loading and error flags. Each reducer is a method of `QueueStore`
 * that writes the fields it names and leaves every other field as it was;
 * `Snapshot` gathers the fields so that "as it was" is one equation.
 */
module QueueSlice {
  import opened Common
  import opened Sequences

  /** A queue entry as the client keeps it (`QueueItem`); status and priority are the server's strings. */
  datatype QueueItem = QueueItem(
    id: string,
    name: string,
    studentId: string,
    symptoms: seq<string>,
    emergencyFlag: bool,
    priority: string,
    position: int,
    estimatedWaitTime: int,
    status: string)

  /** `Partial<QueueItem>`: the keys present in an update. */
  datatype ItemPatch = ItemPatch(
    id: Option<string>,
    name: Option<string>,
    studentId: Option<string>,
    symptoms: Option<seq<string>>,
    emergencyFlag: Option<bool>,
    priority: Option<string>,
    position: Option<int>,
    estimatedWaitTime: Option<int>,
    status: Option<string>)

  /** `{...item, ...updates}`: every key present in the update wins, every other key keeps its value. */
  function Merge(item: QueueItem, updates: ItemPatch): (r: QueueItem)
    ensures updates.id.None? ==> r.id == item.id
    ensures updates.id.Some? ==> r.id == updates.id.value
    ensures updates.status.None? ==> r.status == item.status
    ensures updates.status.Some? ==> r.status == updates.status.value
    ensures updates.priority.None? ==> r.priority == item.priority
    ensures updates.priority.Some? ==> r.priority == updates.priority.value
    ensures updates.name.None? ==> r.name == item.name
    ensures updates.name.Some? ==> r.name == updates.name.value
    ensures updates.studentId.None? ==> r.studentId == item.studentId
    ensures updates.studentId.Some? ==> r.studentId == updates.studentId.value
    ensures updates.symptoms.None? ==> r.symptoms == item.symptoms
    ensures updates.symptoms.Some? ==> r.symptoms == updates.symptoms.value
    ensures updates.emergencyFlag.None? ==> r.emergencyFlag == item.emergencyFlag
    ensures updates.emergencyFlag.Some? ==> r.emergencyFlag == updates.emergencyFlag.value
    ensures updates.position.None? ==> r.position == item.position
    ensures updates.position.Some? ==> r.position == updates.position.value
    ensures updates.estimatedWaitTime.None? ==> r.estimatedWaitTime == item.estimatedWaitTime
    ensures updates.estimatedWaitTime.Some? ==> r.estimatedWaitTime == updates.estimatedWaitTime.value
    ensures updates == ItemPatch(None, None, None, None, None, None, None, None, None) ==> r == item
  {
    QueueItem(
      updates.id.GetOr(item.id),
      updates.name.GetOr(item.name),
      updates.studentId.GetOr(item.studentId),
      updates.symptoms.GetOr(item.symptoms),
      updates.emergencyFlag.GetOr(item.emergencyFlag),
      updates.priority.GetOr(item.priority),
      updates.position.GetOr(item.position),
      updates.estimatedWaitTime.GetOr(item.estimatedWaitTime),
      updates.status.GetOr(item.status))
  }

  /** Merging the same update twice is merging it once. */
  lemma MergeIdempotent(item: QueueItem, updates: ItemPatch)
    ensures Merge(Merge(item, updates), updates) == Merge(item, updates)
  {
  }

  /** `findIndex(item => item.id === id)`: the first entry with the id. */
  function IndexOfItem(items: seq<QueueItem>, id: string): (r: Option<nat>)
    ensures r.Some? ==> r.value < |items| && items[r.value].id == id
                        && forall k :: 0 <= k < r.value ==> items[k].id != id
    ensures r.None? <==> forall k :: 0 <= k < |items| ==> items[k].id != id
  {
    if items == [] then None
    else if items[0].id == id then Some(0)
    else match IndexOfItem(items[1..], id)
      case None => None
      case Some(k) => Some(k + 1)
  }

  /** `filter(item => item.id !== id)`: every entry with the id goes, the rest keep their order. */
  function WithoutItem(items: seq<QueueItem>, id: string): (r: seq<QueueItem>)
    ensures Subsequence(r, items)
    ensures forall x :: x in r <==> x in items && x.id != id
  {
    FilterIsSubsequence(items, (x: QueueItem) => x.id != id);
    FilterMembershipAll(items, (x: QueueItem) => x.id != id);
    Filter(items, (x: QueueItem) => x.id != id)
  }

  /** An alert raised for an emergency visit (`EmergencyAlert`); `timestamp` in milliseconds. */
  datatype EmergencyAlert = EmergencyAlert(
    id: string,
    visitId: string,
    studentName: string,
    studentId: string,
    symptoms: seq<string>,
    timestamp: int,
    acknowledged: bool)

  /** `find(a => a.id === id)`: the first alert with the id. */
  function IndexOfAlert(alerts: seq<EmergencyAlert>, id: string): (r: Option<nat>)
    ensures r.Some? ==> r.value < |alerts| && alerts[r.value].id == id
                        && forall k :: 0 <= k < r.value ==> alerts[k].id != id
    ensures r.None? <==> forall k :: 0 <= k < |alerts| ==> alerts[k].id != id
  {
    if alerts == [] then None
    else if alerts[0].id == id then Some(0)
    else match IndexOfAlert(alerts[1..], id)
      case None => None
      case Some(k) => Some(k + 1)
  }

  /** `acknowledged = true` on the alert `find` returned: the first alert with the id, and no other. */
  function Acknowledge(alerts: seq<EmergencyAlert>, id: string): (r: seq<EmergencyAlert>)
    ensures IndexOfAlert(alerts, id).None? ==> r == alerts
    ensures IndexOfAlert(alerts, id).Some? ==>
              var k := IndexOfAlert(alerts, id).value;
              r == alerts[k := alerts[k].(acknowledged := true)]
  {
    if alerts == [] then []
    else if alerts[0].id == id then [alerts[0].(acknowledged := true)] + alerts[1..]
    else
      assert alerts == [alerts[0]] + alerts[1..];
      [alerts[0]] + Acknowledge(alerts[1..], id)
  }

  /** Acknowledging twice is acknowledging once. */
  lemma {:induction false} AcknowledgeIdempotent(alerts: seq<EmergencyAlert>, id: string)
    ensures Acknowledge(Acknowledge(alerts, id), id) == Acknowledge(alerts, id)
  {
    if alerts != [] && alerts[0].id != id {
      AcknowledgeIdempotent(alerts[1..], id);
    }
  }

  /** The list filters. */
  datatype Filters = Filters(status: string, priority: string, searchTerm: string)

  /** `Partial<filters>`. */
  datatype FiltersPatch = FiltersPatch(status: Option<string>, priority: Option<string>, searchTerm: Option<string>)

  /** `{...filters, ...patch}`: only the supplied keys change. */
  function MergeFilters(f: Filters, patch: FiltersPatch): (r: Filters)
    ensures r.status == (if patch.status.Some? then patch.status.value else f.status)
    ensures r.priority == (if patch.priority.Some? then patch.priority.value else f.priority)
    ensures r.searchTerm == (if patch.searchTerm.Some? then patch.searchTerm.value else f.searchTerm)
  {
    Filters(patch.status.GetOr(f.status), patch.priority.GetOr(f.priority), patch.searchTerm.GetOr(f.searchTerm))
  }

  /** All fields of the slice at one moment. */
  datatype QueueView = QueueView(
    currentQueue: seq<QueueItem>,
    emergencyAlerts: seq<EmergencyAlert>,
    selectedVisit: Option<QueueItem>,
    filters: Filters,
    isLoading: bool,
    error: Option<string>)

  class QueueStore {
    var currentQueue: seq<QueueItem>
    var emergencyAlerts: seq<EmergencyAlert>
    var selectedVisit: Option<QueueItem>
    var filters: Filters
    var isLoading: bool
    var error: Option<string>

    function Snapshot(): QueueView
      reads this
    {
      QueueView(currentQueue, emergencyAlerts, selectedVisit, filters, isLoading, error)
    }

    /** `initialState`. */
    constructor ()
      ensures Snapshot() == QueueView([], [], None, Filters("all", "all", ""), false, None)
    {
      currentQueue, emergencyAlerts, selectedVisit := [], [], None;
      filters, isLoading, error := Filters("all", "all", ""), false, None;
    }

    method SetQueue(items: seq<QueueItem>)
      modifies this
      ensures Snapshot() == old(Snapshot()).(currentQueue := items)
    {
      currentQueue := items;
    }

    /** `push`: one more entry at the end, the earlier ones untouched. */
    method AddToQueue(item: QueueItem)
      modifies this
      ensures Snapshot() == old(Snapshot()).(currentQueue := old(currentQueue) + [item])
      ensures |currentQueue| == |old(currentQueue)| + 1 && currentQueue[..|old(currentQueue)|] == old(currentQueue)
    {
      currentQueue := currentQueue + [item];
    }

    /** The first entry with the id takes the update; with no such entry nothing changes. */
    method UpdateQueueItem(id: string, updates: ItemPatch)
      modifies this
      ensures IndexOfItem(old(currentQueue), id).None? ==> Snapshot() == old(Snapshot())
      ensures IndexOfItem(old(currentQueue), id).Some? ==>
                var k := IndexOfItem(old(currentQueue), id).value;
                Snapshot() == old(Snapshot()).(currentQueue := old(currentQueue)[k := Merge(old(currentQueue)[k], updates)])
    {
      var index := IndexOfItem(currentQueue, id);
      if index.Some? {
        currentQueue := currentQueue[index.value := Merge(currentQueue[index.value], updates)];
      }
    }

    method RemoveFromQueue(id: string)
      modifies this
      ensures Snapshot() == old(Snapshot()).(currentQueue := WithoutItem(old(currentQueue), id))
    {
      currentQueue := WithoutItem(currentQueue, id);
    }

    method SetEmergencyAlerts(alerts: seq<EmergencyAlert>)
      modifies this
      ensures Snapshot() == old(Snapshot()).(emergencyAlerts := alerts)
    {
      emergencyAlerts := alerts;
    }

    method AddEmergencyAlert(alert: EmergencyAlert)
      modifies this
      ensures Snapshot() == old(Snapshot()).(emergencyAlerts := old(emergencyAlerts) + [alert])
    {
      emergencyAlerts := emergencyAlerts + [alert];
    }

    method AcknowledgeEmergencyAlert(id: string)
      modifies this
      ensures Snapshot() == old(Snapshot()).(emergencyAlerts := Acknowledge(old(emergencyAlerts), id))
    {
      emergencyAlerts := Acknowledge(emergencyAlerts, id);
    }

    method SetSelectedVisit(visit: Option<QueueItem>)
      modifies this
      ensures Snapshot() == old(Snapshot()).(selectedVisit := visit)
    {
      selectedVisit := visit;
    }

    method SetFilters(patch: FiltersPatch)
      modifies this
      ensures Snapshot() == old(Snapshot()).(filters := MergeFilters(old(filters), patch))
    {
      filters := MergeFilters(filters, patch);
    }

    method SetLoading(loading: bool)
      modifies this
      ensures Snapshot() == old(Snapshot()).(isLoading := loading)
    {
      isLoading := loading;
    }

    method SetError(message: Option<string>)
      modifies this
      ensures Snapshot() == old(Snapshot()).(error := message)
    {
      error := message;
    }

    method ClearError()
      modifies this
      ensures Snapshot() == old(Snapshot()).(error := None)
    {
      error := None;
    }
  }
}

=== FILE: recent_cases.dfy ===
/**
 * The dashboard's recent-cases panel (components/admin/RecentCases.tsx):
 * the fetched visits newest first, of which the first five are shown with
 * their "time ago" label and badges (`ClientVisits.FormatTimeAgo`,
 * `ClientVisits.StatusBadge`, `ClientVisits.PriorityBadge`).
 */
module RecentCases {
  import opened Sequences
  import opened ClientVisits

  /** How many cases the panel shows at most. */
  const Limit: nat := 5

  /**
   * `visits.slice(0, 5)` of the list the panel keeps after a fetch: the
   * newest five, newest first, and no case left out is newer than a case
   * shown.
   */
  function Recent(fetched: seq<CaseVisit>): (r: seq<CaseVisit>)
    ensures |r| == if |fetched| < Limit then |fetched| else Limit
    ensures forall i, j :: 0 <= i < j < |r| ==> r[i].createdAt >= r[j].createdAt
    ensures forall v :: v in r ==> v in fetched
    ensures multiset(r) <= multiset(fetched)
    ensures forall v, i :: v in fetched && v !in r && 0 <= i < |r| ==> v.createdAt <= r[i].createdAt
  {
    var sorted := ByNewest(fetched);
    var n := if |sorted| < Limit then |sorted| else Limit;
    RecentFacts(fetched, sorted, n);
    PrefixSubMultiset(sorted, n);
    sorted[..n]
  }

  lemma RecentFacts(fetched: seq<CaseVisit>, sorted: seq<CaseVisit>, n: nat)
    requires sorted == ByNewest(fetched) && n <= |sorted|
    ensures forall v :: v in sorted[..n] ==> v in fetched
    ensures forall v, i :: v in fetched && v !in sorted[..n] && 0 <= i < n ==> v.createdAt <= sorted[i].createdAt
  {
    forall v | v in sorted[..n] ensures v in fetched {
      assert v in multiset(sorted);
    }
    forall v, i | v in fetched && v !in sorted[..n] && 0 <= i < n ensures v.createdAt <= sorted[i].createdAt {
      assert v in multiset(sorted);
      var k :| 0 <= k < |sorted| && sorted[k] == v;
    }
  }

  /** When there are five or fewer cases the panel shows them all. */
  lemma FewCasesAllShown(fetched: seq<CaseVisit>)
    requires |fetched| <= Limit
    ensures multiset(Recent(fetched)) == multiset(fetched)
  {
    assert ByNewest(fetched)[..|fetched|] == ByNewest(fetched);
  }
}

=== FILE: records.dfy ===
/**
 * The three stored record kinds of the clinic: visits (models/Visit.ts),
 * guest sessions (models/GuestSession.ts) and users (models/User.ts).
 * Each schema becomes a datatype, its enumerations become datatypes with a
 * name/parse round trip, and its `required`/`enum`/`min`/`minlength`
 * validators become a validity predicate that a save must satisfy.
 */
module Records {
  import opened Common

  // ---------------------------------------------------------------------
  // Enumerations
  // ---------------------------------------------------------------------

  /** `queueStatus`: 'waiting' | 'in-progress' | 'completed'. */
  datatype Status = Waiting | InProgress | Completed {
    function Name(): string {
      match this
      case Waiting => "waiting"
      case InProgress => "in-progress"
      case Completed => "completed"
    }
  }

  function ParseStatus(s: string): (r: Option<Status>)
    ensures r.Some? ==> r.value.Name() == s
  {
    if s == "waiting" then Some(Waiting)
    else if s == "in-progress" then Some(InProgress)
    else if s == "completed" then Some(Completed)
    else None
  }

  /** The schema default of `queueStatus`. */
  const DefaultStatus: Status := Waiting

  /** The three status names are parsed back to the status that produced them, and nothing else parses. */
  lemma StatusNameRoundTrip(st: Status, s: string)
    ensures ParseStatus(st.Name()) == Some(st)
    ensures ParseStatus(s).Some? <==> s in {"waiting", "in-progress", "completed"}
  {
  }

  /** `priority`: 'low' | 'medium' | 'high' | 'emergency'. */
  datatype Priority = Low | Medium | High | Emergency {
    function Name(): string {
      match this
      case Low => "low"
      case Medium => "medium"
      case High => "high"
      case Emergency => "emergency"
    }
  }

  function ParsePriority(s: string): (r: Option<Priority>)
    ensures r.Some? ==> r.value.Name() == s
  {
    if s == "low" then Some(Low)
    else if s == "medium" then Some(Medium)
    else if s == "high" then Some(High)
    else if s == "emergency" then Some(Emergency)
    else None
  }

  /** The schema default of `priority` (note: the check-in route's own fallback is medium). */
  const DefaultPriority: Priority := Low

  lemma PriorityNameRoundTrip(p: Priority, s: string)
    ensures ParsePriority(p.Name()) == Some(p)
    ensures ParsePriority(s).Some? <==> s in {"low", "medium", "high", "emergency"}
  {
  }

  /** `role`: 'student' | 'nurse' | 'admin'. */
  datatype Role = Student | Nurse | Admin {
    function Name(): string {
      match this
      case Student => "student"
      case Nurse => "nurse"
      case Admin => "admin"
    }

    /** Staff roles must carry an e-mail address and a password. */
    predicate IsStaff() {
      this == Nurse || this == Admin
    }
  }

  function ParseRole(s: string): (r: Option<Role>)
    ensures r.Some? ==> r.value.Name() == s
  {
    if s == "student" then Some(Student)
    else if s == "nurse" then Some(Nurse)
    else if s == "admin" then Some(Admin)
    else None
  }

  /** The schema default of `role`. */
  const DefaultRole: Role := Student

  lemma RoleNameRoundTrip(r: Role, s: string)
    ensures ParseRole(r.Name()) == Some(r)
    ensures ParseRole(s).Some? <==> s in {"student", "nurse", "admin"}
  {
  }

  // ---------------------------------------------------------------------
  // Visit
  // ---------------------------------------------------------------------

  /**
   * A stored visit. `priority` is kept as the stored string: the schema's
   * enum is checked when a new visit is saved, but the staff update route
   * writes the request's string without running validators.
   * Times are milliseconds since the epoch.
   */
  datatype Visit = Visit(
    id: nat,
    userId: Option<string>,
    name: string,
    studentId: string,
    mobile: Option<string>,
    studentClass: Option<string>,
    symptoms: seq<string>,
    queueStatus: Status,
    emergencyFlag: bool,
    priority: string,
    estimatedWaitTime: Option<int>,
    notes: Option<string>,
    assignedNurse: Option<string>,
    assignedNurseName: Option<string>,
    createdAt: int,
    updatedAt: int)

  /** The `trim: true` setter applied to an optional string field. */
  function TrimOpt(s: Option<string>): Option<string> {
    match s
    case None => None
    case Some(t) => Some(Trim(t))
  }

  /** Mongoose's `required` on a string: present and non-empty. */
  predicate RequiredString(s: string) {
    s != ""
  }

  /** The validators a visit must pass to be saved. */
  predicate ValidVisit(v: Visit) {
    && RequiredString(v.name) && Trim(v.name) == v.name
    && RequiredString(v.studentId) && Trim(v.studentId) == v.studentId
    && (forall k :: 0 <= k < |v.symptoms| ==> RequiredString(v.symptoms[k]))
    && ParsePriority(v.priority).Some?
    && (v.estimatedWaitTime.Some? ==> v.estimatedWaitTime.value >= 0)
  }

  /** The `queuePosition` virtual: always 0; real positions are computed by the routes. */
  function VirtualQueuePosition(v: Visit): int {
    0
  }

  // ---------------------------------------------------------------------
  // Guest session
  // ---------------------------------------------------------------------

  datatype GuestSession = GuestSession(
    name: string,
    studentId: string,
    mobile: Option<string>,
    sessionToken: string,
    expiresAt: int,
    createdAt: int)

  /** The validators a guest session must pass to be saved (`mobile` is optional). */
  predicate ValidGuestSession(g: GuestSession) {
    && RequiredString(g.name) && Trim(g.name) == g.name
    && RequiredString(g.studentId) && Trim(g.studentId) == g.studentId
    && RequiredString(g.sessionToken)
  }

  /** The `isExpired` method: strictly past the expiry instant. */
  predicate IsExpired(g: GuestSession, now: int) {
    now > g.expiresAt
  }

  /** The unique index on `sessionToken`. */
  predicate UniqueTokens(sessions: seq<GuestSession>) {
    forall i, j :: 0 <= i < j < |sessions| ==> sessions[i].sessionToken != sessions[j].sessionToken
  }

  // ---------------------------------------------------------------------
  // User
  // ---------------------------------------------------------------------

  datatype User = User(
    id: nat,
    name: string,
    studentId: string,
    role: Role,
    mobile: Option<string>,
    email: Option<string>,
    studentClass: Option<string>,
    password: Option<string>,
    createdAt: int,
    updatedAt: int)

  const MinPasswordLength: nat := 6

  /**
   * The validators a user document must pass before its password is
   * hashed: e-mail and password are required exactly for staff roles, the
   * e-mail is stored trimmed and lower-cased, and a password has at least
   * six characters.
   */
  predicate ValidUser(u: User) {
    && RequiredString(u.name) && Trim(u.name) == u.name
    && RequiredString(u.studentId) && Trim(u.studentId) == u.studentId
    && (u.role.IsStaff() ==> Truthy(u.email) && Truthy(u.password))
    && (u.email.Some? ==> u.email.value == Lower(Trim(u.email.value)))
    && (u.password.Some? ==> |u.password.value| >= MinPasswordLength)
  }

  /** The unique index on `studentId`. */
  predicate UniqueStudentIds(users: seq<User>) {
    forall i, j :: 0 <= i < j < |users| ==> users[i].studentId != users[j].studentId
  }

  /** Appending a user whose student id no stored user holds keeps student ids unique. */
  lemma AppendUniqueStudentId(users: seq<User>, u: User)
    requires UniqueStudentIds(users) && !(exists x :: x in users && x.studentId == u.studentId)
    ensures UniqueStudentIds(users + [u])
  {
    var s := users + [u];
    forall i, j | 0 <= i < j < |s| ensures s[i].studentId != s[j].studentId {
      assert s[i] == users[i];
      if j < |users| {
        assert s[j] == users[j];
      }
    }
  }

  /**
   * The pre-save hook: the password is replaced by its hash only when it
   * was modified; every other field is kept. `hash` stands for bcrypt.
   */
  function PreSave(u: User, passwordModified: bool, hash: string -> string): (r: User)
    ensures r == u.(password := r.password)
    ensures !passwordModified ==> r == u
    ensures passwordModified && u.password.Some? ==> r.password == Some(hash(u.password.value))
  {
    if passwordModified && u.password.Some? then u.(password := Some(hash(u.password.value))) else u
  }

  /** `comparePassword`: a user without a password never matches; otherwise `matches` (bcrypt) decides. */
  function ComparePassword(u: User, candidate: string, matches: (string, string) -> bool): (ok: bool)
    ensures !Truthy(u.password) ==> !ok
    ensures Truthy(u.password) ==> ok == matches(candidate, u.password.value)
  {
    if !Truthy(u.password) then false else matches(candidate, u.password.value)
  }
}

=== FILE: sequences.dfy ===
/**
 * Collection operations the source performs with `Array.prototype.filter`,
 * `.sort`, `.slice` and the store's `find().sort().skip().limit()`:
 * filtering, counting, order-preserving subsequences and a stable sort by
 * a comparison relation, with the facts the routes rely on.
 */
module Sequences {

  // ---------------------------------------------------------------------
  // Filtering and counting
  // ---------------------------------------------------------------------

  /** `s.filter(p)`: the elements satisfying `p`, in their original order. */
  function Filter<T>(s: seq<T>, p: T -> bool): (r: seq<T>)
    ensures |r| <= |s|
    ensures forall i :: 0 <= i < |r| ==> p(r[i])
    ensures multiset(r) <= multiset(s)
    decreases |s|
  {
    if s == [] then []
    else
      assert s == [s[0]] + s[1..];
      (if p(s[0]) then [s[0]] else []) + Filter(s[1..], p)
  }

  /** The number of elements satisfying `p` (a store `countDocuments`). */
  function Count<T>(s: seq<T>, p: T -> bool): nat {
    |Filter(s, p)|
  }

  /** Every element of `s` that satisfies `p` survives the filter. */
  lemma {:induction false} FilterKeeps<T>(s: seq<T>, p: T -> bool, i: nat)
    requires i < |s| && p(s[i])
    ensures s[i] in Filter(s, p)
    decreases |s|
  {
    if i > 0 {
      FilterKeeps(s[1..], p, i - 1);
    }
  }

  /** Membership in the filtered sequence is membership in `s` plus `p`. */
  lemma FilterMembership<T>(s: seq<T>, p: T -> bool, x: T)
    ensures x in Filter(s, p) <==> x in s && p(x)
  {
    if x in Filter(s, p) {
      assert x in multiset(Filter(s, p));
    }
    if x in s && p(x) {
      var i :| 0 <= i < |s| && s[i] == x;
      FilterKeeps(s, p, i);
    }
  }

  lemma FilterMembershipAll<T>(s: seq<T>, p: T -> bool)
    ensures forall x :: x in Filter(s, p) <==> x in s && p(x)
  {
    forall x ensures x in Filter(s, p) <==> x in s && p(x) {
      FilterMembership(s, p, x);
    }
  }

  lemma {:induction false} FilterAppend<T>(a: seq<T>, b: seq<T>, p: T -> bool)
    ensures Filter(a + b, p) == Filter(a, p) + Filter(b, p)
    decreases |a|
  {
    if a == [] {
      assert a + b == b;
    } else {
      var ab := a + b;
      var head := if p(a[0]) then [a[0]] else [];
      assert ab[0] == a[0] && ab[1..] == a[1..] + b;
      FilterAppend(a[1..], b, p);
      calc == {
        Filter(ab, p);
        head + Filter(ab[1..], p);
        head + (Filter(a[1..], p) + Filter(b, p));
        (head + Filter(a[1..], p)) + Filter(b, p);
        Filter(a, p) + Filter(b, p);
      }
    }
  }

  /** Filtering by the same predicate again changes nothing. */
  lemma {:induction false} FilterIdempotent<T>(s: seq<T>, p: T -> bool)
    ensures Filter(Filter(s, p), p) == Filter(s, p)
    decreases |s|
  {
    if s != [] {
      FilterIdempotent(s[1..], p);
      FilterAppend(if p(s[0]) then [s[0]] else [], Filter(s[1..], p), p);
    }
  }

  /** The filter keeps every copy of an element satisfying `p` and no copy of any other. */
  lemma {:induction false} FilterMultiset<T>(s: seq<T>, p: T -> bool, x: T)
    ensures multiset(Filter(s, p))[x] == if p(x) then multiset(s)[x] else 0
    decreases |s|
  {
    if s != [] {
      FilterMultiset(s[1..], p, x);
      assert s == [s[0]] + s[1..];
    }
  }

  /** A filter whose predicate holds everywhere keeps the whole sequence. */
  lemma {:induction false} FilterAll<T>(s: seq<T>, p: T -> bool)
    requires forall i :: 0 <= i < |s| ==> p(s[i])
    ensures Filter(s, p) == s
    decreases |s|
  {
    if s != [] {
      FilterAll(s[1..], p);
      assert s == [s[0]] + s[1..];
    }
  }

  /** Three pairwise exclusive predicates together count no more elements than there are. */
  lemma {:induction false} CountDisjoint<T>(s: seq<T>, p: T -> bool, q: T -> bool, r: T -> bool)
    requires forall x :: !(p(x) && q(x)) && !(p(x) && r(x)) && !(q(x) && r(x))
    ensures Count(s, p) + Count(s, q) + Count(s, r) <= |s|
    decreases |s|
  {
    if s != [] {
      CountDisjoint(s[1..], p, q, r);
    }
  }

  /** A weaker predicate counts at least as many elements, and strictly more when some element separates them. */
  lemma {:induction false} CountMonotone<T>(s: seq<T>, p: T -> bool, q: T -> bool)
    requires forall x :: p(x) ==> q(x)
    ensures Count(s, p) <= Count(s, q)
    ensures (exists i :: 0 <= i < |s| && q(s[i]) && !p(s[i])) ==> Count(s, p) < Count(s, q)
    decreases |s|
  {
    if s != [] {
      CountMonotone(s[1..], p, q);
      if exists i :: 0 <= i < |s| && q(s[i]) && !p(s[i]) {
        var i :| 0 <= i < |s| && q(s[i]) && !p(s[i]);
        if i > 0 {
          assert s[1..][i - 1] == s[i];
        }
      }
    }
  }

  /** Counting is invariant under reordering (so it does not depend on the store's physical order). */
  lemma CountPermutation<T>(s: seq<T>, t: seq<T>, p: T -> bool)
    requires multiset(s) == multiset(t)
    ensures Count(s, p) == Count(t, p)
  {
    forall x ensures multiset(Filter(s, p))[x] == multiset(Filter(t, p))[x] {
      FilterMultiset(s, p, x);
      FilterMultiset(t, p, x);
    }
    assert multiset(Filter(s, p)) == multiset(Filter(t, p));
    assert |multiset(Filter(s, p))| == |Filter(s, p)|;
    assert |multiset(Filter(t, p))| == |Filter(t, p)|;
  }

  // ---------------------------------------------------------------------
  // Order-preserving subsequences
  // ---------------------------------------------------------------------

  /** `r` is obtained from `s` by deleting elements, keeping the order of the rest. */
  predicate Subsequence<T(==)>(r: seq<T>, s: seq<T>)
    decreases |s|
  {
    r == [] || (s != [] && if r[0] == s[0] then Subsequence(r[1..], s[1..]) else Subsequence(r, s[1..]))
  }

  lemma {:induction false} SubsequenceOfTail<T>(r: seq<T>, s: seq<T>)
    requires s != [] && Subsequence(r, s[1..])
    ensures Subsequence(r, s)
    decreases |s|, 0
  {
    if r != [] && r[0] == s[0] {
      SubsequenceDropHead(r, s[1..]);
    }
  }

  lemma {:induction false} SubsequenceDropHead<T>(r: seq<T>, u: seq<T>)
    requires r != [] && Subsequence(r, u)
    ensures Subsequence(r[1..], u)
    decreases |u|, 1
  {
    if r[0] == u[0] {
      if r[1..] != [] {
        SubsequenceOfTail(r[1..], u);
      }
    } else {
      SubsequenceDropHead(r, u[1..]);
      if r[1..] != [] {
        SubsequenceOfTail(r[1..], u);
      }
    }
  }

  lemma {:induction false} SubsequenceLength<T>(r: seq<T>, s: seq<T>)
    requires Subsequence(r, s)
    ensures |r| <= |s|
    decreases |s|
  {
    if r != [] {
      if r[0] == s[0] {
        SubsequenceLength(r[1..], s[1..]);
      } else {
        SubsequenceLength(r, s[1..]);
      }
    }
  }

  /** A filter keeps the relative order of what it keeps. */
  lemma {:induction false} FilterIsSubsequence<T>(s: seq<T>, p: T -> bool)
    ensures Subsequence(Filter(s, p), s)
    decreases |s|
  {
    if s != [] {
      FilterIsSubsequence(s[1..], p);
      if p(s[0]) {
        assert Filter(s, p) == [s[0]] + Filter(s[1..], p);
        assert Filter(s, p)[1..] == Filter(s[1..], p);
      } else {
        assert Filter(s, p) == [] + Filter(s[1..], p) == Filter(s[1..], p);
        SubsequenceOfTail(Filter(s[1..], p), s);
      }
    }
  }

  // ---------------------------------------------------------------------
  // Sorting by a comparison relation
  // ---------------------------------------------------------------------

  /** `le` is a total preorder: every pair is comparable and the relation is transitive. */
  ghost predicate TotalPreorder<T(!new)>(le: (T, T) -> bool) {
    && (forall x, y :: le(x, y) || le(y, x))
    && (forall x, y, z :: le(x, y) && le(y, z) ==> le(x, z))
  }

  /** Every element may stand before every later one. */
  predicate SortedBy<T>(s: seq<T>, le: (T, T) -> bool) {
    forall i, j :: 0 <= i < j < |s| ==> le(s[i], s[j])
  }

  /** Places `x` before the first element it may precede (so equal keys keep their input order). */
  function Insert<T>(x: T, s: seq<T>, le: (T, T) -> bool): (r: seq<T>)
    ensures |r| == |s| + 1
    ensures multiset(r) == multiset(s) + multiset{x}
    decreases |s|
  {
    if s == [] then [x]
    else if le(x, s[0]) then [x] + s
    else
      assert s == [s[0]] + s[1..];
      [s[0]] + Insert(x, s[1..], le)
  }

  /** A stable sort: the model's stand-in for `Array.prototype.sort` and the store's `.sort()`. */
  function Sort<T>(s: seq<T>, le: (T, T) -> bool): (r: seq<T>)
    ensures |r| == |s|
    ensures multiset(r) == multiset(s)
    decreases |s|
  {
    if s == [] then []
    else
      assert s == [s[0]] + s[1..];
      Insert(s[0], Sort(s[1..], le), le)
  }

  /** Sorting keeps exactly the elements. */
  lemma SortMembers<T>(s: seq<T>, le: (T, T) -> bool)
    ensures forall x :: x in Sort(s, le) <==> x in s
  {
    var r := Sort(s, le);
    forall x ensures x in r <==> x in s {
      assert x in r <==> x in multiset(r);
      assert x in s <==> x in multiset(s);
    }
  }

  /** Sorting keeps exactly the elements: after a filter, membership is membership in `s` plus `p`. */
  lemma SortFilterMembership<T>(s: seq<T>, p: T -> bool, le: (T, T) -> bool, x: T)
    ensures x in Sort(Filter(s, p), le) <==> x in s && p(x)
  {
    FilterMembership(s, p, x);
    assert x in Sort(Filter(s, p), le) <==> x in multiset(Sort(Filter(s, p), le));
    assert x in Filter(s, p) <==> x in multiset(Filter(s, p));
  }

  lemma {:induction false} InsertSorted<T(!new)>(x: T, s: seq<T>, le: (T, T) -> bool)
    requires TotalPreorder(le) && SortedBy(s, le)
    ensures SortedBy(Insert(x, s, le), le)
    decreases |s|
  {
    if s != [] && !le(x, s[0]) {
      InsertSorted(x, s[1..], le);
      var r := Insert(x, s, le);
      var t := Insert(x, s[1..], le);
      assert r == [s[0]] + t;
      forall j | 0 < j < |r| ensures le(r[0], r[j]) {
        assert r[j] in multiset(t);
        assert r[j] == x || r[j] in multiset(s[1..]);
        if r[j] != x {
          var k :| 0 <= k < |s[1..]| && s[1..][k] == r[j];
          assert le(s[0], s[k + 1]);
        }
      }
    }
  }

  /** The sort's result is ordered by `le` whenever `le` is a total preorder. */
  lemma {:induction false} SortSorted<T(!new)>(s: seq<T>, le: (T, T) -> bool)
    requires TotalPreorder(le)
    ensures SortedBy(Sort(s, le), le)
    decreases |s|
  {
    if s != [] {
      SortSorted(s[1..], le);
      InsertSorted(s[0], Sort(s[1..], le), le);
    }
  }

  /** A prefix of a sorted sequence is sorted, and each of its elements may precede everything after it. */
  /** A prefix takes no element more often than the whole sequence holds it. */
  lemma PrefixSubMultiset<T>(s: seq<T>, k: nat)
    requires k <= |s|
    ensures multiset(s[..k]) <= multiset(s)
  {
    assert s == s[..k] + s[k..];
  }

  lemma SortedPrefix<T>(s: seq<T>, le: (T, T) -> bool, k: nat)
    requires SortedBy(s, le) && k <= |s|
    ensures SortedBy(s[..k], le)
    ensures forall i, j :: 0 <= i < k <= j < |s| ==> le(s[i], s[j])
  {
  }

  /** A slice of a sorted sequence is sorted. */
  lemma SortedSlice<T>(s: seq<T>, le: (T, T) -> bool, lo: nat, hi: nat)
    requires SortedBy(s, le) && lo <= hi <= |s|
    ensures SortedBy(s[lo..hi], le)
  {
    forall i, j | 0 <= i < j < hi - lo ensures le(s[lo..hi][i], s[lo..hi][j]) {
      assert s[lo..hi][i] == s[lo + i] && s[lo..hi][j] == s[lo + j];
    }
  }
}

=== FILE: student_search.dfy ===
/**
 * The kiosk's student lookup (app/api/students/search/route.ts): the
 * registered student with the given id, with a class and a contact number
 * filled in by defaults. Staff accounts are never returned.
 */
module StudentSearch {
  import opened Common
  import opened Records

  /** The class shown when the student has none. */
  const NoClass: string := "Not specified"

  datatype StudentInfo = StudentInfo(name: string, studentId: string, studentClass: string, mobile: string, isGuest: bool)

  /** `{studentId, role: 'student'}`, the filter value through the trim setter. */
  predicate IsStudentWithId(u: User, studentId: string) {
    u.studentId == Trim(studentId) && u.role == Student
  }

  function FindStudent(users: seq<User>, studentId: string): (r: Option<User>)
    ensures r.Some? ==> r.value in users && IsStudentWithId(r.value, studentId)
    ensures r.None? <==> forall u :: u in users ==> !IsStudentWithId(u, studentId)
  {
    if users == [] then None
    else if IsStudentWithId(users[0], studentId) then Some(users[0])
    else FindStudent(users[1..], studentId)
  }

  /** The reply's defaults: `class || 'Not specified'` and `mobile || email || ''`; a registered student is never a guest. */
  function Info(u: User): (s: StudentInfo)
    ensures !s.isGuest && s.name == u.name && s.studentId == u.studentId
    ensures s.studentClass != ""
    ensures Truthy(u.studentClass) ==> s.studentClass == u.studentClass.value
    ensures Truthy(u.mobile) ==> s.mobile == u.mobile.value
    ensures !Truthy(u.mobile) && Truthy(u.email) ==> s.mobile == u.email.value
    ensures !Truthy(u.mobile) && !Truthy(u.email) ==> s.mobile == ""
  {
    StudentInfo(u.name, u.studentId, OrElse(u.studentClass, NoClass), OrElse(u.mobile, OrElse(u.email, "")), false)
  }

  datatype SearchOutcome = MissingStudentId | StudentNotFound | Found(student: StudentInfo)

  function Search(users: seq<User>, studentId: Option<string>): (r: SearchOutcome)
    ensures !Truthy(studentId) <==> r == MissingStudentId
    ensures r == StudentNotFound <==> Truthy(studentId) && forall u :: u in users ==> !IsStudentWithId(u, studentId.value)
    ensures r.Found? ==> exists u :: u in users && IsStudentWithId(u, studentId.value) && r.student == Info(u)
  {
    if !Truthy(studentId) then MissingStudentId
    else match FindStudent(users, studentId.value)
      case None => StudentNotFound
      case Some(u) => Found(Info(u))
  }

  /** A nurse or an administrator holding the id is not found. */
  lemma StaffAreNotStudents(users: seq<User>, studentId: string)
    requires forall u :: u in users && u.studentId == Trim(studentId) ==> u.role.IsStaff()
    ensures Search(users, Some(studentId)) == (if studentId == "" then MissingStudentId else StudentNotFound)
  {
  }
}

=== FILE: ui_slice.dfy ===
/**
 * The client's interface state (store/uiSlice.ts): the sidebar, the
 * selected option, the theme, the notification list and the modal and
 * loading flags. `UiStore`'s methods are the reducers; each writes only
 * the fields it names.
 */
module UiSlice {
  import opened Common
  import opened Sequences

  datatype Theme = Light | Dark

  datatype NoticeKind = Success | Failure | Warning | Info

  datatype Notification = Notification(id: string, kind: NoticeKind, message: string, duration: Option<int>)

  /** The keys of `modals`. */
  datatype Modal = EmergencyAlertModal | PatientDetails | ConfirmAction

  /** The keys of `loadingStates`. */
  datatype LoadingKey = CheckIn | QueueUpdate | ReportGeneration

  datatype Modals = Modals(emergencyAlert: bool, patientDetails: bool, confirmAction: bool)

  datatype LoadingStates = LoadingStates(checkIn: bool, queueUpdate: bool, reportGeneration: bool)

  const AllClosed: Modals := Modals(false, false, false)

  const NothingLoading: LoadingStates := LoadingStates(false, false, false)

  function IsOpen(m: Modals, modal: Modal): bool {
    match modal
    case EmergencyAlertModal => m.emergencyAlert
    case PatientDetails => m.patientDetails
    case ConfirmAction => m.confirmAction
  }

  /** `modals[modal] = open`: that flag is set and the others keep their value. */
  function WithModal(m: Modals, modal: Modal, open: bool): (r: Modals)
    ensures IsOpen(r, modal) == open
    ensures forall other :: other != modal ==> IsOpen(r, other) == IsOpen(m, other)
  {
    match modal
    case EmergencyAlertModal => m.(emergencyAlert := open)
    case PatientDetails => m.(patientDetails := open)
    case ConfirmAction => m.(confirmAction := open)
  }

  function IsLoading(l: LoadingStates, key: LoadingKey): bool {
    match key
    case CheckIn => l.checkIn
    case QueueUpdate => l.queueUpdate
    case ReportGeneration => l.reportGeneration
  }

  /** `loadingStates[key] = loading`: that flag is set and the others keep their value. */
  function WithLoading(l: LoadingStates, key: LoadingKey, loading: bool): (r: LoadingStates)
    ensures IsLoading(r, key) == loading
    ensures forall other :: other != key ==> IsLoading(r, other) == IsLoading(l, other)
  {
    match key
    case CheckIn => l.(checkIn := loading)
    case QueueUpdate => l.(queueUpdate := loading)
    case ReportGeneration => l.(reportGeneration := loading)
  }

  /** `filter(n => n.id !== id)`: every notification with the id goes, the rest keep their order. */
  function WithoutNotification(notifications: seq<Notification>, id: string): (r: seq<Notification>)
    ensures Subsequence(r, notifications)
    ensures forall n :: n in r <==> n in notifications && n.id != id
  {
    FilterIsSubsequence(notifications, (n: Notification) => n.id != id);
    FilterMembershipAll(notifications, (n: Notification) => n.id != id);
    Filter(notifications, (n: Notification) => n.id != id)
  }

  /** A notification's id is the time it was added, `Date.now().toString()`. */
  function NotificationId(now: int): string {
    IntToString(now)
  }

  /** All fields of the slice at one moment. */
  datatype UiView = UiView(
    sidebarOpen: bool,
    selectedOption: Option<string>,
    theme: Theme,
    notifications: seq<Notification>,
    modals: Modals,
    loadingStates: LoadingStates)

  /** `toggleSidebar` on a snapshot. */
  function ToggleSidebar(s: UiView): (r: UiView)
    ensures r.sidebarOpen != s.sidebarOpen && r.(sidebarOpen := s.sidebarOpen) == s
  {
    s.(sidebarOpen := !s.sidebarOpen)
  }

  /** Toggling twice restores the state. */
  lemma ToggleTwice(s: UiView)
    ensures ToggleSidebar(ToggleSidebar(s)) == s
  {
  }

  /** `resetUI` on a snapshot: sidebar closed, no notifications, every flag off; theme and option kept. */
  function Reset(s: UiView): (r: UiView)
    ensures !r.sidebarOpen && r.notifications == []
    ensures forall m :: !IsOpen(r.modals, m)
    ensures forall k :: !IsLoading(r.loadingStates, k)
    ensures r.theme == s.theme && r.selectedOption == s.selectedOption
  {
    s.(sidebarOpen := false, notifications := [], modals := AllClosed, loadingStates := NothingLoading)
  }

  /** Resetting twice is resetting once. */
  lemma ResetIdempotent(s: UiView)
    ensures Reset(Reset(s)) == Reset(s)
  {
  }

  class UiStore {
    var sidebarOpen: bool
    var selectedOption: Option<string>
    var theme: Theme
    var notifications: seq<Notification>
    var modals: Modals
    var loadingStates: LoadingStates

    function Snapshot(): UiView
      reads this
    {
      UiView(sidebarOpen, selectedOption, theme, notifications, modals, loadingStates)
    }

    /** `initialState`. */
    constructor ()
      ensures Snapshot() == UiView(false, None, Light, [], AllClosed, NothingLoading)
    {
      sidebarOpen, selectedOption, theme := false, None, Light;
      notifications, modals, loadingStates := [], AllClosed, NothingLoading;
    }

    method ToggleSidebarOpen()
      modifies this
      ensures Snapshot() == ToggleSidebar(old(Snapshot()))
    {
      sidebarOpen := !sidebarOpen;
    }

    method SetSidebarOpen(open: bool)
      modifies this
      ensures Snapshot() == old(Snapshot()).(sidebarOpen := open)
    {
      sidebarOpen := open;
    }

    method SetSelectedOption(option: string)
      modifies this
      ensures Snapshot() == old(Snapshot()).(selectedOption := Some(option))
    {
      selectedOption := Some(option);
    }

    method ClearSelectedOption()
      modifies this
      ensures Snapshot() == old(Snapshot()).(selectedOption := None)
    {
      selectedOption := None;
    }

    method SetTheme(t: Theme)
      modifies this
      ensures Snapshot() == old(Snapshot()).(theme := t)
    {
      theme := t;
    }

    /** `push` of a notification stamped with the clock: the earlier ones stay as they were. */
    method AddNotification(kind: NoticeKind, message: string, duration: Option<int>, now: int)
      modifies this
      ensures Snapshot() == old(Snapshot()).(notifications := old(notifications)
                                               + [Notification(NotificationId(now), kind, message, duration)])
    {
      notifications := notifications + [Notification(NotificationId(now), kind, message, duration)];
    }

    method RemoveNotification(id: string)
      modifies this
      ensures Snapshot() == old(Snapshot()).(notifications := WithoutNotification(old(notifications), id))
    {
      notifications := WithoutNotification(notifications, id);
    }

    method ClearNotifications()
      modifies this
      ensures Snapshot() == old(Snapshot()).(notifications := [])
    {
      notifications := [];
    }

    method SetModalOpen(modal: Modal, open: bool)
      modifies this
      ensures Snapshot() == old(Snapshot()).(modals := WithModal(old(modals), modal, open))
    {
      modals := WithModal(modals, modal, open);
    }

    method SetLoadingState(key: LoadingKey, loading: bool)
      modifies this
      ensures Snapshot() == old(Snapshot()).(loadingStates := WithLoading(old(loadingStates), key, loading))
    {
      loadingStates := WithLoading(loadingStates, key, loading);
    }

    method ResetUI()
      modifies this
      ensures Snapshot() == Reset(old(Snapshot()))
    {
      sidebarOpen := false;
      notifications := [];
      modals := AllClosed;
      loadingStates := NothingLoading;
    }
  }

  /**
   * Two notifications added in the same millisecond share an id, so
   * removing one of them removes both.
   */
  lemma SameMillisecondNotifications(earlier: seq<Notification>, a: Notification, b: Notification, now: int)
    requires a.id == NotificationId(now) && b.id == NotificationId(now)
    ensures a !in WithoutNotification(earlier + [a, b], a.id)
    ensures b !in WithoutNotification(earlier + [a, b], a.id)
  {
  }
}

=== FILE: utils.dfy ===
/**
 * Display helpers shared by the pages (lib/utils.ts): a wait in minutes
 * rendered as minutes and hours, and the badge classes for a priority and
 * for a queue status.
 */
module Utils {
  import opened Common
  import Records

  // ---------------------------------------------------------------------
  // formatTime
  // ---------------------------------------------------------------------

  /** What follows the hours: ` hr` alone on the hour, else ` hr` and the leftover minutes. */
  function HourTail(remainingMinutes: nat): string {
    if remainingMinutes == 0 then " hr" else " hr " + NatToString(remainingMinutes) + " min"
  }

  /** `formatTime(minutes)`: under an hour in minutes, else whole hours and the leftover minutes. */
  function FormatTime(minutes: int): (r: string)
    ensures minutes < 60 ==> r == IntToString(minutes) + " min"
    ensures minutes >= 60 ==>
              exists hours: nat, rest: nat ::
                && 60 * hours + rest == minutes && rest < 60 && hours >= 1
                && r == NatToString(hours) + HourTail(rest)
  {
    if minutes < 60 then IntToString(minutes) + " min"
    else
      var hours := minutes / 60;
      var remainingMinutes := minutes % 60;
      assert 60 * hours + remainingMinutes == minutes;
      NatToString(hours) + HourTail(remainingMinutes)
  }

  /** A non-negative wait's rendering splits into a number and a text starting with a space. */
  lemma FormatTimeParts(m: nat) returns (n: nat, t: string)
    ensures FormatTime(m) == NatToString(n) + t && t != [] && t[0] == ' '
    ensures m < 60 ==> n == m && t == " min"
    ensures m >= 60 ==> n == m / 60 && t == HourTail(m % 60) && m % 60 < 60
  {
    if m < 60 {
      n, t := m, " min";
    } else {
      n, t := m / 60, HourTail(m % 60);
    }
  }

  /** The text after the hours tells the leftover minutes apart. */
  lemma HourTailInjective(a: nat, b: nat)
    requires HourTail(a) == HourTail(b)
    ensures a == b
  {
    if a != 0 && b != 0 {
      var u, v := NatToString(a) + " min", NatToString(b) + " min";
      assert u == HourTail(a)[4..] == HourTail(b)[4..] == v;
      NumberThenText(a, b, " min", " min");
    }
  }

  /** Distinct non-negative waits are shown differently: the rendering loses nothing. */
  lemma FormatTimeInjective(m: nat, n: nat)
    requires FormatTime(m) == FormatTime(n)
    ensures m == n
  {
    var a, s := FormatTimeParts(m);
    var b, t := FormatTimeParts(n);
    NumberThenText(a, b, s, t);
    if m >= 60 && n >= 60 {
      HourTailInjective(m % 60, n % 60);
    }
  }

  // ---------------------------------------------------------------------
  // Badge colours
  // ---------------------------------------------------------------------

  /** The class string every unknown value falls back to. */
  const DefaultColor: string := "text-gray-700 bg-gray-50 border-gray-200"

  /** `getPriorityColor`: one class per priority, the gray default for anything else. */
  function PriorityColor(priority: string): (c: string)
    ensures priority !in {"emergency", "high", "medium", "low"} <==> c == DefaultColor
  {
    match priority
    case "emergency" => "text-clinic-emergency bg-red-100 border-red-300"
    case "high" => "text-red-700 bg-red-50 border-red-200"
    case "medium" => "text-yellow-700 bg-yellow-50 border-yellow-200"
    case "low" => "text-green-700 bg-green-50 border-green-200"
    case _ => DefaultColor
  }

  /** `getStatusColor`: one class per queue status, the gray default for anything else. */
  function StatusColor(status: string): (c: string)
    ensures status !in {"waiting", "in-progress", "completed"} <==> c == DefaultColor
  {
    match status
    case "waiting" => "text-blue-700 bg-blue-50 border-blue-200"
    case "in-progress" => "text-yellow-700 bg-yellow-50 border-yellow-200"
    case "completed" => "text-green-700 bg-green-50 border-green-200"
    case _ => DefaultColor
  }

  /** The stored priorities get pairwise distinct classes, none of them the default. */
  lemma PriorityColorsDistinct(p: Records.Priority, q: Records.Priority)
    ensures PriorityColor(p.Name()) != DefaultColor
    ensures p != q ==> PriorityColor(p.Name()) != PriorityColor(q.Name())
  {
  }

  /** The stored statuses get pairwise distinct classes, none of them the default. */
  lemma StatusColorsDistinct(s: Records.Status, t: Records.Status)
    ensures StatusColor(s.Name()) != DefaultColor
    ensures s != t ==> StatusColor(s.Name()) != StatusColor(t.Name())
  {
  }
}

=== FILE: visit_history.dfy ===
/**
 * A student's completed visits (app/api/visits/history/route.ts): the ten
 * most recent completed visits of the student, newest first. The route
 * fetches the caller's session but never looks at it, so anyone may ask
 * about any student.
 */
module VisitHistory {
  import opened Common
  import opened Records
  import opened Sequences

  /** The most visits one answer holds. */
  const HistoryLimit: nat := 10

  /** `sort({createdAt: -1})`: `a` may be listed before `b`. */
  predicate NewerOrSame(a: Visit, b: Visit) {
    a.createdAt >= b.createdAt
  }

  lemma NewerOrSameIsTotalPreorder()
    ensures TotalPreorder(NewerOrSame)
  {
  }

  /** `{studentId, queueStatus: 'completed'}`, the filter value through the trim setter. */
  predicate IsCompletedVisitOf(studentId: string, v: Visit) {
    v.studentId == Trim(studentId) && v.queueStatus == Completed
  }

  /** The route's filter as a predicate on visits. */
  function CompletedOf(studentId: string): Visit -> bool {
    v => IsCompletedVisitOf(studentId, v)
  }

  datatype HistoryOutcome = MissingStudentId | History(visits: seq<Visit>)

  /** The matching visits newest first, cut to the first ten. */
  function Newest(visits: seq<Visit>, studentId: string): seq<Visit> {
    var sorted := Sort(Filter(visits, CompletedOf(studentId)), NewerOrSame);
    sorted[..if |sorted| < HistoryLimit then |sorted| else HistoryLimit]
  }

  /** The facts the GET promises about `Newest`. */
  predicate IsHistoryOf(h: seq<Visit>, visits: seq<Visit>, studentId: string) {
    var n := Count(visits, CompletedOf(studentId));
    && |h| == (if n < HistoryLimit then n else HistoryLimit)
    && (forall i :: 0 <= i < |h| ==> h[i] in visits && IsCompletedVisitOf(studentId, h[i]))
    && SortedBy(h, NewerOrSame)
    && multiset(h) <= multiset(Filter(visits, CompletedOf(studentId)))
    && (forall v :: v in visits && IsCompletedVisitOf(studentId, v) && v !in h ==>
          forall i :: 0 <= i < |h| ==> h[i].createdAt >= v.createdAt)
  }

  /**
   * The GET on a snapshot of the store: only completed visits of the
   * student, at most ten, each stored visit at most as often as it is
   * stored, newest first, and no older than any matching visit left out.
   */
  function GetHistory(visits: seq<Visit>, studentId: Option<string>): (r: HistoryOutcome)
    ensures !Truthy(studentId) <==> r == MissingStudentId
    ensures r.History? ==> IsHistoryOf(r.visits, visits, studentId.value)
  {
    if !Truthy(studentId) then MissingStudentId
    else
      NewestIsHistory(visits, studentId.value);
      History(Newest(visits, studentId.value))
  }

  lemma NewestIsHistory(visits: seq<Visit>, studentId: string)
    ensures IsHistoryOf(Newest(visits, studentId), visits, studentId)
  {
    NewestMembers(visits, studentId);
    NewestShape(visits, studentId);
  }

  /** Only matching visits are kept, and none left out is newer than one kept. */
  lemma NewestMembers(visits: seq<Visit>, studentId: string)
    ensures var h := Newest(visits, studentId);
            && (forall i :: 0 <= i < |h| ==> h[i] in visits && IsCompletedVisitOf(studentId, h[i]))
            && (forall v :: v in visits && IsCompletedVisitOf(studentId, v) && v !in h ==>
                  forall i :: 0 <= i < |h| ==> h[i].createdAt >= v.createdAt)
  {
    var p := CompletedOf(studentId);
    var sorted := Sort(Filter(visits, p), NewerOrSame);
    var k := if |sorted| < HistoryLimit then |sorted| else HistoryLimit;
    var h := sorted[..k];
    assert Newest(visits, studentId) == h;
    MostRecent(visits, p, sorted, k);
    forall i | 0 <= i < |h| ensures h[i] in visits && IsCompletedVisitOf(studentId, h[i]) {
      assert h[i] == sorted[i];
    }
    forall v | v in visits && IsCompletedVisitOf(studentId, v) && v !in h
      ensures forall i :: 0 <= i < |h| ==> h[i].createdAt >= v.createdAt
    {
      assert p(v);
    }
  }

  /** At most ten, newest first, and no visit more often than it is stored. */
  lemma NewestShape(visits: seq<Visit>, studentId: string)
    ensures var h := Newest(visits, studentId);
            var n := Count(visits, CompletedOf(studentId));
            && |h| == (if n < HistoryLimit then n else HistoryLimit)
            && SortedBy(h, NewerOrSame)
            && multiset(h) <= multiset(Filter(visits, CompletedOf(studentId)))
  {
    var p := CompletedOf(studentId);
    var sorted := Sort(Filter(visits, p), NewerOrSame);
    var k := if |sorted| < HistoryLimit then |sorted| else HistoryLimit;
    assert Newest(visits, studentId) == sorted[..k];
    PrefixSubMultiset(sorted, k);
    NewestIsSorted(Filter(visits, p), sorted, k);
  }

  /** A prefix of the newest-first order is newest first. */
  lemma NewestIsSorted(s: seq<Visit>, sorted: seq<Visit>, k: nat)
    requires sorted == Sort(s, NewerOrSame) && k <= |sorted|
    ensures SortedBy(sorted[..k], NewerOrSame)
  {
    NewerOrSameIsTotalPreorder();
    SortSorted(s, NewerOrSame);
    SortedPrefix(sorted, NewerOrSame, k);
  }

  lemma MostRecent(visits: seq<Visit>, p: Visit -> bool, sorted: seq<Visit>, k: nat)
    requires sorted == Sort(Filter(visits, p), NewerOrSame) && k <= |sorted|
    ensures forall i :: 0 <= i < k ==> sorted[i] in visits && p(sorted[i])
    ensures SortedBy(sorted[..k], NewerOrSame)
    ensures forall v :: v in visits && p(v) && v !in sorted[..k] ==>
              forall i :: 0 <= i < k ==> sorted[i].createdAt >= v.createdAt
  {
    NewerOrSameIsTotalPreorder();
    SortSorted(Filter(visits, p), NewerOrSame);
    SortedPrefix(sorted, NewerOrSame, k);
    forall i | 0 <= i < k ensures sorted[i] in visits && p(sorted[i]) {
      SortFilterMembership(visits, p, NewerOrSame, sorted[i]);
    }
    forall v | v in visits && p(v) && v !in sorted[..k] ensures forall i :: 0 <= i < k ==> sorted[i].createdAt >= v.createdAt {
      SortFilterMembership(visits, p, NewerOrSame, v);
      var j :| 0 <= j < |sorted| && sorted[j] == v;
    }
  }
}
